=== FILE: README.md ===
# RelationsJS persistence core, in Dafny

RelationsJS is an Electron/React desktop application that keeps people,
transcripts, categories, nationalities and media files in a Neo4j graph
database and draws them as an interactive graph. This project models the
parts of it that decide what ends up in the database, on disk and on screen:

- **the graph store and the repositories over it.** `GraphStore` gives
  one function per Cypher statement the repositories send. Its state is
  nodes keyed by `id` plus an ordered list of typed relationships.
  `CategoryRepository`, `NationalityRepository`, `MediaRepository` and
  `TranscriptRepository` are CRUD over that store.
  `PersonRepository` covers:
  - find-or-create of the category and nationality, decided by the UUIDv4
    test in `Uuid`;
  - one Media node per uploaded file (`MediaUpload`);
  - relinking on update;
  - the avatar, id and passport slot rules;
  - the attachment diff by name;
  - the cascading delete.
- **the file store** (`FileStore`). It holds `files.upload`, `list`,
  `delete` and `clearUnused` over a tree of folders and files under the
  user-data folder.
- **the on-screen graph** (`VisualGraph`). It covers idempotent node
  insertion, edge orientation from path segments, edge de-duplication, and
  the label used by `getNodesByLabel` and `getNodeById`.
- **pure UI helpers**:
  - list edits and the "create new" autocomplete option of the person,
    add-person and transcript forms (`ListEdit`);
  - the list view's search filter, comparators, ASC/DESC ordering and
    mentioned lookup (`ListView`);
  - the floating toolbar's node search, its Cypher builders, import and
    export (`FloatingActions`).
- **records and validators.** `Models` holds the plain model classes and
  their setters. `Schemas` holds the yup schemas: the GPS and
  national-number patterns as automata and predicates, the Media type
  enumeration and the Category schema.

A repository call is a function from a `World` to an `Outcome`:

- the world is the database store paired with the disk;
- the outcome is either `Done(world)` or `Thrown(world, error)`;
- a thrown outcome keeps every write made before the throw.

uuid generation is a parameter `gen: nat -> string`:

- upload `i` of a run starting at `base` takes `gen(base + 2i)` for its
  file name and `gen(base + 2i + 1)` for its Media id;
- a person's `create` takes `gen(0)` and `gen(1)` for a new category and a
  new nationality, and starts its uploads at 2.

Three behaviours of the code are easy to miss; the model follows the code:

- **Person delete.** Deleting a person also deletes its Nationality node,
  as `DeletePersonCypher` does, because it removes the target of every
  outgoing relationship that is not `CATEGORIZED_AS`. Only the category
  survives.
- **Relinking on update.** The category or nationality is only relinked
  when the person already has such a relationship. Otherwise the `MATCH`
  yields no row and nothing is created.
- **Edge direction.** A path segment's direction is found by comparing
  the `low` 32 bits of the driver's node identities, not the whole
  identities. Two ends whose identities agree modulo 2^32 give a loop on
  the walk's start.

## Model

| member | source | states |
|---|---|---|
| Uuid.UUIDv4Characterization | src/repositories/person.repository.ts:6 | a string passes the UUIDv4 test iff it has 36 characters, dashes at 8, 13, 18 and 23, '4' at 14, one of 8 9 a b A B at 19 and a hex digit of either case everywhere else |
| Uuid.UUIDv4IsPatternMatch | src/repositories/person.repository.ts:6 | the position-by-position test is the anchored match of the written-out regular expression |
| Uuid.NoDashNotUUIDv4 | src/repositories/person.repository.ts:6 | a string with no dash (a typed name, the empty string) is never taken for an id, so it always creates a new node |
| Uuid.UUIDv4Chars | src/repositories/person.repository.ts:6 | a UUIDv4 holds only hex digits and dashes, so never '/' or '.' |
| Models.ParseFileType | src/global.d.ts:3 | a stored type string reads back as a file type only when it is that type's stored name |
| Models.FileTypeRoundTrip | src/global.d.ts:3 | every file type survives the trip through its stored name, and the six names are distinct |
| Models.NewMedia | src/models/media.model.ts:6-13 | a new media keeps a given id, otherwise gets a UUIDv4; it starts with empty name and path and type 'image' |
| Models.MediaEditsKeepId | src/models/media.model.ts:14-16 | no run of setter calls changes the id, and a field no call names keeps its value |
| Models.NewNationality | src/models/nationality.model.ts:5-10 | a new nationality keeps a given id, otherwise gets a UUIDv4, and its name starts empty |
| Models.NewCategory | src/repositories/person.repository.ts:69-72 | a new category keeps a given id, otherwise gets a UUIDv4, and its name starts empty |
| Models.NewTranscript | src/models/transcript.model.ts:5-13 | a new transcript keeps a given id, otherwise gets a UUIDv4; empty title and content, no date, no attachments |
| Models.TranscriptEditsKeepId | src/models/transcript.model.ts:14-17 | no run of setter calls changes the id, and a field no call names keeps its value |
| Models.NewPerson | src/repositories/person.repository.ts:182-204 | a new person carries the id, empty fields, empty category and nationality and no files |
| Schemas.GpsWholeIff | src/components/forms/person.form.tsx:288 | the automaton accepts exactly the values of the form digits '.' digits ',' optional space digits '.' digits |
| Schemas.GpsShapeAccepted | src/components/forms/person.form.tsx:288 | every value of that form is accepted |
| Schemas.GpsAcceptedShape | src/components/forms/person.form.tsx:288 | every accepted value has that form |
| Schemas.GpsFormImpliesSchema | src/models/person.model.tsx:22 | a value the form pattern accepts passes the unanchored schema pattern |
| Schemas.GpsSchemaLooser | src/models/person.model.tsx:22 | some value passes the schema but not the form (a leading letter) |
| Schemas.NationalNumberFormImpliesSchema | src/models/person.model.tsx:27 | a national number the form pattern accepts passes the schema pattern |
| Schemas.NationalNumberSchemaLooser | src/models/person.model.tsx:27 | a thirteen-digit value passes the schema but not the form |
| Schemas.CategoryErrors | src/models/category.model.ts:3-6 | no error is reported exactly when both fields are present and non-empty and the id passes the uuid check; an id failing the check is reported first with 'id must be a valid UUID' |
| Schemas.CategorySchemaCases | src/tests/models/category.test.ts:5-19 | a fresh v4 id with name 'test' is valid, an empty name is invalid, an empty id is rejected with 'id must be a valid UUID' |
| Schemas.CategoryRequired | src/models/category.model.ts:3-6 | a missing or empty id or name makes a category invalid |
| Schemas.MediaTypeEnumeration | src/models/media.model.tsx:8-13 | with id, name and path filled in, a media passes exactly when its type is one of image, video, id, avatar, passport and attachment |
| Schemas.MediaRecordValid | src/models/media.model.tsx:12 | every Media record with filled-in strings passes the schema |
| Schemas.PersonRequiredFields | src/models/person.model.tsx:8-32 | clearing any of id, arabicName, englishName, motherName or nationality makes a person invalid, and so does a birth or passport issue date that is not a date; clearing an optional patterned field or a date keeps a valid person valid |
| Schemas.PersonFormPatternsPass | src/models/person.model.tsx:22-27 | values the form patterns accept never make the schema fail |
| GraphStore.Create | src/repositories/category.repository.ts:7 | after a CREATE the node holds the given label and properties, every other node is unchanged and no relationship changes |
| GraphStore.CreateValid | src/repositories/nationality.repository.ts:7-12 | creating a node keeps the store valid: every relationship's ends are stored |
| GraphStore.Link | src/repositories/person.repository.ts:76-83 | a MATCH-MATCH-CREATE adds one relationship when both labelled nodes exist and nothing otherwise |
| GraphStore.LinkValid | src/repositories/person.repository.ts:108-115 | linking keeps the store valid and adds at most one relationship of that type from the source |
| GraphStore.SetPerson | src/repositories/person.repository.ts:355-405 | the SET overwrites the fields of the Person with that id and touches no other node or relationship |
| GraphStore.SetName | src/repositories/nationality.repository.ts:39-48 | the SET renames only the labelled node with that id |
| GraphStore.SetMedia | src/repositories/media.repository.ts:38-43 | the SET overwrites name, path and type of only that Media |
| GraphStore.SetTranscript | src/repositories/transcript.repository.ts:76-93 | the SET overwrites title, text and date of only that Transcript |
| GraphStore.SetKeepsValid | src/repositories/person.repository.ts:355-405 | setting properties keeps which nodes exist and every relationship, so validity is kept |
| GraphStore.DetachDelete | src/models/media.model.tsx:24-27 | a DETACH DELETE removes exactly the given nodes and every relationship touching one of them |
| GraphStore.DetachDeleteValid | src/repositories/category.repository.ts:38-42 | a DETACH DELETE keeps the store valid |
| GraphStore.DetachDeleteNothing | src/repositories/category.repository.ts:38-42 | deleting ids that name no stored node changes nothing |
| GraphStore.DeleteNodeEffect | src/repositories/nationality.repository.ts:49-53 | deleting a labelled node removes it and exactly the relationships touching it, keeps everything else in order, and leaves another label or an unknown id alone |
| GraphStore.MediaEndingWith | src/repositories/person.repository.ts:447-451 | the Media nodes matched are those of that type whose path ends with the name |
| GraphStore.DeleteMediaEndingWithExact | src/repositories/person.repository.ts:544-548 | the suffix delete removes exactly the matching Media nodes |
| GraphStore.CascadeVictims | src/models/person.model.tsx:62-67 | the cascade removes the person and every node one of its non-`CATEGORIZED_AS` relationships reaches |
| GraphStore.DeletePersonEffect | src/repositories/person.repository.ts:577-584 | the cascade removes the person and every node it reaches by a non-`CATEGORIZED_AS` relationship (its media and its nationality), keeps a node it reaches only by `CATEGORIZED_AS` (its category), and keeps the store valid |
| GraphStore.DeletePersonUnknown | src/repositories/person.repository.ts:577-584 | the cascade on an unknown id changes nothing |
| GraphStore.Relink | src/repositories/person.repository.ts:413-422 | a relink keeps every node and the number of relationships of that type from the person |
| GraphStore.RelinkCount | src/repositories/person.repository.ts:413-422 | replacing the k matched relationships by k to the new target keeps their count |
| GraphStore.RelinkEffect | src/repositories/person.repository.ts:431-440 | after a relink that matched, every relationship of that type from the person goes to the new target and the others are kept in order; with no such relationship nothing changes; the store stays valid |
| GraphStore.RelinkOthers | src/repositories/person.repository.ts:413-440 | relinking one type leaves the number and the first target of any other type's relationships alone |
| GraphStore.RelinkReaches | src/repositories/person.repository.ts:413-422 | a relink that matched leaves at least one relationship to the new target |
| GraphStore.FirstTarget | src/repositories/person.repository.ts:235-246 | a found node has the label and is reached by a relationship of that type from the person; none is found only when no such relationship reaches a node of the label |
| GraphStore.FirstTargetAllTo | src/repositories/person.repository.ts:323-346 | when every relationship of the type goes to one stored node of the label, the lookup finds it |
| GraphStore.FirstTargetOthers | src/repositories/person.repository.ts:235-258 | relationships of another type or from another node never change a lookup |
| GraphStore.HasMedia | src/repositories/person.repository.ts:206-218 | every record of the media list is a stored Media node with the record's name, path and type |
| GraphStore.HasMediaAppend | src/repositories/person.repository.ts:294-306 | appending a relationship appends what it contributes to the media list |
| GraphStore.HasMediaOthers | src/repositories/person.repository.ts:206-218 | the media list only looks at `HAS` relationships from the person |
| GraphStore.HasMediaStable | src/repositories/person.repository.ts:206-218 | the media list reads the same in any store that keeps the nodes its relationships reach |
| CategoryRepository.Create | src/repositories/category.repository.ts:5-10 | create leaves a Category node with the id and keeps the store valid |
| CategoryRepository.Read | src/repositories/category.repository.ts:11-20 | read lists one category per stored Category node |
| CategoryRepository.ReadById | src/repositories/category.repository.ts:21-31 | readbyId fails with 'No such a category' exactly when no Category node has the id; otherwise the id returned is the argument and the name the stored one |
| CategoryRepository.CreateThenRead | src/repositories/category.repository.ts:5-31 | a created category reads back with its id and name |
| CategoryRepository.UpdateEffect | src/repositories/category.repository.ts:32-37 | update returns the category it was given, renames exactly the matching category, keeps everything else, and changes nothing for an unknown id |
| CategoryRepository.DeleteEffect | src/repositories/category.repository.ts:38-42 | after delete the category is gone with its relationships, every other node stays and the store is valid |
| NationalityRepository.Create | src/repositories/nationality.repository.ts:5-15 | create leaves a Nationality node with the id and keeps the store valid |
| NationalityRepository.Read | src/repositories/nationality.repository.ts:16-26 | read lists one nationality per stored Nationality node |
| NationalityRepository.ReadById | src/repositories/nationality.repository.ts:27-38 | readById fails with 'No such a nationality' exactly when no Nationality node has the id; otherwise it returns the stored id and name |
| NationalityRepository.CreateThenRead | src/repositories/nationality.repository.ts:5-38 | a created nationality reads back with its id and name |
| NationalityRepository.UpdateEffect | src/repositories/nationality.repository.ts:39-48 | update returns the nationality it was given, renames exactly the matching nationality, keeps everything else, and changes nothing for an unknown id |
| NationalityRepository.DeleteEffect | src/repositories/nationality.repository.ts:49-53 | after delete the nationality is gone with its relationships, every other node stays and the store is valid |
| MediaRepository.Create | src/repositories/media.repository.ts:5-10 | create leaves a Media node with the id, adds no relationship and keeps the store valid |
| MediaRepository.Read | src/repositories/media.repository.ts:11-23 | read lists one media per stored Media node |
| MediaRepository.ReadById | src/repositories/media.repository.ts:24-37 | readById fails with 'No such a media' exactly when no Media node has the id |
| MediaRepository.CreateThenRead | src/repositories/media.repository.ts:5-37 | a created media reads back unchanged and is listed |
| MediaRepository.UpdateEffect | src/repositories/media.repository.ts:38-43 | update returns the media it was given, overwrites exactly the three properties of the matching media and keeps its id; nothing else changes; an unknown id changes nothing |
| MediaRepository.DeleteEffect | src/repositories/media.repository.ts:44-48 | after delete the media is gone with its relationships and every other node stays |
| TranscriptRepository.Read | src/repositories/transcript.repository.ts:42-57 | read lists one transcript per Transcript node, content taken from `text`, with no attachments |
| TranscriptRepository.ReadById | src/repositories/transcript.repository.ts:58-75 | readById fails with 'No such transcript' exactly when no Transcript node has the id, and never hydrates attachments |
| TranscriptRepository.ReadByIdUnknown | src/repositories/transcript.repository.ts:65 | an unknown id fails to read back |
| TranscriptRepository.UpdateEffect | src/repositories/transcript.repository.ts:76-93 | update returns the transcript it was given, overwrites exactly those three properties of the matching transcript, keeps its id and every relationship, and changes nothing for an unknown id |
| TranscriptRepository.CreateThenRead | src/repositories/transcript.repository.ts:8-41 | a new transcript reads back with its title, content and date whether or not its uploads throw; when none throws, its `HAS` relationships reach one attachment Media per file, in order |
| TranscriptRepository.DeleteAsWrittenKeeps | src/repositories/transcript.repository.ts:94-102 | the delete as written always throws and leaves the store as it was, so readById gives after it what it gave before, and a stored transcript still reads back |
| TranscriptRepository.DeleteAsWrittenExample | src/repositories/transcript.repository.ts:99 | a concrete stored transcript is not deleted and still reads back |
| TranscriptRepository.DeleteEffect | src/repositories/transcript.repository.ts:94-102 | the corrected delete never throws, removes the transcript with its relationships and keeps every other node and the store's validity |
| FileStore.Upload | src/preload.ts:13-22 | upload fails exactly when a file stands where a folder is needed; otherwise it returns the folder path joined with the stored name, the folder exists and the file holds the content |
| FileStore.UploadFrame | src/preload.ts:19-20 | an upload changes nothing but the one stored file |
| FileStore.ExtNameShape | src/preload.ts:14-15 | the extension is empty or starts with its only '.', and base name plus extension is the whole name |
| FileStore.StoredNameParts | src/preload.ts:16 | the stored name is the original name with `-uuid` inserted before the extension |
| FileStore.StoredNameKeepsExtension | src/preload.ts:16 | the stored name keeps the original extension when the uuid has no '.' |
| FileStore.UploadPathsDiffer | src/preload.ts:16-18 | two uploads of one name for one node and type with different uuids of the same length get different paths |
| FileStore.StoredNameNoSlash | src/preload.ts:16 | a stored name built from slash-free parts is a single path component |
| FileStore.FinalComponentOfJoin | src/global.d.ts:19 | the last component of a folder path joined with a slash-free name is that name |
| FileStore.List | src/preload.ts:23-27 | list is empty when the node folder is missing, and otherwise holds exactly the folder path joined with each entry |
| FileStore.Delete | src/preload.ts:28-32 | delete removes exactly that path, is a no-op when it is missing, and throws on a folder |
| FileStore.UploadThenDelete | src/preload.ts:13-32 | deleting an upload by its stored name removes it again, leaving only the folder |
| FileStore.Swept | src/preload.ts:37-48 | the swept type folder keeps only the known names inside node sub-folders and skips entries that are not folders |
| FileStore.ClearUnused | src/preload.ts:33-50 | the sweep returns 0 for a missing type folder and otherwise unlinks every unknown file one level down and returns their number |
| FileStore.ClearUnusedFrame | src/preload.ts:33-50 | the sweep touches only its own type folder |
| FileStore.ClearUnusedCount | src/preload.ts:42-44 | the count returned is the drop in the number of files held in node sub-folders |
| FileStore.ClearUnusedIdempotent | src/preload.ts:33-50 | a second sweep with the same known files finds nothing |
| MediaUpload.GetFile | src/global.d.ts:19 | taken, as its body is not in the source, to return a file whose token is the path and whose name the path ends with |
| MediaUpload.StoredFileRead | src/preload.ts:16-21 | for a slash-free name and uuid, getFile of the stored path gives that path as token and the uuid-suffixed name; the stored content is not read |
| MediaUpload.AttachFileDone | src/repositories/person.repository.ts:100-117 | the upload as intended: a completed upload writes the file's bytes under the stored name, adds its Media node and, for an existing owner, exactly one `HAS` relationship |
| MediaUpload.AttachFileAsWrittenLosesBytes | src/preload.ts:20 | the upload as written: two files with the same name and slot leave exactly the same world, and a completed upload stores the text `[object ArrayBuffer]` |
| MediaUpload.AttachFileEffect | src/repositories/person.repository.ts:154-173 | one upload grows the store by one Media node and one `HAS` relationship and the owner's media list by one record |
| MediaUpload.AttachAllShape | src/repositories/person.repository.ts:154-173 | a completed run only adds (every node stays, every old relationship stays as a prefix), keeps the store valid, and its new node ids are exactly the run's media ids |
| MediaUpload.AttachAllEdges | src/repositories/person.repository.ts:154-173 | a completed run appends one `HAS` relationship from the owner to each new media id, in upload order |
| MediaUpload.AttachAllMedia | src/repositories/person.repository.ts:154-173 | a completed run grows the owner's media list by exactly the expected records, in order |
| MediaUpload.AttachEachAgrees | src/repositories/transcript.repository.ts:23-39 | when no upload throws, unawaited uploads end where sequential ones do |
| MediaUpload.AttachEachGrows | src/repositories/transcript.repository.ts:23-39 | unawaited uploads, whether or not some throw, keep every stored node, keep the store valid and add no node beyond the run's media ids |
| PersonRepository.Slot | src/repositories/person.repository.ts:100-153 | an absent image gives no upload, a present one exactly one |
| PersonRepository.Absorb | src/repositories/person.repository.ts:219-234 | absorbing a media record never changes the person's id, fields, category or nationality |
| PersonRepository.Hydrate | src/repositories/person.repository.ts:219-234 | hydration never changes the person's id, fields, category or nationality |
| PersonRepository.HydrateSlot | src/repositories/person.repository.ts:219-229 | the media of one avatar, id or passport slot fill that slot, and an empty slot leaves the person alone |
| PersonRepository.HydrateAttachments | src/repositories/person.repository.ts:230-232 | the media of a run of attachments append each stored file to the attachments, in order |
| PersonRepository.ToPerson | src/repositories/person.repository.ts:264-351 | a stored person reads back with its id and the fields its node holds |
| PersonRepository.ReadById | src/repositories/person.repository.ts:264-268 | readById fails with 'No such a person' exactly when no Person node has the id; otherwise it returns that id and the node's fields |
| PersonRepository.Read | src/repositories/person.repository.ts:176-263 | read lists exactly what readById returns for the stored Person ids |
| PersonRepository.UnknownIdChangesNothing | src/repositories/person.repository.ts:353 | update and delete of an unknown id throw 'No such a person' and leave the world unchanged |
| PersonRepository.CreateRecordShape | src/repositories/person.repository.ts:16-99 | create on new ids keeps the store valid and only grows it, by the Person node and at most the two fresh nodes |
| PersonRepository.CreateRecordLinks | src/repositories/person.repository.ts:69-99 | create writes no `HAS` relationship from the person yet, and its category and nationality read back as the UUIDv4 rule predicts |
| PersonRepository.LinkStepEffect | src/repositories/person.repository.ts:69-84 | one link step adds at most the fresh node and exactly the relationship the UUIDv4 rule expects, or none |
| PersonRepository.ResolveEffect | src/repositories/person.repository.ts:69-74 | resolving keeps the relationships, adds at most the fresh node, and links to the id the UUIDv4 rule predicts |
| PersonRepository.HydrateUploads | src/repositories/person.repository.ts:100-173 | hydrating a blank person with the media of create's uploads gives each file back as getFile of the path it was stored under, in its slot or in attachment order |
| PersonRepository.CreateThenRead | src/repositories/person.repository.ts:15-351 | a create on new ids whose uploads succeed reads back with the same id and fields, each file as getFile of the path it was stored under, and the category and nationality the UUIDv4 rule links |
| PersonRepository.StoredPersonNames | src/repositories/person.repository.ts:100-173 | with UUIDv4 uuids and slash-free names, each file of a created person reads back, by the assumed getFile naming rule, under its uuid-suffixed name |
| PersonRepository.UpdateRecordLinks | src/repositories/person.repository.ts:352-441 | update writes the new fields, and a resolving category or nationality replaces the old link only when the person already had one; the number of each kind of relationship is kept |
| PersonRepository.RelinkStepEffect | src/repositories/person.repository.ts:406-441 | one relink step keeps the nodes and the relationship counts, leaves the other kind's lookup alone, and when the person had a link and the reference resolves, the lookup gives the expected reference |
| PersonRepository.SlotKept | src/repositories/person.repository.ts:442-456 | no new file, or a new file named like the old one, writes nothing |
| PersonRepository.SlotReplaced | src/repositories/person.repository.ts:442-474 | a new file with another name deletes the old Media nodes matching the old name and the old file, then creates exactly one Media node for the new file |
| PersonRepository.DiffByName | src/repositories/person.repository.ts:541-554 | an old attachment is dropped iff no new one has its name; a new one is added iff no old one has its name |
| PersonRepository.RemoveDroppedIsDiff | src/repositories/person.repository.ts:541-551 | the first attachment loop removes exactly the dropped attachments, in order |
| PersonRepository.UploadAddedIsDiff | src/repositories/person.repository.ts:552-572 | the second attachment loop uploads exactly the added attachments, in order, as one run |
| PersonRepository.SameNamedKept | src/repositories/person.repository.ts:541-551 | files of attachments that keep their name are not touched |
| PersonRepository.RemoveStoredEffect | src/repositories/person.repository.ts:588-596 | a suffix delete then a file delete removes only Media nodes of that type ending with the name and only that file |
| PersonRepository.RemoveAllEffect | src/repositories/person.repository.ts:587-596 | removing a run of files removes only Media nodes of that type and the named files, and every other file stays |
| PersonRepository.RemoveSlotEffect | src/repositories/person.repository.ts:597-626 | removing a slot file keeps the store valid, removes at most Media nodes, removes the named file and touches no other type or owner folder |
| PersonRepository.DeleteEffect | src/repositories/person.repository.ts:575-627 | after delete the person no longer reads back; every node it reached by a non-`CATEGORIZED_AS` relationship is gone; a non-media node reached only by `CATEGORIZED_AS` stays; its stored files are gone and other owners' files are untouched |
| VisualGraph.NodeAttrsBasics | src/neo4j-sigma-graph.ts:53-54 | an added node's node_type is its upper-cased first label, its type is 'image', its id is its id property, and it has a label exactly when it is a PERSON |
| VisualGraph.AddNodeIdempotent | src/neo4j-sigma-graph.ts:66-68 | adding a node twice is adding it once |
| VisualGraph.AddNodeKeepsFirst | src/neo4j-sigma-graph.ts:66-68 | adding a node whose key is present changes nothing |
| VisualGraph.AddNodeEffect | src/neo4j-sigma-graph.ts:52-69 | after adding, the key is present, nothing already there changes and no edge is touched |
| VisualGraph.AddNodeKeyedById | src/neo4j-sigma-graph.ts:52-68 | a node is stored under its `id` property and carries that property as its `id` attribute, so a graph whose nodes show their keys keeps doing so |
| VisualGraph.AddPathKeyedById | src/neo4j-sigma-graph.ts:70-84 | adding paths keeps every on-screen node's `id` attribute equal to its key |
| VisualGraph.SegmentOrientation | src/neo4j-sigma-graph.ts:76-77 | only the `low` 32 bits of the identities are compared: when the two ends differ there, an edge goes from the relationship's stored start to its stored end, whichever way the path walked it; when they agree there, the edge is a loop on the walk's start |
| VisualGraph.LowCollisionSelfLoop | src/neo4j-sigma-graph.ts:76-81 | identities 5 and 5 + 2^32 walked against their relationship draw a loop on the walk's start instead of the stored edge |
| VisualGraph.AddSegmentEffect | src/neo4j-sigma-graph.ts:72-83 | a segment adds exactly its two node keys and at most its ordered pair, labelled by `data`'s label or else the relationship type, and changes nothing already there |
| VisualGraph.AddPathEffect | src/neo4j-sigma-graph.ts:71-84 | a path adds exactly the keys and ordered pairs of its segments, so both ends of every segment are nodes and every segment has its edge |
| VisualGraph.AddPathIdempotent | src/neo4j-sigma-graph.ts:71-84 | adding a path twice is adding it once |
| VisualGraph.NodesByLabel | src/neo4j-sigma-graph.ts:86-92 | no session gives nothing; otherwise the nodes carrying the queried label, every one of them, in database order |
| VisualGraph.NodeById | src/neo4j-sigma-graph.ts:94-100 | the result is absent iff there is no session or no node has an `id` property equal to the key; otherwise it is a node whose `id` property is the key, so a node without one is never returned |
| VisualGraph.QueriedLabelRoundTrip | src/neo4j-sigma-graph.ts:89 | for a name without lower-case letters, upper-casing the queried label gives the name back |
| VisualGraph.FoundNodeType | src/neo4j-sigma-graph.ts:53 | a node found by label whose first label is the queried one shows with that node_type |
| ListEdit.AddEntry | src/components/forms/person.form.tsx:47-52 | an empty draft changes nothing; otherwise the list gains the draft without duplicating it and the draft is cleared |
| ListEdit.AddEntryEffect | src/components/add-node/add-person.component.tsx:154-159 | on a duplicate-free list, a new draft is appended and a present one leaves the list alone |
| ListEdit.AddEntryFirstOccurrences | src/components/forms/person.form.tsx:49 | after an add the list keeps first occurrences in order and holds every old value and the draft exactly once |
| ListEdit.ChangeEntryEffect | src/components/forms/person.form.tsx:53-59 | a non-empty value replaces only that entry and keeps the length; the empty value deletes the entry |
| ListEdit.DeleteEntryEffect | src/components/forms/person.form.tsx:60-62 | delete removes exactly that entry, keeps the rest in order, and changes nothing for an index out of range |
| ListEdit.AddFilesEffect | src/components/forms/transcript.form.tsx:32-41 | adding files keeps the old list as a prefix and appends the new picks once each, in pick order |
| ListEdit.WithCreateNew | src/components/forms/person.form.tsx:144-151 | the filtered options are kept as a prefix and at most one option is appended |
| ListEdit.CreateNewIff | src/components/forms/person.form.tsx:168-175 | the create-new option is appended iff the input is non-empty and no option has it as id, and it carries the input as id |
| ListEdit.CreateNewIgnoresLabels | src/components/forms/person.form.tsx:147 | an input equal to a label but to no id still offers to create |
| ListEdit.Selected | src/components/add-node/add-person.component.tsx:269 | the stored value is the chosen option's id, or '' when cleared |
| ListEdit.SelectThenShow | src/components/forms/person.form.tsx:143-152 | among options with distinct ids, storing a selection and showing it back gives the option chosen; a cleared selection shows nothing unless some option has the empty id |
| ListEdit.MapMentionedEffect | src/components/forms/transcript.form.tsx:84 | free text becomes an option with that id and an empty label, picked options pass through, each at its own position |
| ListEdit.MapMentionedPicked | src/components/forms/transcript.form.tsx:84 | re-mapping picked options is the identity |
| ListEdit.SameOptionEquivalence | src/components/forms/transcript.form.tsx:90 | option equality is an equivalence that compares ids only |
| ListEdit.DateInput | src/components/forms/person.form.tsx:106-113 | an empty input leaves the date unchanged; any other input sets the date moment parses from it |
| ListEdit.DateInputClearing | src/components/add-node/add-person.component.tsx:293 | an empty input clears the date; any other input sets the date `new Date` parses from it |
| ListEdit.DateFormsDiffer | src/components/add-node/add-person.component.tsx:427 | on a non-empty input the two forms set the same date iff their two parsers agree on it; on an empty input they differ iff a date was set |
| ListView.AnyMatchesIff | src/views/list.view.tsx:129-134 | the forEach sets the flag iff some entry matches |
| ListView.FilterPeopleEffect | src/views/list.view.tsx:105-136 | a person is kept iff the lower-cased search occurs in one of the nineteen fields or some extra or restriction entry; the result keeps the fetched order |
| ListView.FilterTranscriptsEffect | src/views/list.view.tsx:137-147 | the filter as intended, over transcripts that carry their mentioned people: a transcript is kept iff the search occurs, case-insensitively, in its title, content or a mentioned label; fetched order is kept |
| ListView.FilterTranscriptsAsWrittenThrows | src/views/list.view.tsx:137-147 | the filter as written, over `Transcript` instances: it throws iff at least one transcript was fetched, whatever the search |
| ListView.FilterTranscriptsIntended | src/views/list.view.tsx:137-147 | with the `mentioned` field present the callback never throws and the filter keeps exactly the transcripts the intended filter keeps |
| ListView.EmptySearchKeepsAll | src/views/list.view.tsx:105-147 | the empty search keeps both lists whole |
| ListView.CompareMeaning | src/views/list.view.tsx:169-267 | every comparator but arabicName and category returns 0 when either side lacks the field; otherwise birthDate is the timestamp difference and the rest defer to the collation |
| ListView.BirthDateAntisymmetric | src/views/list.view.tsx:201-206 | the birthDate comparator negates when the people swap |
| ListView.CompareAntisymmetric | src/views/list.view.tsx:169-267 | over an antisymmetric collation every comparator is antisymmetric |
| ListView.EmptyGuardInconsistent | src/views/list.view.tsx:171-176 | the empty-field guard breaks transitivity, so the englishName order is not a total preorder |
| ListView.SortBy | src/views/list.view.tsx:271 | the sort returns a permutation of its input of the same length |
| ListView.SortSorted | src/views/list.view.tsx:271 | under a consistent comparator the sort orders the list |
| ListView.DescendingIsReversed | src/views/list.view.tsx:271-272 | from the same state array, the DESC render is the ASC render read backwards, holds the same people, and is non-increasing under a consistent comparator |
| ListView.RenderOrderDependsOnHistory | src/views/list.view.tsx:271-272 | each render sorts the previous render's array in place: two people tied on birth date swap places on every DESC render, and after one DESC render the ASC order differs from a fresh list's |
| ListView.FindPersonEffect | src/views/list.view.tsx:296 | the lookup finds the first fetched person with the id, and nothing when none has it |
| ListView.MentionedClickEffect | src/views/list.view.tsx:295-300 | a click on an unknown id leaves the view alone; otherwise it shows the first person with that id |
| FloatingActions.FindMatchingEffect | src/components/floating-actions.components.tsx:132-140 | the options are exactly those of nodes whose set label contains the search case-insensitively, in visiting order |
| FloatingActions.PathCandidatesEffect | src/components/floating-actions.components.tsx:141-166 | nothing is offered once a node is chosen or while the search is empty; otherwise every matching node but the other end's choice, in visiting order |
| FloatingActions.SearchChangeEffect | src/components/floating-actions.components.tsx:182-214 | typing a candidate's exact label chooses the first such candidate and empties the list; anything else clears the choice and keeps the text |
| FloatingActions.FindByLabelEffect | src/components/floating-actions.components.tsx:183 | the search finds the first candidate with exactly that label, and nothing when none has it |
| FloatingActions.NodeQueryReadsBack | src/components/floating-actions.components.tsx:296-299 | the node statement starts with `MERGE (:`, carries the type next, and the text in braces splits into `key: $key` entries in key order |
| FloatingActions.EdgeQueryReadsBack | src/components/floating-actions.components.tsx:300-302 | the relation type reads back from the edge statement, so different types give different statements |
| FloatingActions.SplitJoin | src/components/floating-actions.components.tsx:297 | splitting a ', '-joined list of comma-free parts gives the parts back |
| FloatingActions.NodeParamsMatchKeys | src/components/floating-actions.components.tsx:321-330 | the statement's keys are exactly the parameters bound, and each holds the node's value |
| FloatingActions.Import | src/components/floating-actions.components.tsx:314-341 | an import fails exactly when the node list or the edge list is missing |
| FloatingActions.ImportNodesEffect | src/components/floating-actions.components.tsx:317-334 | one statement is sent per node whose id is not on screen, in order |
| FloatingActions.ImportSkipsPresent | src/components/floating-actions.components.tsx:318 | every node statement sent binds an id that is not on screen |
| FloatingActions.ExportEffect | src/components/floating-actions.components.tsx:357-361 | an exported node keeps its set attributes but type, label, x, y and image; an exported edge keeps its set attributes and gains source and target |
| FloatingActions.PersonRoundTrip | src/components/floating-actions.components.tsx:317-361 | importing an exported PERSON node sends its id, essid, bssid and (when set) password as a Person; pin and handshakes are not read back |
| FloatingActions.EdgeRoundTrip | src/components/floating-actions.components.tsx:335-361 | importing an exported edge sends the statement of its relation type bound to its two ends |
| FloatingActions.ReimportSendsNoNodes | src/components/floating-actions.components.tsx:317-318 | importing the export of on-screen nodes back into a graph whose nodes are keyed by their `id` attribute sends no node statement |

## Left out

- Models.NewPerson: the `Person` class is not part of this model's source; only its constructor call `new Person(id)` appears. Its initial values are assumed: empty fields, an empty category and nationality reference, and no files.
- Models.NewCategory: the `Category` class is not part of this model's source either. It is assumed to hold an id, defaulting to a UUIDv4, and a name that starts empty, like `Nationality`.
- Cypher parsing, sessions, transactions and the driver are not modelled. Each statement is modelled by its effect on the store.
- The store is keyed by `id`. A second `CREATE` with an id already present replaces that node, where the database would hold two nodes.
- `MATCH (p)-[r:TYPE]->()` follows Neo4j 5: it matches a relationship of that type.
- When a lookup finds several records, the first one used is taken to be the first in relationship order. The database's own order is not specified.
- A suffix delete (`m.path ENDS WITH $name`) may also remove media of other owners. This is modelled as written.
- Relinks on update use `person.id`, while the scalar SET uses the `id` argument. This is modelled as written: the two are passed separately.
- The unawaited `forEach` in a transcript's `create` is modelled as uploads run one after another. `AttachEach` also covers the case where some of them throw. No interleaving is modelled.
- `read()` is modelled without a search argument. `_renderSearchObject` is not part of this model.
- yup's uuid, email and date checks are parameters. `Schemas.PersonInput` carries only the fields with a rule beyond a nullable string.
- `moment` dates are opaque integers.
- `localeCompare` is an abstract collation.
- MUI's own option filter is an abstract function.
- `toLowerCase`/`toUpperCase` and `_.capitalize` are ASCII-only.
- ListView.SortBy: `Array.prototype.sort` is modelled as a stable insertion sort. The engine's order under an inconsistent comparator, which `EmptyGuardInconsistent` shows can occur, is not modelled.
- ListView.CompareMeaning: the nationality comparator's guard is modelled as never firing, because a person always carries a nationality object.
- ListView.FilterTranscriptsEffect: states the filter for transcripts that carry their mentioned people, kept beside the record (`TranscriptRow`). The `Transcript` class at src/models/transcript.model.ts:4-18 has no such field, so as written the filter throws (see Findings).
- ListEdit.MapMentionedEffect: states the list handed to `transcript.setMentioned`. The `Transcript` class has no such method, so as written that call throws a TypeError on every change of the field. The throw is not modelled; `ListEdit.MapMentionedPicked` is stated on the same terms.
- The visual graph's node iteration order and the export's node order are parameters.
- Numeric attributes (`x`, `y`) and the boolean `highlighted` that the toolbar sets on a found node are not representable. The export drops `x` and `y`, but it would copy `highlighted`.
- FloatingActions.Import: the model stops at the statements sent. Their MERGE effect on the database is not modelled, and the per-statement errors the source swallows are not modelled.
- The floating toolbar's camera, highlight, zoom, hotkeys and the `saveFile` dialog are I/O and are left out.
- VisualGraph.NodeById: states that the node returned has the id. It does not state that it is the first such node in database order.
- VisualGraph: the absence of a driver is a `connected` flag. `labels[0]` is required to exist, as every database node has a label.
- `getNodeRelations` and `getNodesShortestPath` are store queries outside this model.
- File contents are a token standing for the bytes. As written, `upload` writes the text `[object ArrayBuffer]` instead of them (see Findings); the rest of the model writes the bytes. `list` returns entries as a set, not in `readdir` order.
- MediaUpload.GetFile: its body is not in the source; src/global.d.ts:11 places it in public/preload.js. It is assumed to return a file whose token is the path and whose name is the last path component. The disk is not read.
- MediaUpload.StoredFileRead: states what the assumed getFile gives for a stored path, not the stored content.
- PersonRepository.HydrateUploads: each file comes back as getFile of the path it was stored under. Its content is not read from the disk.
- PersonRepository.CreateThenRead: the files of the round trip are getFile of their stored paths, as in HydrateUploads. The id, fields and links are read from the store.
- PersonRepository.StoredPersonNames: the names follow from the assumed getFile naming rule.
- FileStore.ClearUnused: the sweep stops at the first unlink that throws, and the partial state is not described beyond that throw.
- Index setup, the record repository, the dashboard, settings, routing, theming and translations are not part of this model.

## Findings

| source | as written | input that shows it | evidently intended | confidence | as-written member | corrected member |
|---|---|---|---|---|---|---|
| src/repositories/transcript.repository.ts:99 | the delete statement reads `DETATCH DELETE r`, which the database rejects, so no transcript is ever deleted | any stored transcript id | `DETACH DELETE r`: the transcript and its relationships are removed | not executed | TranscriptRepository.DeleteAsWrittenExample | TranscriptRepository.DeleteEffect |
| src/preload.ts:20 | `upload` writes `content.toString()`, and every caller passes the file's `ArrayBuffer`, whose `toString()` is `[object ArrayBuffer]`, so the file's bytes are lost | any upload, e.g. two files with the same name and different contents, which leave the same disk | the file's bytes are written | not executed | MediaUpload.AttachFileAsWrittenLosesBytes | MediaUpload.AttachFileDone |
| src/views/list.view.tsx:143 | the transcript filter calls `transcript.mentioned.forEach`, but the `Transcript` class (src/models/transcript.model.ts:4-18) declares no `mentioned`, so the call throws on `undefined` | any non-empty list of fetched transcripts, with any search | transcripts carry their mentioned people, and the filter also searches their labels | not executed | ListView.FilterTranscriptsAsWrittenThrows | ListView.FilterTranscriptsEffect |

=== FILE: category_repository.dfy ===
/** src/repositories/category.repository.ts: CRUD over Category nodes. */
module CategoryRepository {
  import opened Wrappers
  import opened Models
  import opened GraphStore

  /** `create`: `CREATE (c:Category { id: $id, name: $name })`; the category
      itself is returned. */
  function Create(s: Store, c: Category): (r: Store)
    ensures HasLabel(r, c.id, CategoryLabel)
    ensures Valid(s) ==> Valid(r)
  {
    GraphStore.Create(s, c.id, CategoryNode(c.name))
  }

  /** `read`: one category per stored Category node. */
  function Read(s: Store): (r: set<Category>)
    ensures forall c :: c in r <==> c.id in s.nodes && s.nodes[c.id] == CategoryNode(c.name)
  {
    set id | id in s.nodes && s.nodes[id].CategoryNode? :: Category(id, s.nodes[id].name)
  }

  /** `readbyId`: fails with 'No such a category' when no Category node has
      the id; otherwise the category carries the argument id and the stored name. */
  function ReadById(s: Store, id: string): (r: Result<Category>)
    ensures r.Failure? <==> !HasLabel(s, id, CategoryLabel)
    ensures r.Failure? ==> r.error == "No such a category"
    ensures r.Success? ==> r.value.id == id && s.nodes[id] == CategoryNode(r.value.name)
  {
    if HasLabel(s, id, CategoryLabel) then Success(Category(id, s.nodes[id].name))
    else Failure("No such a category")
  }

  /** `update`: sets the name of the Category node with that id, if any, and
      returns its argument. */
  function Update(s: Store, id: string, c: Category): (r: (Store, Category))
    ensures r.1 == c
  {
    (SetName(s, id, CategoryLabel, c.name), c)
  }

  /** `delete`: `MATCH (c:Category) WHERE c.id = $id DETACH DELETE c`. */
  function Delete(s: Store, id: string): Store {
    DeleteNode(s, id, CategoryLabel)
  }

  /** A created category reads back with its id and name. */
  lemma CreateThenRead(s: Store, c: Category)
    ensures ReadById(Create(s, c), c.id) == Success(c)
    ensures c in Read(Create(s, c))
  {
  }

  /** An update returns the category it was given and renames exactly the
      matching category: other nodes and all relationships are untouched, and
      an unknown id changes nothing. */
  lemma UpdateEffect(s: Store, id: string, c: Category, k: string)
    ensures Update(s, id, c).1 == c
    ensures var s' := Update(s, id, c).0;
      && s'.edges == s.edges
      && (HasLabel(s, id, CategoryLabel) ==> ReadById(s', id) == Success(Category(id, c.name)))
      && (!HasLabel(s, id, CategoryLabel) ==> s' == s)
      && (k != id && k in s.nodes ==> k in s'.nodes && s'.nodes[k] == s.nodes[k])
  {
  }

  /** After a delete the category is gone, the store stays valid, every
      other node is still there, and no relationship touches the deleted one. */
  lemma DeleteEffect(s: Store, id: string)
    requires Valid(s)
    ensures ReadById(Delete(s, id), id).Failure?
    ensures Valid(Delete(s, id))
    ensures forall k :: k != id && k in s.nodes ==> k in Delete(s, id).nodes && Delete(s, id).nodes[k] == s.nodes[k]
    ensures ReadById(s, id).Success? ==>
      forall i :: 0 <= i < |Delete(s, id).edges| ==> Delete(s, id).edges[i].src != id && Delete(s, id).edges[i].dst != id
  {
    DeleteNodeEffect(s, id, CategoryLabel);
  }
}

=== FILE: filestore.dfy ===
/** The `files` bridge of src/preload.ts: uploads land in
    `${userData}/${fileType}/${nodeId}/`, and the bridge lists, deletes and
    sweeps the files there. The disk under the `userData` folder is a tree of
    folders and files; each of the three path components below `userData` is
    one level of that tree. */
module FileStore {
  import opened Wrappers
  import opened Seqs
  import opened Models

  /** A directory entry: a file with its written text, or a folder. */
  datatype Entry = FileEntry(content: string) | Folder(children: map<string, Entry>)

  /** The `userData` folder: its path and its entries (one per file type in use). */
  datatype Disk = Disk(userData: string, root: map<string, Entry>)

  // ---------------------------------------------------------------- lookup

  /** The entries of `${userData}/${t}`, when that is a folder. */
  function TypeFolder(d: Disk, t: FileType): Option<map<string, Entry>> {
    var k := FileTypeName(t);
    if k in d.root && d.root[k].Folder? then Some(d.root[k].children) else None
  }

  /** The entries of `${userData}/${t}/${nodeId}`, when that is a folder. */
  function NodeFolder(d: Disk, t: FileType, nodeId: string): Option<map<string, Entry>> {
    match TypeFolder(d, t)
    case None => None
    case Some(tf) => if nodeId in tf && tf[nodeId].Folder? then Some(tf[nodeId].children) else None
  }

  /** The entry at `${userData}/${t}/${nodeId}/${name}`, if any. */
  function Lookup(d: Disk, t: FileType, nodeId: string, name: string): Option<Entry> {
    match NodeFolder(d, t, nodeId)
    case None => None
    case Some(nf) => if name in nf then Some(nf[name]) else None
  }

  /** `${userData}/${fileType}/${nodeId}`. */
  function FolderPath(d: Disk, t: FileType, nodeId: string): string {
    d.userData + "/" + FileTypeName(t) + "/" + nodeId
  }

  /** Replaces the node folder's entries, creating the type and node folders. */
  function WithNodeFolder(d: Disk, t: FileType, nodeId: string, nf: map<string, Entry>): Disk {
    var k := FileTypeName(t);
    var tf := TypeFolder(d, t).GetOr(map[]);
    d.(root := d.root[k := Folder(tf[nodeId := Folder(nf)])])
  }

  /** The node folder is replaced and every entry outside it is untouched. */
  lemma WithNodeFolderFrame(d: Disk, t: FileType, nodeId: string, nf: map<string, Entry>, t': FileType, n': string, name: string)
    ensures NodeFolder(WithNodeFolder(d, t, nodeId, nf), t, nodeId) == Some(nf)
    ensures (t' != t || n' != nodeId) ==> Lookup(WithNodeFolder(d, t, nodeId, nf), t', n', name) == Lookup(d, t', n', name)
  {
    var tf := TypeFolder(d, t).GetOr(map[]);
    assert TypeFolder(WithNodeFolder(d, t, nodeId, nf), t) == Some(tf[nodeId := Folder(nf)]);
    if t' != t {
      WithNodeFolderOtherType(d, t, nodeId, nf, t', n', name);
    } else if n' != nodeId {
      WithNodeFolderOtherNode(d, t, nodeId, nf, n', name);
    }
  }

  /** The folder of every other type is untouched. */
  lemma WithNodeFolderOtherType(d: Disk, t: FileType, nodeId: string, nf: map<string, Entry>, t': FileType, n': string, name: string)
    requires t' != t
    ensures Lookup(WithNodeFolder(d, t, nodeId, nf), t', n', name) == Lookup(d, t', n', name)
  {
    assert FileTypeName(t') != FileTypeName(t) by {
      FileTypeRoundTrip(t', t);
    }
    assert TypeFolder(WithNodeFolder(d, t, nodeId, nf), t') == TypeFolder(d, t');
  }

  /** Within the same type, every other node's folder is untouched. */
  lemma WithNodeFolderOtherNode(d: Disk, t: FileType, nodeId: string, nf: map<string, Entry>, n': string, name: string)
    requires n' != nodeId
    ensures Lookup(WithNodeFolder(d, t, nodeId, nf), t, n', name) == Lookup(d, t, n', name)
  {
    var tf := TypeFolder(d, t).GetOr(map[]);
    assert TypeFolder(WithNodeFolder(d, t, nodeId, nf), t) == Some(tf[nodeId := Folder(nf)]);
    assert NodeFolder(WithNodeFolder(d, t, nodeId, nf), t, n') == NodeFolder(d, t, n');
  }

  // ------------------------------------------------------- path.extname

  /** The index of the last '.' in `s`. */
  function LastDot(s: string): (r: Option<nat>)
    ensures r.None? ==> forall i :: 0 <= i < |s| ==> s[i] != '.'
    ensures r.Some? ==> r.value < |s| && s[r.value] == '.'
    ensures r.Some? ==> forall i :: r.value < i < |s| ==> s[i] != '.'
    decreases |s|
  {
    if |s| == 0 then None
    else if s[|s| - 1] == '.' then Some(|s| - 1)
    else LastDot(s[..|s| - 1])
  }

  /** Node's `path.extname` of a file name (a single path component): from the
      last '.' to the end, except that a name without a '.', a name whose only
      '.' is its first character, and the name ".." have no extension. */
  function ExtName(name: string): string {
    match LastDot(name)
    case None => ""
    case Some(dot) => if dot == 0 || name == ".." then "" else name[dot..]
  }

  /** `path.basename(filename, ext)`: the name without its extension. */
  function BaseName(name: string): string {
    var ext := ExtName(name);
    if |ext| <= |name| then name[..|name| - |ext|] else name
  }

  /** The extension is a suffix that is empty or starts with its only '.',
      and the base name followed by the extension is the whole name. (Stated
      apart from the functions, so that every use of a stored name does not
      carry these facts along.) */
  lemma ExtNameShape(name: string)
    ensures EndsWith(name, ExtName(name))
    ensures ExtName(name) == "" || (ExtName(name)[0] == '.' && |ExtName(name)| < |name|)
    ensures forall i :: 1 <= i < |ExtName(name)| ==> ExtName(name)[i] != '.'
    ensures BaseName(name) + ExtName(name) == name
  {
    match LastDot(name)
    case None =>
      assert ExtName(name) == "";
    case Some(dot) =>
      if dot == 0 || name == ".." {
        assert ExtName(name) == "";
      } else {
        var ext := name[dot..];
        assert ExtName(name) == ext && |ext| == |name| - dot;
        assert BaseName(name) == name[..dot];
        assert name[..dot] + ext == name;
        forall i | 1 <= i < |ext| ensures ext[i] != '.' {
          assert ext[i] == name[dot + i];
        }
      }
  }

  /** The final component of a slash-separated path: the name `getFile` gives
      the `File` it opens. */
  function FinalComponent(path: string): (name: string)
    ensures forall i :: 0 <= i < |name| ==> name[i] != '/'
    ensures EndsWith(path, name)
    decreases |path|
  {
    if |path| == 0 then ""
    else if path[|path| - 1] == '/' then ""
    else FinalComponent(path[..|path| - 1]) + [path[|path| - 1]]
  }

  /** The name a path ending in `/` and a slash-free name finishes with. */
  lemma {:induction false} FinalComponentOfJoin(dir: string, name: string)
    requires forall i :: 0 <= i < |name| ==> name[i] != '/'
    ensures FinalComponent(dir + "/" + name) == name
    decreases |name|
  {
    if |name| == 0 {
      assert dir + "/" + name == dir + "/";
    } else {
      var p := dir + "/" + name;
      assert p[..|p| - 1] == dir + "/" + name[..|name| - 1];
      FinalComponentOfJoin(dir, name[..|name| - 1]);
      assert name[..|name| - 1] + [name[|name| - 1]] == name;
    }
  }

  // ------------------------------------------------------------ upload

  /** `${base}-${uuid}${ext}`: the name an upload is stored under. */
  function StoredName(filename: string, uuid: string): string {
    BaseName(filename) + "-" + uuid + ExtName(filename)
  }

  /** A single path component: no '/' in it. */
  predicate NoSlash(s: string) {
    forall i :: 0 <= i < |s| ==> s[i] != '/'
  }

  /** A stored name built from slash-free parts is a single path component. */
  lemma StoredNameNoSlash(filename: string, uuid: string)
    requires NoSlash(filename) && NoSlash(uuid)
    ensures NoSlash(StoredName(filename, uuid))
  {
    ExtNameShape(filename);
    var base := BaseName(filename);
    var ext := ExtName(filename);
    var s := StoredName(filename, uuid);
    assert s == base + "-" + uuid + ext;
    forall i | 0 <= i < |s| ensures s[i] != '/' {
      if i < |base| {
        assert s[i] == filename[i];
      } else if i == |base| {
      } else if i < |base| + 1 + |uuid| {
        assert s[i] == uuid[i - |base| - 1];
      } else {
        assert s[i] == filename[i - 1 - |uuid|];
      }
    }
  }

  /** Why an upload throws: `mkdirSync` meets a file where a folder belongs,
      or `writeFileSync` meets a folder where the file belongs. */
  predicate UploadBlocked(d: Disk, t: FileType, nodeId: string, name: string) {
    var k := FileTypeName(t);
    || (k in d.root && d.root[k].FileEntry?)
    || (TypeFolder(d, t).Some? && nodeId in TypeFolder(d, t).value && TypeFolder(d, t).value[nodeId].FileEntry?)
    || (Lookup(d, t, nodeId, name).Some? && Lookup(d, t, nodeId, name).value.Folder?)
  }

  /** `files.upload(nodeId, fileType, filename, content)`, with the generated
      uuid as a parameter: creates the folders, writes the file under its
      stored name and returns the full path. */
  function Upload(d: Disk, nodeId: string, t: FileType, filename: string, content: string, uuid: string): (r: Result<(Disk, string)>)
    ensures r.Failure? <==> UploadBlocked(d, t, nodeId, StoredName(filename, uuid))
    ensures r.Success? ==>
      && r.value.1 == FolderPath(d, t, nodeId) + "/" + StoredName(filename, uuid)
      && NodeFolder(r.value.0, t, nodeId).Some?
      && Lookup(r.value.0, t, nodeId, StoredName(filename, uuid)) == Some(FileEntry(content))
      && r.value.0.userData == d.userData
  {
    var name := StoredName(filename, uuid);
    if UploadBlocked(d, t, nodeId, name) then Failure("upload: path blocked")
    else
      var nf := NodeFolder(d, t, nodeId).GetOr(map[]);
      var d' := WithNodeFolder(d, t, nodeId, nf[name := FileEntry(content)]);
      WithNodeFolderFrame(d, t, nodeId, nf[name := FileEntry(content)], t, nodeId, name);
      Success((d', FolderPath(d, t, nodeId) + "/" + name))
  }

  /** An upload changes nothing but the one stored file. */
  lemma UploadFrame(d: Disk, nodeId: string, t: FileType, filename: string, content: string, uuid: string, t': FileType, n': string, name': string)
    requires Upload(d, nodeId, t, filename, content, uuid).Success?
    requires (t', n', name') != (t, nodeId, StoredName(filename, uuid))
    ensures Lookup(Upload(d, nodeId, t, filename, content, uuid).value.0, t', n', name') == Lookup(d, t', n', name')
  {
    var name := StoredName(filename, uuid);
    var nf := NodeFolder(d, t, nodeId).GetOr(map[]);
    WithNodeFolderFrame(d, t, nodeId, nf[name := FileEntry(content)], t', n', name');
  }

  /** The stored name is the original name with `-${uuid}` inserted before
      the extension. */
  lemma StoredNameParts(filename: string, uuid: string)
    ensures StoredName(filename, uuid) == BaseName(filename) + "-" + uuid + ExtName(filename)
    ensures BaseName(filename) + ExtName(filename) == filename
    ensures EndsWith(StoredName(filename, uuid), ExtName(filename))
  {
    ExtNameShape(filename);
  }

  /** The stored name keeps the original extension, provided the uuid has no
      '.' (a generated uuid has none) and the name is not "..". */
  lemma StoredNameKeepsExtension(filename: string, uuid: string)
    requires forall i :: 0 <= i < |uuid| ==> uuid[i] != '.'
    requires filename != ".."
    ensures ExtName(StoredName(filename, uuid)) == ExtName(filename)
  {
    ExtNameShape(filename);
    match LastDot(filename)
    case None => StoredNameNoDot(filename, uuid);
    case Some(dot) =>
      if dot == 0 {
        StoredNameLeadingDot(filename, uuid);
      } else {
        StoredNameInnerDot(filename, uuid, dot);
      }
  }

  /** A name without '.': the stored name has none either. */
  lemma StoredNameNoDot(filename: string, uuid: string)
    requires forall i :: 0 <= i < |uuid| ==> uuid[i] != '.'
    requires LastDot(filename).None?
    ensures ExtName(StoredName(filename, uuid)) == ExtName(filename) == ""
  {
    ExtNameShape(filename);
    var base := BaseName(filename);
    var s := StoredName(filename, uuid);
    assert base == filename;
    assert s == filename + "-" + uuid;
    forall i | 0 <= i < |s| ensures s[i] != '.' {
      if i < |base| { assert s[i] == filename[i]; }
      else if i > |base| { assert s[i] == uuid[i - |base| - 1]; }
    }
  }

  /** A name whose only '.' leads: the stored name's only '.' leads too. */
  lemma StoredNameLeadingDot(filename: string, uuid: string)
    requires forall i :: 0 <= i < |uuid| ==> uuid[i] != '.'
    requires LastDot(filename) == Some(0)
    ensures ExtName(StoredName(filename, uuid)) == ExtName(filename) == ""
  {
    ExtNameShape(filename);
    var base := BaseName(filename);
    var s := StoredName(filename, uuid);
    assert base == filename;
    assert s == filename + "-" + uuid;
    assert s[0] == '.';
    forall i | 0 < i < |s| ensures s[i] != '.' {
      if i < |base| { assert s[i] == filename[i]; }
      else if i > |base| { assert s[i] == uuid[i - |base| - 1]; }
    }
    assert LastDot(s) == Some(0);
  }

  /** A name with an extension: the stored name's last '.' starts the same
      extension. */
  lemma StoredNameInnerDot(filename: string, uuid: string, dot: nat)
    requires forall i :: 0 <= i < |uuid| ==> uuid[i] != '.'
    requires filename != ".."
    requires LastDot(filename) == Some(dot) && dot > 0
    ensures ExtName(StoredName(filename, uuid)) == ExtName(filename)
  {
    ExtNameShape(filename);
    var ext := ExtName(filename);
    var base := BaseName(filename);
    var s := StoredName(filename, uuid);
    assert ext == filename[dot..] && base == filename[..dot];
    var sd := |base| + 1 + |uuid|;
    assert s == base + "-" + uuid + ext;
    assert s[sd] == '.';
    forall i | sd < i < |s| ensures s[i] != '.' {
      assert s[i] == ext[i - sd];
    }
    LastDotAt(s, sd);
    assert s[|base|] == '-';
    assert s[sd..] == ext;
  }

  /** A '.' with none after it is the one `LastDot` finds. */
  lemma {:induction false} LastDotAt(s: string, k: nat)
    requires k < |s| && s[k] == '.'
    requires forall i :: k < i < |s| ==> s[i] != '.'
    ensures LastDot(s) == Some(k)
    decreases |s|
  {
    if k < |s| - 1 {
      LastDotAt(s[..|s| - 1], k);
    }
  }

  /** Two different middles of the same width give two different wholes. */
  lemma InsertedDiffer(pre: string, mid: string, u1: string, u2: string, post: string)
    requires |u1| == |u2| && u1 != u2
    ensures pre + (mid + u1 + post) != pre + (mid + u2 + post)
  {
    var k := |pre| + |mid|;
    assert (pre + (mid + u1 + post))[k..k + |u1|] == u1;
    assert (pre + (mid + u2 + post))[k..k + |u2|] == u2;
  }

  /** Two uploads of the same file name for the same node and type with
      different uuids of the same length are stored under different paths. */
  lemma UploadPathsDiffer(d: Disk, nodeId: string, t: FileType, filename: string, u1: string, u2: string)
    requires |u1| == |u2| && u1 != u2
    ensures FolderPath(d, t, nodeId) + "/" + StoredName(filename, u1) != FolderPath(d, t, nodeId) + "/" + StoredName(filename, u2)
  {
    StoredNameParts(filename, u1);
    StoredNameParts(filename, u2);
    InsertedDiffer(FolderPath(d, t, nodeId) + "/", BaseName(filename) + "-", u1, u2, ExtName(filename));
  }

  // ---------------------------------------------------------- list

  /** `files.list(nodeId, fileType)`: the folder's entries prefixed by the
      folder path, or none when the folder does not exist. Reading a file as a
      folder throws. */
  function List(d: Disk, nodeId: string, t: FileType): (r: Result<set<string>>)
    ensures NodeFolder(d, t, nodeId).None? && !(TypeFolder(d, t).Some? && nodeId in TypeFolder(d, t).value) ==> r == Success({})
    ensures NodeFolder(d, t, nodeId).Some? ==> (r.Success? &&
      forall p :: p in r.value <==> exists name :: name in NodeFolder(d, t, nodeId).value && p == FolderPath(d, t, nodeId) + "/" + name)
  {
    match TypeFolder(d, t)
    case None => Success({})
    case Some(tf) =>
      if nodeId !in tf then Success({})
      else if tf[nodeId].FileEntry? then Failure("ENOTDIR: not a directory")
      else
        var folder := FolderPath(d, t, nodeId);
        Success(set name | name in tf[nodeId].children :: folder + "/" + name)
  }

  // -------------------------------------------------------- delete

  /** `files.delete(nodeId, fileType, filename)`: unlinks exactly that path;
      a missing path is a no-op, and unlinking a folder throws. */
  function Delete(d: Disk, nodeId: string, t: FileType, filename: string): (r: Result<Disk>)
    ensures Lookup(d, t, nodeId, filename).None? ==> r == Success(d)
    ensures r.Failure? <==> Lookup(d, t, nodeId, filename).Some? && Lookup(d, t, nodeId, filename).value.Folder?
    ensures r.Success? ==> Lookup(r.value, t, nodeId, filename).None?
    ensures r.Success? ==> r.value.userData == d.userData
    ensures r.Success? ==> forall t', n', name' :: (t', n', name') != (t, nodeId, filename) ==>
      Lookup(r.value, t', n', name') == Lookup(d, t', n', name')
  {
    match NodeFolder(d, t, nodeId)
    case None => Success(d)
    case Some(nf) =>
      if filename !in nf then Success(d)
      else if nf[filename].Folder? then Failure("EISDIR: illegal operation on a directory")
      else
        var d' := WithNodeFolder(d, t, nodeId, nf - {filename});
        assert forall t', n', name' :: (t', n', name') != (t, nodeId, filename) ==> Lookup(d', t', n', name') == Lookup(d, t', n', name') by {
          forall t', n', name' | (t', n', name') != (t, nodeId, filename)
            ensures Lookup(d', t', n', name') == Lookup(d, t', n', name')
          {
            WithNodeFolderFrame(d, t, nodeId, nf - {filename}, t', n', name');
          }
        }
        WithNodeFolderFrame(d, t, nodeId, nf - {filename}, t, nodeId, filename);
        Success(d')
  }

  /** Deleting an upload by its stored name removes it again: the only trace
      left is the (now possibly empty) folder. */
  lemma UploadThenDelete(d: Disk, nodeId: string, t: FileType, filename: string, content: string, uuid: string)
    requires Upload(d, nodeId, t, filename, content, uuid).Success?
    ensures var d1 := Upload(d, nodeId, t, filename, content, uuid).value.0;
      && Delete(d1, nodeId, t, StoredName(filename, uuid)).Success?
      && Lookup(Delete(d1, nodeId, t, StoredName(filename, uuid)).value, t, nodeId, StoredName(filename, uuid)).None?
  {
  }

  // --------------------------------------------------- clear unused

  /** The `filename` properties of the objects passed to `clearUnused`
      (`None` for an object without one). */
  function KnownNames(known: seq<Option<string>>): (r: set<string>)
    ensures forall name :: name in r <==> Some(name) in known
  {
    set i | 0 <= i < |known| && known[i].Some? :: known[i].value
  }

  /** The files the sweep removes: entries of node sub-folders (one level
      below the type folder) whose name no known object carries. */
  function Unused(tf: map<string, Entry>, names: set<string>): set<(string, string)> {
    set f, name | f in tf && tf[f].Folder? && name in tf[f].children && name !in names :: (f, name)
  }

  /** The files in node sub-folders. */
  function FilesInNodeFolders(tf: map<string, Entry>): set<(string, string)> {
    set f, name | f in tf && tf[f].Folder? && name in tf[f].children && tf[f].children[name].FileEntry? :: (f, name)
  }

  /** The type folder after the sweep: node sub-folders keep only known names;
      entries that are not folders are skipped. */
  function Swept(tf: map<string, Entry>, names: set<string>): (r: map<string, Entry>)
    ensures r.Keys == tf.Keys
    ensures forall f :: f in tf && !tf[f].Folder? ==> r[f] == tf[f]
    ensures forall f :: f in tf && tf[f].Folder? ==> (r[f].Folder? &&
      forall name :: name in r[f].children <==> name in tf[f].children && name in names)
    ensures forall f, name :: f in tf && tf[f].Folder? && name in r[f].children ==> r[f].children[name] == tf[f].children[name]
  {
    map f | f in tf :: if tf[f].Folder? then Folder(map name | name in tf[f].children && name in names :: tf[f].children[name]) else tf[f]
  }

  /** Some unused entry of a node sub-folder is itself a folder, so
      `unlinkSync` throws on it. */
  predicate SweepBlocked(tf: map<string, Entry>, names: set<string>) {
    exists f :: f in tf && tf[f].Folder? &&
      exists name :: name in tf[f].children && name !in names && tf[f].children[name].Folder?
  }

  /** Replacing one type folder leaves the other type folders alone. */
  lemma OtherTypeFolders(d: Disk, t: FileType, e: Entry, t': FileType)
    requires t' != t
    ensures TypeFolder(d.(root := d.root[FileTypeName(t) := e]), t') == TypeFolder(d, t')
  {
    FileTypeRoundTrip(t', t);
  }

  /** `files.clearUnused(fileType, files)`: 0 when the type folder is missing;
      otherwise unlinks every unused file in the node sub-folders and returns
      how many it unlinked. Unlinking a folder throws. */
  function ClearUnused(d: Disk, t: FileType, known: seq<Option<string>>): (r: Result<(Disk, nat)>)
    ensures FileTypeName(t) !in d.root ==> r == Success((d, 0))
    ensures TypeFolder(d, t).Some? ==> (r.Failure? <==> SweepBlocked(TypeFolder(d, t).value, KnownNames(known)))
    ensures r.Success? && TypeFolder(d, t).Some? ==>
      && r.value.1 == |Unused(TypeFolder(d, t).value, KnownNames(known))|
      && r.value.0 == d.(root := d.root[FileTypeName(t) := Folder(Swept(TypeFolder(d, t).value, KnownNames(known)))])
  {
    var k := FileTypeName(t);
    if k !in d.root then Success((d, 0))
    else match TypeFolder(d, t)
      case None => Failure("ENOTDIR: not a directory")
      case Some(tf) =>
        var names := KnownNames(known);
        var n: nat := |Unused(tf, names)|;
        if SweepBlocked(tf, names) then Failure("EISDIR: illegal operation on a directory")
        else Success((d.(root := d.root[k := Folder(Swept(tf, names))]), n))
  }

  /** The sweep touches only its own type folder. */
  lemma ClearUnusedFrame(d: Disk, t: FileType, known: seq<Option<string>>, t': FileType)
    requires ClearUnused(d, t, known).Success?
    requires t' != t
    ensures TypeFolder(ClearUnused(d, t, known).value.0, t') == TypeFolder(d, t')
  {
    var k := FileTypeName(t);
    if k in d.root {
      OtherTypeFolders(d, t, Folder(Swept(TypeFolder(d, t).value, KnownNames(known))), t');
    }
  }

  /** The count the sweep returns is the drop in the number of files held in
      node sub-folders. */
  lemma ClearUnusedCount(d: Disk, t: FileType, known: seq<Option<string>>)
    requires ClearUnused(d, t, known).Success?
    requires TypeFolder(d, t).Some?
    ensures var r := ClearUnused(d, t, known).value;
      |FilesInNodeFolders(TypeFolder(d, t).value)| == |FilesInNodeFolders(TypeFolder(r.0, t).value)| + r.1
  {
    var tf := TypeFolder(d, t).value;
    var names := KnownNames(known);
    var r := ClearUnused(d, t, known).value;
    assert TypeFolder(r.0, t).value == Swept(tf, names);
    SweptSplit(tf, names);
  }

  /** Without a blocking folder, the files before the sweep are the files
      after it plus the unused ones, and no file is in both. */
  lemma SweptSplit(tf: map<string, Entry>, names: set<string>)
    requires !SweepBlocked(tf, names)
    ensures FilesInNodeFolders(tf) == FilesInNodeFolders(Swept(tf, names)) + Unused(tf, names)
    ensures FilesInNodeFolders(Swept(tf, names)) !! Unused(tf, names)
  {
    var tf' := Swept(tf, names);
    var gone := Unused(tf, names);
    assert forall p :: p in gone ==> tf[p.0].children[p.1].FileEntry?;
  }

  /** Sweeping twice with the same known files finds nothing the second time. */
  lemma ClearUnusedIdempotent(d: Disk, t: FileType, known: seq<Option<string>>)
    requires ClearUnused(d, t, known).Success?
    ensures var d1 := ClearUnused(d, t, known).value.0;
      ClearUnused(d1, t, known) == Success((d1, 0))
  {
    var k := FileTypeName(t);
    if k in d.root {
      var names := KnownNames(known);
      var d1 := ClearUnused(d, t, known).value.0;
      var tf1 := d1.root[k].children;
      assert Unused(tf1, names) == {};
      assert !SweepBlocked(tf1, names);
      var tf2 := Swept(tf1, names);
      forall f | f in tf1 ensures tf2[f] == tf1[f] {
        if tf1[f].Folder? {
          assert tf2[f].children == tf1[f].children;
        }
      }
      assert tf2 == tf1;
      assert d1.root[k] == Folder(tf1);
      assert d1.root[k := Folder(tf2)] == d1.root;
      assert ClearUnused(d1, t, known) == Success((d1.(root := d1.root[k := Folder(tf2)]), |Unused(tf1, names)|));
    }
  }
}

=== FILE: floating_actions.dfy ===
/** src/components/floating-actions.components.tsx: the search box and the
    start/end path boxes over the on-screen graph, and the import/export of
    that graph as a JSON document. The import's Cypher statements are modelled
    as the text and parameters it sends, in the order it sends them. */
module FloatingActions {
  import opened Wrappers
  import opened Seqs
  import opened Models
  import opened VisualGraph

  /** JavaScript truthiness of an attribute: a non-empty string. */
  predicate Truthy(v: Value) {
    v.Str? && v.s != ""
  }

  /** A selection (`foundNode`, `startNode`, `endNode`): a node id or null; the
      empty id is falsy like null. */
  predicate Selected(o: Option<string>) {
    o.Some? && o.value != ""
  }

  // ------------------------------------------------------------ candidates

  /** The node's label is set and contains the search, both lower-cased. */
  predicate LabelMatches(a: Attrs, search: string) {
    Truthy(Get(a, "label")) && Includes(Lower(Get(a, "label").s), Lower(search))
  }

  /** The `{ id, label }` option for a listed node. */
  function OptionOf(node: (string, Attrs)): Ref {
    Ref(node.0, Show(Get(node.1, "label")))
  }

  /** `findMatchingNodes`: walks the nodes in the order `graph.forEachNode`
      visits them and collects an option for every matching one. */
  function FindMatching(nodes: seq<(string, Attrs)>, search: string): seq<Ref>
    decreases |nodes|
  {
    if |nodes| == 0 then []
    else
      var rest := FindMatching(nodes[1..], search);
      if LabelMatches(nodes[0].1, search) then [OptionOf(nodes[0])] + rest else rest
  }

  /** The options of all listed nodes, in visiting order. */
  function AllOptions(nodes: seq<(string, Attrs)>): seq<Ref> {
    seq(|nodes|, i requires 0 <= i < |nodes| => OptionOf(nodes[i]))
  }

  /** The collected options are exactly those of the nodes whose set label
      contains the search, and they come in visiting order. */
  lemma FindMatchingEffect(nodes: seq<(string, Attrs)>, search: string)
    ensures IsSubseq(FindMatching(nodes, search), AllOptions(nodes))
    ensures forall c :: c in FindMatching(nodes, search) <==>
      exists i :: 0 <= i < |nodes| && LabelMatches(nodes[i].1, search) && c == OptionOf(nodes[i])
  {
    FindMatchingOrder(nodes, search);
    FindMatchingMembers(nodes, search);
  }

  /** The order half of `FindMatchingEffect`. */
  lemma {:induction false} FindMatchingOrder(nodes: seq<(string, Attrs)>, search: string)
    ensures IsSubseq(FindMatching(nodes, search), AllOptions(nodes))
    decreases |nodes|
  {
    if |nodes| > 0 {
      FindMatchingOrder(nodes[1..], search);
      assert AllOptions(nodes)[1..] == AllOptions(nodes[1..]);
    }
  }

  /** The membership half of `FindMatchingEffect`. */
  lemma {:induction false} FindMatchingMembers(nodes: seq<(string, Attrs)>, search: string)
    ensures forall c :: c in FindMatching(nodes, search) <==>
      exists i :: 0 <= i < |nodes| && LabelMatches(nodes[i].1, search) && c == OptionOf(nodes[i])
    decreases |nodes|
  {
    if |nodes| > 0 {
      FindMatchingMembers(nodes[1..], search);
      var rest := FindMatching(nodes[1..], search);
      forall c | c in FindMatching(nodes, search)
        ensures exists i :: 0 <= i < |nodes| && LabelMatches(nodes[i].1, search) && c == OptionOf(nodes[i])
      {
        if c != OptionOf(nodes[0]) || !LabelMatches(nodes[0].1, search) {
          assert c in rest;
          var i :| 0 <= i < |nodes[1..]| && LabelMatches(nodes[1..][i].1, search) && c == OptionOf(nodes[1..][i]);
          assert nodes[i + 1] == nodes[1..][i];
        }
      }
      forall i | 0 <= i < |nodes| && LabelMatches(nodes[i].1, search)
        ensures OptionOf(nodes[i]) in FindMatching(nodes, search)
      {
        if i > 0 {
          assert nodes[1..][i - 1] == nodes[i];
        }
      }
    }
  }

  /** The `[search]` effect: no candidates while a node is found or the search
      is empty, otherwise the matching nodes. */
  function Candidates(found: Option<string>, search: string, nodes: seq<(string, Attrs)>): seq<Ref> {
    if !Selected(found) && |search| > 0 then FindMatching(nodes, search) else []
  }

  /** The `[startNodeSearch]` and `[endNodeSearch]` effects: the candidates
      for one end of a path, without the node chosen for the other end. */
  function PathCandidates(own: Option<string>, other: Option<string>, search: string, nodes: seq<(string, Attrs)>): seq<Ref> {
    var found := Candidates(own, search, nodes);
    if Selected(other) then Filter(found, (c: Ref) => c.id != other.value) else found
  }

  /** No candidates are offered once a node is chosen or while the search is
      empty; otherwise every matching node is offered except the other end's
      choice, in visiting order. */
  lemma PathCandidatesEffect(own: Option<string>, other: Option<string>, search: string, nodes: seq<(string, Attrs)>)
    ensures Selected(own) || search == "" ==>
      Candidates(own, search, nodes) == [] && PathCandidates(own, other, search, nodes) == []
    ensures Selected(other) ==> forall c :: c in PathCandidates(own, other, search, nodes) ==> c.id != other.value
    ensures IsSubseq(PathCandidates(own, other, search, nodes), Candidates(own, search, nodes))
    ensures !Selected(own) && search != "" ==> forall c ::
      c in PathCandidates(own, other, search, nodes) <==>
        (exists i :: 0 <= i < |nodes| && LabelMatches(nodes[i].1, search) && c == OptionOf(nodes[i]))
        && !(Selected(other) && c.id == other.value)
  {
    FindMatchingEffect(nodes, search);
    var found := Candidates(own, search, nodes);
    if !Selected(other) {
      SubseqRefl(found);
    } else {
      forall c | c in found && c.id != other.value
        ensures c in PathCandidates(own, other, search, nodes)
      {
        var k :| 0 <= k < |found| && found[k] == c;
      }
    }
  }

  // ------------------------------------------------------------ search change

  /** The state one search box drives: its text, its candidates and the
      chosen node. */
  datatype SearchBox = SearchBox(text: string, candidates: seq<Ref>, chosen: Option<string>)

  /** `values.find(value => value.label === searchString)`. */
  function FindByLabel(cs: seq<Ref>, text: string): (r: Option<Ref>)
    decreases |cs|
  {
    if |cs| == 0 then None
    else if cs[0].text == text then Some(cs[0])
    else FindByLabel(cs[1..], text)
  }

  /** The search finds the first candidate with exactly that label, and
      nothing when none has it. */
  lemma {:induction false} FindByLabelEffect(cs: seq<Ref>, text: string)
    ensures FindByLabel(cs, text).None? <==> forall i :: 0 <= i < |cs| ==> cs[i].text != text
    ensures FindByLabel(cs, text).Some? ==>
      exists k :: 0 <= k < |cs| && cs[k] == FindByLabel(cs, text).value && cs[k].text == text
        && forall i :: 0 <= i < k ==> cs[i].text != text
    decreases |cs|
  {
    if |cs| > 0 && cs[0].text != text {
      FindByLabelEffect(cs[1..], text);
      if FindByLabel(cs, text).Some? {
        var k :| 0 <= k < |cs[1..]| && cs[1..][k] == FindByLabel(cs, text).value && cs[1..][k].text == text
          && forall i :: 0 <= i < k ==> cs[1..][i].text != text;
        assert cs[k + 1] == cs[1..][k];
        assert forall i :: 0 < i < k + 1 ==> cs[i] == cs[1..][i - 1];
      }
    } else if |cs| > 0 {
      assert cs[0] == FindByLabel(cs, text).value;
    }
  }

  /** `handleSearchChange` (and its start/end twins): typing a candidate's
      exact label chooses that candidate; anything else clears the choice.
      Either way the box shows what was typed. */
  function SearchChange(box: SearchBox, typed: string): (r: SearchBox)
    ensures r.text == typed
  {
    match FindByLabel(box.candidates, typed)
    case Some(c) => FindByLabelEffect(box.candidates, typed); SearchBox(c.text, [], Some(c.id))
    case None => box.(chosen := None, text := typed)
  }

  /** Typing the label of a candidate chooses the first candidate carrying it
      and empties the list; typing anything else clears the choice and keeps
      the candidates. A chosen node with a non-empty id silences the
      candidate effect until the choice is cleared. */
  lemma SearchChangeEffect(box: SearchBox, typed: string, nodes: seq<(string, Attrs)>)
    ensures forall k ::
      (0 <= k < |box.candidates| && box.candidates[k].text == typed
        && (forall i :: 0 <= i < k ==> box.candidates[i].text != typed)) ==>
      SearchChange(box, typed) == SearchBox(typed, [], Some(box.candidates[k].id))
    ensures (forall i :: 0 <= i < |box.candidates| ==> box.candidates[i].text != typed) ==>
      SearchChange(box, typed) == SearchBox(typed, box.candidates, None)
    ensures var r := SearchChange(box, typed);
      Selected(r.chosen) ==> Candidates(r.chosen, r.text, nodes) == []
  {
    FindByLabelEffect(box.candidates, typed);
  }

  // ------------------------------------------------------------ statement builders

  /** `_.join(parts, sep)`. */
  function Join(parts: seq<string>, sep: string): string
    decreases |parts|
  {
    if |parts| == 0 then ""
    else if |parts| == 1 then parts[0]
    else parts[0] + sep + Join(parts[1..], sep)
  }

  /** One parameter entry `key: $key`. */
  function Entry(key: string): string {
    key + ": $" + key
  }

  /** `generateNodeQueryStringFromParams`: a MERGE of a node with the type as
      label and one `key: $key` entry per parameter key, joined by ', '. */
  function NodeQuery(nodeType: string, keys: seq<string>): string {
    "MERGE (:" + nodeType + " { " + Join(seq(|keys|, i requires 0 <= i < |keys| => Entry(keys[i])), ", ") + " })"
  }

  /** `s` split at every `c`, as `String.prototype.split`. */
  function SplitOn(s: string, c: char): (r: seq<string>)
    ensures |r| >= 1
    decreases |s|
  {
    if |s| == 0 then [""]
    else
      var rest := SplitOn(s[1..], c);
      if s[0] == c then [""] + rest else [[s[0]] + rest[0]] + rest[1..]
  }

  lemma {:induction false} SplitNone(p: string, c: char)
    requires c !in p
    ensures SplitOn(p, c) == [p]
    decreases |p|
  {
    if |p| > 0 {
      SplitNone(p[1..], c);
      assert [p[0]] + p[1..] == p;
    }
  }

  lemma {:induction false} SplitFirst(p: string, c: char, t: string)
    requires c !in p
    ensures SplitOn(p + [c] + t, c) == [p] + SplitOn(t, c)
    decreases |p|
  {
    var s := p + [c] + t;
    if |p| == 0 {
      assert s[1..] == t;
    } else {
      assert s[1..] == p[1..] + [c] + t;
      SplitFirst(p[1..], c, t);
      assert [p[0]] + p[1..] == p;
    }
  }

  /** Each part after the first, with the space the separator leaves. */
  function Spaced(parts: seq<string>): seq<string> {
    seq(|parts|, i requires 0 <= i < |parts| => " " + parts[i])
  }

  /** Splitting a ', '-joined list of comma-free parts at ',' gives the parts
      back, every one after the first with its leading space. */
  lemma {:induction false} SplitJoin(pre: string, parts: seq<string>)
    requires ',' !in pre
    requires |parts| > 0
    requires forall i :: 0 <= i < |parts| ==> ',' !in parts[i]
    ensures SplitOn(pre + Join(parts, ", "), ',') == [pre + parts[0]] + Spaced(parts[1..])
    decreases |parts|
  {
    if |parts| == 1 {
      SplitNone(pre + parts[0], ',');
      assert Spaced(parts[1..]) == [];
    } else {
      var rest := parts[1..];
      var tail := Join(rest, ", ");
      assert Join(parts, ", ") == parts[0] + ", " + tail;
      CommaSplice(pre, parts[0], tail);
      SplitFirst(pre + parts[0], ',', " " + tail);
      SplitJoin(" ", rest);
      SpacedCons(rest);
    }
  }

  /** Where a ', ' separator splits a joined text. */
  lemma CommaSplice(pre: string, p: string, tail: string)
    ensures pre + (p + ", " + tail) == (pre + p) + [','] + (" " + tail)
  {
    assert ", " == [','] + " ";
  }

  lemma SpacedCons(parts: seq<string>)
    requires |parts| > 0
    ensures [" " + parts[0]] + Spaced(parts[1..]) == Spaced(parts)
  {
    var l := [" " + parts[0]] + Spaced(parts[1..]);
    forall i | 0 <= i < |parts|
      ensures l[i] == Spaced(parts)[i]
    {
      if i > 0 {
        assert parts[1..][i - 1] == parts[i];
      }
    }
  }

  /** The node statement reads back: the type sits right after `MERGE (:`,
      and splitting the text between the braces at ',' yields the entries
      `key: $key` in key order, so every key is bound to the parameter of the
      same name. */
  lemma NodeQueryReadsBack(nodeType: string, keys: seq<string>)
    requires |keys| > 0
    requires forall i :: 0 <= i < |keys| ==> ',' !in keys[i]
    ensures var q := NodeQuery(nodeType, keys);
      && |q| >= |nodeType| + 14
      && q[..8] == "MERGE (:" && q[8..8 + |nodeType|] == nodeType
      && SplitOn(q[|nodeType| + 11..|q| - 3], ',') ==
           [Entry(keys[0])] + Spaced(seq(|keys| - 1, i requires 0 <= i < |keys| - 1 => Entry(keys[i + 1])))
  {
    var entries := seq(|keys|, i requires 0 <= i < |keys| => Entry(keys[i]));
    var body := Join(entries, ", ");
    var pre := "MERGE (:" + nodeType + " { ";
    var q := NodeQuery(nodeType, keys);
    assert |pre| == |nodeType| + 11;
    assert q == pre + body + " })";
    assert q[|pre|..|q| - 3] == body;
    assert q[..8] == pre[..8] == "MERGE (:";
    assert q[8..8 + |nodeType|] == pre[8..8 + |nodeType|] == nodeType;
    forall i | 0 <= i < |entries|
      ensures ',' !in entries[i]
    {
      assert entries[i] == keys[i] + ": $" + keys[i];
      assert ',' !in ": $";
    }
    SplitJoin("", entries);
    assert "" + body == body;
    assert "" + entries[0] == entries[0] == Entry(keys[0]);
    assert entries[1..] == seq(|keys| - 1, i requires 0 <= i < |keys| - 1 => Entry(keys[i + 1]));
  }

  const EdgePrefix := "MATCH (s { id: $source }), (t { id: $target }) MERGE (s)-[:"

  /** `generateEdgeQueryStringFromRelationType`: the relation type between
      fixed matches of the `$source` and `$target` ids. */
  function EdgeQuery(relType: string): string {
    EdgePrefix + relType + "]->(t)"
  }

  /** The relation type reads back from the edge statement, so different types
      give different statements. */
  lemma EdgeQueryReadsBack(relType: string, other: string)
    ensures var q := EdgeQuery(relType);
      |q| == |EdgePrefix| + |relType| + 6 && q[|EdgePrefix|..|q| - 6] == relType
    ensures EdgeQuery(relType) == EdgeQuery(other) ==> relType == other
  {
    var q := EdgeQuery(relType);
    assert q == EdgePrefix + relType + "]->(t)";
    assert q[|EdgePrefix|..|q| - 6] == relType;
    var q2 := EdgeQuery(other);
    if q == q2 {
      assert q2 == EdgePrefix + other + "]->(t)";
      assert q2[|EdgePrefix|..|q2| - 6] == other;
    }
  }

  // ------------------------------------------------------------ import

  /** A statement and its parameters. */
  datatype Statement = Statement(text: string, params: map<string, Value>)

  /** The keys `nodeData` receives: the id, and for a PERSON node its essid,
      its bssid and, when set, its password. */
  function NodeKeys(node: Attrs): seq<string> {
    ["id"] +
      if Get(node, "node_type") == Str("PERSON") then
        ["essid", "bssid"] + (if Truthy(Get(node, "password")) then ["password"] else [])
      else []
  }

  /** `nodeData`: the id, and for a PERSON node its essid, bssid and, when
      set, its password, each copied from the imported node. */
  function NodeParams(node: Attrs): map<string, Value> {
    var data := map["id" := Get(node, "id")];
    if Get(node, "node_type") == Str("PERSON") then
      var withWifi := data["essid" := Get(node, "essid")]["bssid" := Get(node, "bssid")];
      if Truthy(Get(node, "password")) then withWifi["password" := Get(node, "password")] else withWifi
    else data
  }

  /** The statement's entries name exactly the parameters bound, each once,
      and every parameter holds the imported node's value for its key. */
  lemma NodeParamsMatchKeys(node: Attrs)
    ensures forall k :: k in NodeParams(node) <==> k in NodeKeys(node)
    ensures forall k :: k in NodeParams(node) ==> NodeParams(node)[k] == Get(node, k)
    ensures forall i, j :: 0 <= i < j < |NodeKeys(node)| ==> NodeKeys(node)[i] != NodeKeys(node)[j]
  {
    var id := Get(node, "id");
    if Get(node, "node_type") == Str("PERSON") {
      var wifi := map["id" := id, "essid" := Get(node, "essid"), "bssid" := Get(node, "bssid")];
      if Truthy(Get(node, "password")) {
        assert NodeKeys(node) == ["id", "essid", "bssid", "password"];
        assert NodeParams(node) == wifi["password" := Get(node, "password")];
      } else {
        assert NodeKeys(node) == ["id", "essid", "bssid"];
        assert NodeParams(node) == wifi;
      }
    } else {
      assert NodeKeys(node) == ["id"];
      assert NodeParams(node) == map["id" := id];
    }
  }

  /** The statement one imported node sends. `nodeType` starts as 'Person'
      and nothing reassigns it, so every node is merged as a Person. */
  function ImportNode(node: Attrs): Statement {
    Statement(NodeQuery("Person", NodeKeys(node)), NodeParams(node))
  }

  /** The statement one imported edge sends: its `label` as relation type. */
  function ImportEdge(edge: Attrs): Statement {
    Statement(EdgeQuery(Show(Get(edge, "label"))), map["source" := Get(edge, "source"), "target" := Get(edge, "target")])
  }

  /** The node key `graph.hasNode(node.id)` looks up. */
  function ImportedKey(node: Attrs): string {
    Show(Get(node, "id"))
  }

  /** The node pass of the import: nodes already on screen send nothing. */
  function ImportNodes(present: set<string>, nodes: seq<Attrs>): seq<Statement>
    decreases |nodes|
  {
    if |nodes| == 0 then []
    else
      var rest := ImportNodes(present, nodes[1..]);
      if ImportedKey(nodes[0]) in present then rest else [ImportNode(nodes[0])] + rest
  }

  /** A parsed document; a missing `nodes` or `edges` member is `None`. */
  datatype Document = Document(nodes: Option<seq<Attrs>>, edges: Option<seq<Attrs>>)

  /** `handleImportSubmit` once the file is parsed: a document with neither
      list is rejected as an empty graph; one missing only one list fails on
      its `forEach` before the commit; otherwise the node statements, then one
      edge statement per edge, are sent and committed. */
  function Import(present: set<string>, doc: Document): (r: Result<seq<Statement>>)
    ensures r.Failure? <==> doc.nodes.None? || doc.edges.None?
  {
    if doc.nodes.None? && doc.edges.None? then Failure("import.empty_graph")
    else if doc.nodes.None? || doc.edges.None? then Failure("TypeError")
    else
      var es := doc.edges.value;
      Success(ImportNodes(present, doc.nodes.value) + seq(|es|, i requires 0 <= i < |es| => ImportEdge(es[i])))
  }

  /** Whether an imported node is not on screen yet. */
  function NotOnScreen(present: set<string>): Attrs -> bool {
    (n: Attrs) => ImportedKey(n) !in present
  }

  /** The node pass sends, in order, one statement per imported node whose id
      is not already on screen, and nothing for the others. */
  lemma {:induction false} ImportNodesEffect(present: set<string>, nodes: seq<Attrs>)
    ensures var kept := Filter(nodes, NotOnScreen(present));
      ImportNodes(present, nodes) == seq(|kept|, i requires 0 <= i < |kept| => ImportNode(kept[i]))
    decreases |nodes|
  {
    if |nodes| > 0 {
      var keep := NotOnScreen(present);
      var rest := Filter(nodes[1..], keep);
      var sent := ImportNodes(present, nodes[1..]);
      ImportNodesEffect(present, nodes[1..]);
      if keep(nodes[0]) {
        var kept := [nodes[0]] + rest;
        assert Filter(nodes, keep) == kept;
        assert ImportNodes(present, nodes) == [ImportNode(nodes[0])] + sent;
        forall i | 0 <= i < |kept|
          ensures ([ImportNode(nodes[0])] + sent)[i] == ImportNode(kept[i])
        {
          if i > 0 {
            assert kept[i] == rest[i - 1];
          }
        }
      } else {
        assert Filter(nodes, keep) == rest;
      }
    }
  }

  /** Every sent node statement binds `$id` to an id not already on screen. */
  lemma {:induction false} ImportSkipsPresent(present: set<string>, nodes: seq<Attrs>)
    ensures forall s :: s in ImportNodes(present, nodes) ==> "id" in s.params && Show(s.params["id"]) !in present
    decreases |nodes|
  {
    if |nodes| > 0 {
      ImportSkipsPresent(present, nodes[1..]);
      NodeStatementId(nodes[0]);
    }
  }

  /** A node statement binds `$id` to the key the node is looked up by. */
  lemma NodeStatementId(node: Attrs)
    ensures "id" in ImportNode(node).params && Show(ImportNode(node).params["id"]) == ImportedKey(node)
  {
  }

  // ------------------------------------------------------------ export

  /** `_.assign({}, attributes, { type, label, x, y, image: undefined })`
      through a JSON round trip, which drops every undefined member. */
  function ExportNode(a: Attrs): (r: Attrs)
    ensures forall k :: k in r ==> r[k].Str?
  {
    map k | k in a && k !in {"type", "label", "x", "y", "image"} && a[k].Str? :: a[k]
  }

  /** `_.assign({}, attributes, { source, target })` through JSON. */
  function ExportEdge(pair: (string, string), a: Attrs): (r: Attrs)
    ensures forall k :: k in r ==> r[k].Str?
  {
    var m := a["source" := Str(pair.0)]["target" := Str(pair.1)];
    map k | k in m && m[k].Str? :: m[k]
  }

  /** The exported document for the graph's nodes and edges, each listed in
      the order `graph.export()` gives them. */
  function Export(nodes: seq<Attrs>, edges: seq<((string, string), Attrs)>): Document {
    Document(Some(seq(|nodes|, i requires 0 <= i < |nodes| => ExportNode(nodes[i]))),
             Some(seq(|edges|, i requires 0 <= i < |edges| => ExportEdge(edges[i].0, edges[i].1))))
  }

  /** An exported node keeps every set attribute but type, label, x, y and
      image; an exported edge keeps its set attributes and gains its ends. */
  lemma ExportEffect(a: Attrs, pair: (string, string), e: Attrs, k: string)
    ensures k in ExportNode(a) <==> k in a && a[k].Str? && k != "type" && k != "label" && k != "x" && k != "y" && k != "image"
    ensures k in ExportNode(a) ==> ExportNode(a)[k] == a[k]
    ensures Get(ExportEdge(pair, e), "source") == Str(pair.0) && Get(ExportEdge(pair, e), "target") == Str(pair.1)
    ensures k != "source" && k != "target" ==> Get(ExportEdge(pair, e), k) == (if Get(e, k).Str? then Get(e, k) else Undefined)
  {
  }

  /** Importing an exported on-screen PERSON node sends its id, essid, bssid
      and (when set) password, merged as a Person; its pin and handshakes are
      exported but never read back. */
  lemma PersonRoundTrip(n: DbNode)
    requires |n.labels| > 0 && NodeType(n) == "PERSON"
    ensures ImportNode(ExportNode(NodeAttrs(n))).text ==
      NodeQuery("Person", ["id", "essid", "bssid"] + (if Truthy(Prop(n, "password")) then ["password"] else []))
    ensures var wifi := map["id" := Prop(n, "id"), "essid" := Prop(n, "essid"), "bssid" := Prop(n, "bssid")];
      ImportNode(ExportNode(NodeAttrs(n))).params ==
        if Truthy(Prop(n, "password")) then wifi["password" := Prop(n, "password")] else wifi
    ensures "pin" !in ImportNode(ExportNode(NodeAttrs(n))).params
    ensures "handshakes" !in ImportNode(ExportNode(NodeAttrs(n))).params
  {
    ExportedPerson(n);
    var pw: seq<string> := if Truthy(Prop(n, "password")) then ["password"] else [];
    assert NodeKeys(ExportNode(NodeAttrs(n))) == ["id"] + (["essid", "bssid"] + pw);
    assert ["id"] + (["essid", "bssid"] + pw) == ["id", "essid", "bssid"] + pw;
  }

  /** The exported attributes of a PERSON node give back its type and the
      four properties the import reads. */
  lemma ExportedPerson(n: DbNode)
    requires |n.labels| > 0 && NodeType(n) == "PERSON"
    ensures var e := ExportNode(NodeAttrs(n));
      && Get(e, "node_type") == Str("PERSON")
      && Get(e, "id") == Prop(n, "id")
      && Get(e, "essid") == Prop(n, "essid")
      && Get(e, "bssid") == Prop(n, "bssid")
      && Get(e, "password") == Prop(n, "password")
  {
    var a := NodeAttrs(n);
    assert Get(a, "node_type") == Str("PERSON");
    assert Get(a, "id") == Prop(n, "id");
    assert Get(a, "essid") == Prop(n, "essid");
    assert Get(a, "bssid") == Prop(n, "bssid");
    assert Get(a, "password") == Prop(n, "password");
    ExportKeeps(a, "node_type");
    ExportKeeps(a, "id");
    ExportKeeps(a, "essid");
    ExportKeeps(a, "bssid");
    ExportKeeps(a, "password");
  }

  /** Export keeps every attribute it does not overwrite. */
  lemma ExportKeeps(a: Attrs, k: string)
    requires k != "type" && k != "label" && k != "x" && k != "y" && k != "image"
    ensures Get(ExportNode(a), k) == Get(a, k)
  {
  }

  /** Importing an exported on-screen edge sends the statement for its
      relation type with its two ends as `$source` and `$target`. */
  lemma EdgeRoundTrip(pair: (string, string), relType: string, data: Attrs)
    requires "label" !in data
    ensures ImportEdge(ExportEdge(pair, EdgeAttrs(relType, data))) ==
      Statement(EdgeQuery(relType), map["source" := Str(pair.0), "target" := Str(pair.1)])
  {
    var e := ExportEdge(pair, EdgeAttrs(relType, data));
    assert Get(e, "label") == Str(relType);
  }

  /** Importing a graph's own export back into it sends no node statement:
      the export lists on-screen nodes, each keeps its `id` attribute, and
      that attribute shows as the key `hasNode` finds it under. */
  lemma ReimportSendsNoNodes(g: Graph, keys: seq<string>)
    requires KeyedById(g)
    requires forall i :: 0 <= i < |keys| ==> keys[i] in g.nodes
    ensures ImportNodes(g.nodes.Keys, Export(seq(|keys|, i requires 0 <= i < |keys| => g.nodes[keys[i]]), []).nodes.value) == []
  {
    var nodes := seq(|keys|, i requires 0 <= i < |keys| => g.nodes[keys[i]]);
    var exported := Export(nodes, []).nodes.value;
    forall i | 0 <= i < |exported|
      ensures ImportedKey(exported[i]) in g.nodes.Keys
    {
      assert ImportedKey(exported[i]) == ImportedKey(nodes[i]);
      assert ImportedKey(nodes[i]) == keys[i];
    }
    NoneSent(g.nodes.Keys, exported);
  }

  lemma {:induction false} NoneSent(present: set<string>, nodes: seq<Attrs>)
    requires forall i :: 0 <= i < |nodes| ==> ImportedKey(nodes[i]) in present
    ensures ImportNodes(present, nodes) == []
    decreases |nodes|
  {
    if |nodes| > 0 {
      NoneSent(present, nodes[1..]);
    }
  }
}

=== FILE: graphstore.dfy ===
/** The Neo4j database as the repositories see it: nodes keyed by their `id`
    property, each with one label and its properties, and typed directed
    relationships. Each Cypher statement the repositories issue is one
    function from store to store. */
module GraphStore {
  import opened Wrappers
  import opened Seqs
  import opened Models

  /** A node's label with the properties the repositories write. */
  datatype Node =
    | PersonNode(fields: PersonFields)
    | CategoryNode(name: string)
    | NationalityNode(name: string)
    | MediaNode(name: string, path: string, kind: FileType)
    | TranscriptNode(title: string, text: string, date: Option<Date>)

  datatype NodeLabel = PersonLabel | CategoryLabel | NationalityLabel | MediaLabel | TranscriptLabel

  function LabelOf(n: Node): NodeLabel {
    match n
    case PersonNode(_) => PersonLabel
    case CategoryNode(_) => CategoryLabel
    case NationalityNode(_) => NationalityLabel
    case MediaNode(_, _, _) => MediaLabel
    case TranscriptNode(_, _, _) => TranscriptLabel
  }

  /** The relationship types: `CATEGORIZED_AS`, `FROM` and `HAS`. */
  datatype Rel = CategorizedAs | From | Has

  datatype Edge = Edge(src: string, rel: Rel, dst: string)

  datatype Store = Store(nodes: map<string, Node>, edges: seq<Edge>)

  /** Every relationship joins two stored nodes. */
  predicate Valid(s: Store) {
    forall i :: 0 <= i < |s.edges| ==> s.edges[i].src in s.nodes && s.edges[i].dst in s.nodes
  }

  /** `MATCH (x:L {id: $id})` finds a node. */
  predicate HasLabel(s: Store, id: string, l: NodeLabel) {
    id in s.nodes && LabelOf(s.nodes[id]) == l
  }

  /** Whether a relationship leaves `src` with type `rel`. */
  function Outgoing(src: string, rel: Rel): Edge -> bool {
    (e: Edge) => e.src == src && e.rel == rel
  }

  /** Whether a relationship is anything but one leaving `src` with type `rel`. */
  function NotOutgoing(src: string, rel: Rel): Edge -> bool {
    (e: Edge) => !(e.src == src && e.rel == rel)
  }

  /** The relationships leaving `src` with type `rel`. */
  function OutEdges(s: Store, src: string, rel: Rel): (r: seq<Edge>)
    ensures forall i :: 0 <= i < |r| ==> r[i].src == src && r[i].rel == rel
  {
    Filter(s.edges, Outgoing(src, rel))
  }

  /** The number of relationships leaving `src` with type `rel`. */
  function OutCount(s: Store, src: string, rel: Rel): nat {
    Count(s.edges, Outgoing(src, rel))
  }

  // ------------------------------------------------------------- CREATE

  /** `CREATE (x:L { id: $id, ... })`. A store keyed by id holds one node per
      id, so creating an id that is already present replaces its properties. */
  function Create(s: Store, id: string, n: Node): (r: Store)
    ensures r.edges == s.edges
    ensures id in r.nodes && r.nodes[id] == n
    ensures forall k :: k != id ==> (k in r.nodes <==> k in s.nodes)
    ensures forall k :: k != id && k in s.nodes ==> r.nodes[k] == s.nodes[k]
  {
    Store(s.nodes[id := n], s.edges)
  }

  /** Creating a node keeps the store valid. */
  lemma CreateValid(s: Store, id: string, n: Node)
    requires Valid(s)
    ensures Valid(Create(s, id, n))
  {
  }

  /** `MATCH (a:L1 {id: $src}) MATCH (b:L2 {id: $dst}) CREATE (a)-[:REL]->(b)`:
      one new relationship when both matches succeed, nothing otherwise. */
  function Link(s: Store, src: string, srcLabel: NodeLabel, rel: Rel, dst: string, dstLabel: NodeLabel): (r: Store)
    ensures r.nodes == s.nodes
    ensures HasLabel(s, src, srcLabel) && HasLabel(s, dst, dstLabel) ==> r.edges == s.edges + [Edge(src, rel, dst)]
    ensures !(HasLabel(s, src, srcLabel) && HasLabel(s, dst, dstLabel)) ==> r == s
  {
    if HasLabel(s, src, srcLabel) && HasLabel(s, dst, dstLabel) then Store(s.nodes, s.edges + [Edge(src, rel, dst)])
    else s
  }

  /** Linking keeps the store valid and adds at most one relationship of
      the given type from `src`. */
  lemma LinkValid(s: Store, src: string, srcLabel: NodeLabel, rel: Rel, dst: string, dstLabel: NodeLabel)
    requires Valid(s)
    ensures Valid(Link(s, src, srcLabel, rel, dst, dstLabel))
    ensures OutCount(Link(s, src, srcLabel, rel, dst, dstLabel), src, rel) ==
      OutCount(s, src, rel) + (if HasLabel(s, src, srcLabel) && HasLabel(s, dst, dstLabel) then 1 else 0)
  {
    if HasLabel(s, src, srcLabel) && HasLabel(s, dst, dstLabel) {
      CountAppend(s.edges, [Edge(src, rel, dst)], Outgoing(src, rel));
    }
  }

  // ---------------------------------------------------------------- SET

  /** `MATCH (p:Person) WHERE p.id = $id SET p.f1 = $f1, ...`. */
  function SetPerson(s: Store, id: string, f: PersonFields): (r: Store)
    ensures r.edges == s.edges && r.nodes.Keys == s.nodes.Keys
    ensures HasLabel(s, id, PersonLabel) ==> r.nodes == s.nodes[id := PersonNode(f)]
    ensures !HasLabel(s, id, PersonLabel) ==> r == s
  {
    if HasLabel(s, id, PersonLabel) then Store(s.nodes[id := PersonNode(f)], s.edges) else s
  }

  /** `MATCH (n:L) WHERE n.id = $id SET n.name = $name` for a category or a
      nationality. */
  function SetName(s: Store, id: string, l: NodeLabel, name: string): (r: Store)
    requires l == CategoryLabel || l == NationalityLabel
    ensures r.edges == s.edges && r.nodes.Keys == s.nodes.Keys
    ensures HasLabel(s, id, l) ==> r.nodes == s.nodes[id := if l == CategoryLabel then CategoryNode(name) else NationalityNode(name)]
    ensures !HasLabel(s, id, l) ==> r == s
  {
    if !HasLabel(s, id, l) then s
    else if l == CategoryLabel then Store(s.nodes[id := CategoryNode(name)], s.edges)
    else Store(s.nodes[id := NationalityNode(name)], s.edges)
  }

  /** `MATCH (m:Media) WHERE m.id = $id SET m.name = $name, m.path = $path, m.type = $type`. */
  function SetMedia(s: Store, id: string, name: string, path: string, kind: FileType): (r: Store)
    ensures r.edges == s.edges && r.nodes.Keys == s.nodes.Keys
    ensures HasLabel(s, id, MediaLabel) ==> r.nodes == s.nodes[id := MediaNode(name, path, kind)]
    ensures !HasLabel(s, id, MediaLabel) ==> r == s
  {
    if HasLabel(s, id, MediaLabel) then Store(s.nodes[id := MediaNode(name, path, kind)], s.edges) else s
  }

  /** `MATCH (r:Transcript) WHERE r.id = $id SET r.title = $title, r.text = $text, r.date = $date`. */
  function SetTranscript(s: Store, id: string, title: string, text: string, date: Option<Date>): (r: Store)
    ensures r.edges == s.edges && r.nodes.Keys == s.nodes.Keys
    ensures HasLabel(s, id, TranscriptLabel) ==> r.nodes == s.nodes[id := TranscriptNode(title, text, date)]
    ensures !HasLabel(s, id, TranscriptLabel) ==> r == s
  {
    if HasLabel(s, id, TranscriptLabel) then Store(s.nodes[id := TranscriptNode(title, text, date)], s.edges) else s
  }

  /** Setting properties never changes which nodes exist nor any relationship,
      so validity is kept. */
  lemma SetKeepsValid(s: Store, r: Store)
    requires Valid(s)
    requires r.edges == s.edges && r.nodes.Keys == s.nodes.Keys
    ensures Valid(r)
  {
  }

  // ------------------------------------------------------ DETACH DELETE

  /** `DETACH DELETE` of a set of nodes: the nodes go, and with them every
      relationship that touches one of them. */
  function DetachDelete(s: Store, victims: set<string>): (r: Store)
    ensures forall k :: k in r.nodes <==> k in s.nodes && k !in victims
    ensures forall k :: k in r.nodes ==> r.nodes[k] == s.nodes[k]
    ensures forall i :: 0 <= i < |r.edges| ==> r.edges[i].src !in victims && r.edges[i].dst !in victims && r.edges[i] in s.edges
    ensures forall i :: 0 <= i < |s.edges| && s.edges[i].src !in victims && s.edges[i].dst !in victims ==> s.edges[i] in r.edges
    ensures IsSubseq(r.edges, s.edges)
  {
    Store(map k | k in s.nodes && k !in victims :: s.nodes[k],
          Filter(s.edges, (e: Edge) => e.src !in victims && e.dst !in victims))
  }

  /** Detaching deletes keep the store valid. */
  lemma DetachDeleteValid(s: Store, victims: set<string>)
    requires Valid(s)
    ensures Valid(DetachDelete(s, victims))
  {
    var r := DetachDelete(s, victims);
    forall i | 0 <= i < |r.edges|
      ensures r.edges[i].src in r.nodes && r.edges[i].dst in r.nodes
    {
      var j :| 0 <= j < |s.edges| && s.edges[j] == r.edges[i];
    }
  }

  /** Deleting nothing that is stored changes nothing. */
  lemma DetachDeleteNothing(s: Store, victims: set<string>)
    requires Valid(s)
    requires forall k :: k in victims ==> k !in s.nodes
    ensures DetachDelete(s, victims) == s
  {
    var r := DetachDelete(s, victims);
    FilterAll(s.edges, (e: Edge) => e.src !in victims && e.dst !in victims);
    assert r.nodes == s.nodes;
  }

  /** `MATCH (n:L) WHERE n.id = $id DETACH DELETE n`. */
  function DeleteNode(s: Store, id: string, l: NodeLabel): Store {
    if HasLabel(s, id, l) then DetachDelete(s, {id}) else s
  }

  /** Deleting a labelled node removes it and exactly the relationships that
      touch it; every other node and relationship stays, in order. A node of
      another label, or an unknown id, is left alone. */
  lemma DeleteNodeEffect(s: Store, id: string, l: NodeLabel)
    requires Valid(s)
    ensures Valid(DeleteNode(s, id, l))
    ensures !HasLabel(s, id, l) ==> DeleteNode(s, id, l) == s
    ensures HasLabel(s, id, l) ==> id !in DeleteNode(s, id, l).nodes
    ensures forall k :: k != id && k in s.nodes ==> k in DeleteNode(s, id, l).nodes && DeleteNode(s, id, l).nodes[k] == s.nodes[k]
    ensures HasLabel(s, id, l) ==>
      && (forall i :: 0 <= i < |DeleteNode(s, id, l).edges| ==> DeleteNode(s, id, l).edges[i].src != id && DeleteNode(s, id, l).edges[i].dst != id)
      && (forall i :: 0 <= i < |s.edges| && s.edges[i].src != id && s.edges[i].dst != id ==> s.edges[i] in DeleteNode(s, id, l).edges)
      && IsSubseq(DeleteNode(s, id, l).edges, s.edges)
  {
    DetachDeleteValid(s, {id});
  }

  /** The Media nodes of one type whose path ends with `suffix`. */
  function MediaEndingWith(s: Store, kind: FileType, suffix: string): (r: set<string>)
    ensures forall k :: k in r <==> k in s.nodes && s.nodes[k].MediaNode? && s.nodes[k].kind == kind && EndsWith(s.nodes[k].path, suffix)
  {
    set k | k in s.nodes && s.nodes[k].MediaNode? && s.nodes[k].kind == kind && EndsWith(s.nodes[k].path, suffix)
  }

  /** `MATCH (m:Media { type: $type }) WHERE m.path ENDS WITH $name DETACH DELETE m`. */
  function DeleteMediaEndingWith(s: Store, kind: FileType, suffix: string): Store {
    DetachDelete(s, MediaEndingWith(s, kind, suffix))
  }

  /** The suffix delete removes exactly the matching Media nodes. */
  lemma DeleteMediaEndingWithExact(s: Store, kind: FileType, suffix: string, k: string)
    ensures k in DeleteMediaEndingWith(s, kind, suffix).nodes <==>
      k in s.nodes && !(s.nodes[k].MediaNode? && s.nodes[k].kind == kind && EndsWith(s.nodes[k].path, suffix))
  {
  }

  /** What `DeletePersonCypher` removes: the person and every node a non
      `CATEGORIZED_AS` relationship from it reaches. */
  function CascadeVictims(s: Store, id: string): (r: set<string>)
    ensures id in r
    ensures forall k :: k in r ==> k == id || exists i :: 0 <= i < |s.edges| && s.edges[i] == Edge(id, s.edges[i].rel, k) && s.edges[i].rel != CategorizedAs
    ensures forall i :: 0 <= i < |s.edges| && s.edges[i].src == id && s.edges[i].rel != CategorizedAs ==> s.edges[i].dst in r
  {
    {id} + set i | 0 <= i < |s.edges| && s.edges[i].src == id && s.edges[i].rel != CategorizedAs :: s.edges[i].dst
  }

  /** `MATCH (p:Person { id: $id }) OPTIONAL MATCH (p)-[r]->(o)
      WHERE NOT (r:CATEGORIZED_AS) DETACH DELETE r, o, p`. */
  function DeletePerson(s: Store, id: string): Store {
    if HasLabel(s, id, PersonLabel) then DetachDelete(s, CascadeVictims(s, id)) else s
  }

  /** The cascade removes the person, its media and its nationality, and keeps
      its category and everything else. */
  lemma DeletePersonEffect(s: Store, id: string, k: string)
    requires Valid(s)
    requires HasLabel(s, id, PersonLabel)
    ensures id !in DeletePerson(s, id).nodes
    ensures (exists i :: 0 <= i < |s.edges| && s.edges[i].src == id && s.edges[i].rel != CategorizedAs && s.edges[i].dst == k) ==>
      k !in DeletePerson(s, id).nodes
    ensures k in s.nodes && k != id && (forall i :: 0 <= i < |s.edges| && s.edges[i].src == id && s.edges[i].dst == k ==> s.edges[i].rel == CategorizedAs) ==>
      k in DeletePerson(s, id).nodes && DeletePerson(s, id).nodes[k] == s.nodes[k]
    ensures Valid(DeletePerson(s, id))
  {
    DetachDeleteValid(s, CascadeVictims(s, id));
  }

  /** Deleting an unknown person changes nothing. */
  lemma DeletePersonUnknown(s: Store, id: string)
    requires !HasLabel(s, id, PersonLabel)
    ensures DeletePerson(s, id) == s
  {
  }

  // ------------------------------------------------------------- relink

  /** `MATCH (p:Person {id: $id}) MATCH (c:L {id: $dst}) MATCH (p)-[r:REL]->()
      DELETE r CREATE (p)-[:REL]->(c)`: every matched row deletes one
      relationship and creates one to `dst`, so the `k` relationships of that
      type become `k` relationships to `dst`; with none there is no row and
      nothing happens. */
  function Relink(s: Store, src: string, rel: Rel, dst: string, dstLabel: NodeLabel): (r: Store)
    ensures r.nodes == s.nodes
    ensures OutCount(r, src, rel) == OutCount(s, src, rel)
  {
    var keep := NotOutgoing(src, rel);
    var k := OutCount(s, src, rel);
    if HasLabel(s, src, PersonLabel) && HasLabel(s, dst, dstLabel) && k > 0 then
      var r := Store(s.nodes, Filter(s.edges, keep) + Repeat(Edge(src, rel, dst), k));
      RelinkCount(s.edges, src, rel, dst);
      r
    else s
  }

  /** Counting the relationships after the rewrite. */
  lemma {:induction false} RelinkCount(edges: seq<Edge>, src: string, rel: Rel, dst: string)
    ensures var p := Outgoing(src, rel);
      Count(Filter(edges, NotOutgoing(src, rel)) + Repeat(Edge(src, rel, dst), Count(edges, p)), p) == Count(edges, p)
  {
    var p := Outgoing(src, rel);
    var keep := NotOutgoing(src, rel);
    var f := Filter(edges, keep);
    var k := Count(edges, p);
    CountAppend(f, Repeat(Edge(src, rel, dst), k), p);
    CountNone(f, p);
    CountAll(Repeat(Edge(src, rel, dst), k), p);
  }

  lemma CountNone<T>(s: seq<T>, p: T -> bool)
    requires forall i :: 0 <= i < |s| ==> !p(s[i])
    ensures Count(s, p) == 0
  {
  }

  lemma {:induction false} CountAll<T>(s: seq<T>, p: T -> bool)
    requires forall i :: 0 <= i < |s| ==> p(s[i])
    ensures Count(s, p) == |s|
    decreases |s|
  {
    if |s| > 0 {
      CountAll(s[1..], p);
    }
  }

  /** After a relink that matched, every relationship of that type from the
      person goes to the new target, and every other relationship is kept in
      order; the store stays valid. */
  lemma RelinkEffect(s: Store, src: string, rel: Rel, dst: string, dstLabel: NodeLabel)
    requires Valid(s)
    ensures Valid(Relink(s, src, rel, dst, dstLabel))
    ensures HasLabel(s, src, PersonLabel) && HasLabel(s, dst, dstLabel) && OutCount(s, src, rel) > 0 ==>
      && (forall e :: e in Relink(s, src, rel, dst, dstLabel).edges && e.src == src && e.rel == rel ==> e.dst == dst)
      && Filter(Relink(s, src, rel, dst, dstLabel).edges, NotOutgoing(src, rel)) ==
         Filter(s.edges, NotOutgoing(src, rel))
    ensures OutCount(s, src, rel) == 0 ==> Relink(s, src, rel, dst, dstLabel) == s
  {
    RelinkValid(s, src, rel, dst, dstLabel);
    if HasLabel(s, src, PersonLabel) && HasLabel(s, dst, dstLabel) && OutCount(s, src, rel) > 0 {
      RelinkTargets(s, src, rel, dst, dstLabel);
    }
  }

  /** The relink keeps the store valid. */
  lemma RelinkValid(s: Store, src: string, rel: Rel, dst: string, dstLabel: NodeLabel)
    requires Valid(s)
    ensures Valid(Relink(s, src, rel, dst, dstLabel))
  {
    var keep := NotOutgoing(src, rel);
    var k := OutCount(s, src, rel);
    if HasLabel(s, src, PersonLabel) && HasLabel(s, dst, dstLabel) && k > 0 {
      var f := Filter(s.edges, keep);
      var rep := Repeat(Edge(src, rel, dst), k);
      var r := Relink(s, src, rel, dst, dstLabel);
      assert r.edges == f + rep;
      forall i | 0 <= i < |r.edges|
        ensures r.edges[i].src in r.nodes && r.edges[i].dst in r.nodes
      {
        if i < |f| {
          var j :| 0 <= j < |s.edges| && s.edges[j] == f[i];
        }
      }
    }
  }

  /** A relink that happens leaves only relationships to `dst` of its kind
      and every other relationship as it was. */
  lemma RelinkTargets(s: Store, src: string, rel: Rel, dst: string, dstLabel: NodeLabel)
    requires HasLabel(s, src, PersonLabel) && HasLabel(s, dst, dstLabel) && OutCount(s, src, rel) > 0
    ensures forall e :: e in Relink(s, src, rel, dst, dstLabel).edges && e.src == src && e.rel == rel ==> e.dst == dst
    ensures Filter(Relink(s, src, rel, dst, dstLabel).edges, NotOutgoing(src, rel)) ==
      Filter(s.edges, NotOutgoing(src, rel))
  {
    var keep := NotOutgoing(src, rel);
    var f := Filter(s.edges, keep);
    var rep := Repeat(Edge(src, rel, dst), OutCount(s, src, rel));
    assert Relink(s, src, rel, dst, dstLabel).edges == f + rep;
    KeptOrRepeated(s.edges, keep, Edge(src, rel, dst), OutCount(s, src, rel));
    RefilterRepeat(s.edges, keep, Edge(src, rel, dst), OutCount(s, src, rel));
  }

  /** Every element of a filtered sequence followed by copies of `x` is
      either kept or `x`. */
  lemma KeptOrRepeated<T>(s: seq<T>, keep: T -> bool, x: T, k: nat)
    ensures forall e :: e in Filter(s, keep) + Repeat(x, k) ==> keep(e) || e == x
  {
    var f := Filter(s, keep);
    var rep := Repeat(x, k);
    forall e | e in f + rep
      ensures keep(e) || e == x
    {
      var i :| 0 <= i < |f + rep| && (f + rep)[i] == e;
      if i < |f| {
        assert f[i] == e;
      } else {
        assert rep[i - |f|] == e;
      }
    }
  }

  /** Filtering again with the same test undoes the appended copies of an
      element the test drops. */
  lemma RefilterRepeat<T>(s: seq<T>, keep: T -> bool, x: T, k: nat)
    requires !keep(x)
    ensures Filter(Filter(s, keep) + Repeat(x, k), keep) == Filter(s, keep)
  {
    var f := Filter(s, keep);
    var rep := Repeat(x, k);
    FilterAppend(f, rep, keep);
    FilterTwice(s, keep);
    FilterNone(rep, keep);
  }

  lemma {:induction false} FilterTwice<T>(s: seq<T>, keep: T -> bool)
    ensures Filter(Filter(s, keep), keep) == Filter(s, keep)
    decreases |s|
  {
    if |s| > 0 {
      FilterTwice(s[1..], keep);
    }
  }

  lemma {:induction false} FilterNone<T>(s: seq<T>, keep: T -> bool)
    requires forall i :: 0 <= i < |s| ==> !keep(s[i])
    ensures Filter(s, keep) == []
    decreases |s|
  {
    if |s| > 0 {
      FilterNone(s[1..], keep);
    }
  }

  // -------------------------------------------------------------- reads

  /** The first target of a `REL` relationship from `src` that carries label `l`:
      `MATCH (p)-[:REL]->(c:L) RETURN c` with only the first record used. */
  function FirstTarget(s: Store, edges: seq<Edge>, src: string, rel: Rel, l: NodeLabel): (r: Option<string>)
    ensures r.Some? ==> HasLabel(s, r.value, l) && Edge(src, rel, r.value) in edges
    ensures r.None? ==> forall i :: 0 <= i < |edges| && edges[i].src == src && edges[i].rel == rel ==> !HasLabel(s, edges[i].dst, l)
    decreases |edges|
  {
    if |edges| == 0 then None
    else if edges[0].src == src && edges[0].rel == rel && HasLabel(s, edges[0].dst, l) then Some(edges[0].dst)
    else FirstTarget(s, edges[1..], src, rel, l)
  }

  /** The Media nodes `src` has, in relationship order:
      `MATCH (p {id: $id}) MATCH (p)-[:HAS]->(m:Media) RETURN m`. */
  function HasMedia(s: Store, edges: seq<Edge>, src: string): (r: seq<Media>)
    ensures forall i :: 0 <= i < |r| ==> r[i].id in s.nodes && s.nodes[r[i].id] == MediaNode(r[i].name, r[i].path, r[i].kind)
    decreases |edges|
  {
    if |edges| == 0 then []
    else
      var rest := HasMedia(s, edges[1..], src);
      var e := edges[0];
      if e.src == src && e.rel == Has && HasLabel(s, e.dst, MediaLabel) then
        [Media(e.dst, s.nodes[e.dst].name, s.nodes[e.dst].path, s.nodes[e.dst].kind)] + rest
      else rest
  }

  /** Appending a relationship appends what it contributes to the media list. */
  lemma {:induction false} HasMediaAppend(s: Store, a: seq<Edge>, b: seq<Edge>, src: string)
    ensures HasMedia(s, a + b, src) == HasMedia(s, a, src) + HasMedia(s, b, src)
    decreases |a|
  {
    if |a| == 0 {
      assert a + b == b;
    } else {
      assert (a + b)[0] == a[0];
      assert (a + b)[1..] == a[1..] + b;
      HasMediaAppend(s, a[1..], b, src);
    }
  }

  /** Media hydration looks only at `HAS` relationships from `src`. */
  lemma {:induction false} HasMediaOthers(s: Store, edges: seq<Edge>, src: string)
    requires forall i :: 0 <= i < |edges| ==> edges[i].src != src || edges[i].rel != Has
    ensures HasMedia(s, edges, src) == []
    decreases |edges|
  {
    if |edges| > 0 {
      HasMediaOthers(s, edges[1..], src);
    }
  }

  /** First-target lookup is undisturbed by relationships from other nodes. */
  lemma {:induction false} FirstTargetAppend(s: Store, a: seq<Edge>, b: seq<Edge>, src: string, rel: Rel, l: NodeLabel)
    ensures FirstTarget(s, a + b, src, rel, l) == match FirstTarget(s, a, src, rel, l) case Some(x) => Some(x) case None => FirstTarget(s, b, src, rel, l)
    decreases |a|
  {
    if |a| == 0 {
      assert a + b == b;
    } else {
      assert (a + b)[0] == a[0];
      assert (a + b)[1..] == a[1..] + b;
      FirstTargetAppend(s, a[1..], b, src, rel, l);
    }
  }

  // ---------------------------------------------------------- growth

  /** `t` keeps every node of `s` unchanged and extends its relationships. */
  predicate Grows(s: Store, t: Store) {
    && (forall k :: k in s.nodes ==> k in t.nodes && t.nodes[k] == s.nodes[k])
    && IsPrefix(s.edges, t.edges)
  }

  lemma GrowsTrans(s: Store, t: Store, u: Store)
    requires Grows(s, t) && Grows(t, u)
    ensures Grows(s, u)
  {
    assert u.edges[..|s.edges|] == t.edges[..|s.edges|];
  }

  /** Hydration over relationships whose targets are all in `s` reads the
      same in any store that keeps those nodes. */
  lemma {:induction false} HasMediaStable(s: Store, t: Store, edges: seq<Edge>, src: string)
    requires forall k :: k in s.nodes ==> k in t.nodes && t.nodes[k] == s.nodes[k]
    requires forall i :: 0 <= i < |edges| ==> edges[i].dst in s.nodes
    ensures HasMedia(t, edges, src) == HasMedia(s, edges, src)
    decreases |edges|
  {
    if |edges| > 0 {
      HasMediaStable(s, t, edges[1..], src);
    }
  }

  lemma {:induction false} FirstTargetStable(s: Store, t: Store, edges: seq<Edge>, src: string, rel: Rel, l: NodeLabel)
    requires forall k :: k in s.nodes ==> k in t.nodes && t.nodes[k] == s.nodes[k]
    requires forall i :: 0 <= i < |edges| ==> edges[i].dst in s.nodes
    ensures FirstTarget(t, edges, src, rel, l) == FirstTarget(s, edges, src, rel, l)
    decreases |edges|
  {
    if |edges| > 0 {
      FirstTargetStable(s, t, edges[1..], src, rel, l);
    }
  }

  /** Relationships of other types or from other nodes never change a first-target lookup. */
  lemma {:induction false} FirstTargetOthers(s: Store, edges: seq<Edge>, src: string, rel: Rel, l: NodeLabel)
    requires forall i :: 0 <= i < |edges| ==> edges[i].src != src || edges[i].rel != rel
    ensures FirstTarget(s, edges, src, rel, l) == None
    decreases |edges|
  {
    if |edges| > 0 {
      FirstTargetOthers(s, edges[1..], src, rel, l);
    }
  }

  /** Dropping only relationships that are not of type `rel` from `src`
      leaves the count of those that are. */
  lemma {:induction false} CountFilterKeeps(edges: seq<Edge>, keep: Edge -> bool, src: string, rel: Rel)
    requires forall e: Edge :: e.src == src && e.rel == rel ==> keep(e)
    ensures Count(Filter(edges, keep), Outgoing(src, rel)) == Count(edges, Outgoing(src, rel))
    decreases |edges|
  {
    if |edges| > 0 {
      CountFilterKeeps(edges[1..], keep, src, rel);
    }
  }

  /** Dropping only relationships that are not of type `rel` from `src`
      leaves every first-target lookup for `rel` from `src` where it was. */
  lemma {:induction false} FirstTargetFilterKeeps(s: Store, edges: seq<Edge>, keep: Edge -> bool, src: string, rel: Rel, l: NodeLabel)
    requires forall e: Edge :: e.src == src && e.rel == rel ==> keep(e)
    ensures FirstTarget(s, Filter(edges, keep), src, rel, l) == FirstTarget(s, edges, src, rel, l)
    decreases |edges|
  {
    if |edges| > 0 {
      var e0 := edges[0];
      var rest := Filter(edges[1..], keep);
      FirstTargetFilterKeeps(s, edges[1..], keep, src, rel, l);
      if keep(e0) {
        assert Filter(edges, keep) == [e0] + rest;
        FirstTargetCons(s, e0, rest, src, rel, l);
      } else {
        assert Filter(edges, keep) == rest;
        assert !(e0.src == src && e0.rel == rel);
      }
    }
  }

  /** The lookup on a relationship followed by others. */
  lemma FirstTargetCons(s: Store, e: Edge, rest: seq<Edge>, src: string, rel: Rel, l: NodeLabel)
    ensures FirstTarget(s, [e] + rest, src, rel, l) ==
      if e.src == src && e.rel == rel && HasLabel(s, e.dst, l) then Some(e.dst) else FirstTarget(s, rest, src, rel, l)
  {
    assert ([e] + rest)[0] == e && ([e] + rest)[1..] == rest;
  }

  /** A relink of `rel` leaves the relationships of any other type `rel2`
      from the same node alone: their number and the first target found. */
  lemma RelinkOthers(s: Store, src: string, rel: Rel, dst: string, dstLabel: NodeLabel, rel2: Rel, t: Store, l2: NodeLabel)
    requires rel2 != rel
    ensures OutCount(Relink(s, src, rel, dst, dstLabel), src, rel2) == OutCount(s, src, rel2)
    ensures FirstTarget(t, Relink(s, src, rel, dst, dstLabel).edges, src, rel2, l2) == FirstTarget(t, s.edges, src, rel2, l2)
  {
    var k := OutCount(s, src, rel);
    if HasLabel(s, src, PersonLabel) && HasLabel(s, dst, dstLabel) && k > 0 {
      assert Relink(s, src, rel, dst, dstLabel).edges == Filter(s.edges, NotOutgoing(src, rel)) + Repeat(Edge(src, rel, dst), k);
      RelinkOthersCount(s.edges, src, rel, dst, k, rel2);
      RelinkOthersTarget(t, s.edges, src, rel, dst, k, rel2, l2);
    }
  }

  /** The count half of `RelinkOthers`, on the rewritten relationship list. */
  lemma RelinkOthersCount(edges: seq<Edge>, src: string, rel: Rel, dst: string, k: nat, rel2: Rel)
    requires rel2 != rel
    ensures Count(Filter(edges, NotOutgoing(src, rel)) + Repeat(Edge(src, rel, dst), k), Outgoing(src, rel2)) ==
      Count(edges, Outgoing(src, rel2))
  {
    var f := Filter(edges, NotOutgoing(src, rel));
    var rep := Repeat(Edge(src, rel, dst), k);
    CountAppend(f, rep, Outgoing(src, rel2));
    CountNone(rep, Outgoing(src, rel2));
    CountFilterKeeps(edges, NotOutgoing(src, rel), src, rel2);
  }

  /** The first-target half of `RelinkOthers`, on the rewritten relationship list. */
  lemma RelinkOthersTarget(t: Store, edges: seq<Edge>, src: string, rel: Rel, dst: string, k: nat, rel2: Rel, l2: NodeLabel)
    requires rel2 != rel
    ensures FirstTarget(t, Filter(edges, NotOutgoing(src, rel)) + Repeat(Edge(src, rel, dst), k), src, rel2, l2) ==
      FirstTarget(t, edges, src, rel2, l2)
  {
    var f := Filter(edges, NotOutgoing(src, rel));
    var rep := Repeat(Edge(src, rel, dst), k);
    FirstTargetAppend(t, f, rep, src, rel2, l2);
    FirstTargetOthers(t, rep, src, rel2, l2);
    FirstTargetFilterKeeps(t, edges, NotOutgoing(src, rel), src, rel2, l2);
  }

  /** A relink that matched leaves at least one relationship to the new target. */
  lemma RelinkReaches(s: Store, src: string, rel: Rel, dst: string, dstLabel: NodeLabel)
    requires HasLabel(s, src, PersonLabel) && HasLabel(s, dst, dstLabel) && OutCount(s, src, rel) > 0
    ensures Edge(src, rel, dst) in Relink(s, src, rel, dst, dstLabel).edges
  {
    var keep := NotOutgoing(src, rel);
    var f := Filter(s.edges, keep);
    var rep := Repeat(Edge(src, rel, dst), OutCount(s, src, rel));
    assert rep[0] == Edge(src, rel, dst);
    assert (f + rep)[|f|] == Edge(src, rel, dst);
  }

  /** When every `rel` relationship from `src` goes to the same node `d` of
      label `l`, and there is one, the first-target lookup finds `d`. */
  lemma {:induction false} FirstTargetAllTo(s: Store, edges: seq<Edge>, src: string, rel: Rel, l: NodeLabel, d: string)
    requires HasLabel(s, d, l)
    requires forall e :: e in edges && e.src == src && e.rel == rel ==> e.dst == d
    requires Edge(src, rel, d) in edges
    ensures FirstTarget(s, edges, src, rel, l) == Some(d)
    decreases |edges|
  {
    if edges[0] != Edge(src, rel, d) && !(edges[0].src == src && edges[0].rel == rel) {
      assert Edge(src, rel, d) in edges[1..];
      FirstTargetAllTo(s, edges[1..], src, rel, l, d);
    }
  }
}

=== FILE: list_edit.dfy ===
/** The list-editing callbacks of the person and transcript forms
    (src/components/forms/person.form.tsx,
    src/components/add-node/add-person.component.tsx,
    src/components/forms/transcript.form.tsx): free-text entries such as
    restrictions and extra, picked files, the "create new" autocomplete
    option, the mentioned-person mapping and the date inputs. */
module ListEdit {
  import opened Wrappers
  import opened Seqs

  // ------------------------------------------------------ text entries

  /** A list of text entries together with the text field for a new one. */
  datatype Entries = Entries(items: seq<string>, draft: string)

  /** The add button: nothing for an empty draft; otherwise
      `_.uniq(_.concat(items, [draft]))` and the draft is cleared. */
  function AddEntry(e: Entries): (r: Entries)
    ensures e.draft == "" ==> r == e
    ensures e.draft != "" ==> r.draft == "" && NoDups(r.items)
  {
    if e.draft == "" then e else Entries(Uniq(e.items + [e.draft]), "")
  }

  /** Changing entry `idx`: an empty value deletes it, any other value
      replaces it. */
  function ChangeEntry(items: seq<string>, idx: int, v: string): seq<string> {
    if v == "" then DeleteEntry(items, idx) else ReplaceAt(items, idx, v)
  }

  /** Deleting entry `idx`: `filter((_, i) => idx !== i)`. */
  function DeleteEntry<T>(items: seq<T>, idx: int): seq<T> {
    DropIndex(items, idx)
  }

  /** On a duplicate-free list, adding a non-empty draft appends it when it
      is new and leaves the list alone when it is already there; either way
      the draft is cleared. */
  lemma AddEntryEffect(e: Entries)
    requires NoDups(e.items)
    requires e.draft != ""
    ensures AddEntry(e).items == if e.draft in e.items then e.items else e.items + [e.draft]
    ensures AddEntry(e).draft == ""
  {
    UniqSnoc(e.items, e.draft);
    UniqOfNoDups(e.items);
  }

  /** On any list, adding keeps the first occurrence of every value, in
      order, and has each value of the old list and the draft exactly once. */
  lemma AddEntryFirstOccurrences(e: Entries)
    requires e.draft != ""
    ensures AddEntry(e).items == if e.draft in e.items then Uniq(e.items) else Uniq(e.items) + [e.draft]
    ensures forall x :: x in AddEntry(e).items <==> x in e.items || x == e.draft
  {
    UniqSnoc(e.items, e.draft);
  }

  /** Changing to a non-empty value replaces exactly entry `idx` and keeps
      the length; changing to the empty value is deleting. */
  lemma ChangeEntryEffect(items: seq<string>, idx: int, v: string)
    ensures v == "" ==> ChangeEntry(items, idx, v) == DeleteEntry(items, idx)
    ensures v != "" && 0 <= idx < |items| ==> ChangeEntry(items, idx, v) == items[idx := v]
    ensures v != "" && !(0 <= idx < |items|) ==> ChangeEntry(items, idx, v) == items
  {
    ReplaceAtIsUpdate(items, idx, v);
  }

  /** Deleting removes exactly the element at `idx`, keeps the rest in
      order, and changes nothing for an index out of range. */
  lemma DeleteEntryEffect<T>(items: seq<T>, idx: int)
    ensures 0 <= idx < |items| ==>
      && |DeleteEntry(items, idx)| == |items| - 1
      && (forall i :: 0 <= i < idx ==> DeleteEntry(items, idx)[i] == items[i])
      && (forall i :: idx <= i < |items| - 1 ==> DeleteEntry(items, idx)[i] == items[i + 1])
    ensures !(0 <= idx < |items|) ==> DeleteEntry(items, idx) == items
  {
  }

  // ------------------------------------------------------------ files

  /** A picked browser `File`; two picks are the same file only when they
      are the same object, modelled by the handle. */
  datatype PickedFile = PickedFile(handle: nat, name: string)

  /** Adding picked files: `_.uniq(_.concat(attachments, picked))` by identity. */
  function AddFiles(prev: seq<PickedFile>, picked: seq<PickedFile>): seq<PickedFile> {
    Uniq(prev + picked)
  }

  /** On a duplicate-free list, adding files keeps the old list as a prefix
      and appends the picked files that are new, each once, in pick order. */
  lemma AddFilesEffect(prev: seq<PickedFile>, picked: seq<PickedFile>)
    requires NoDups(prev)
    ensures AddFiles(prev, picked) == prev + UniqFrom(picked, Elems(prev))
    ensures forall f :: f in AddFiles(prev, picked) <==> f in prev || f in picked
    ensures NoDups(AddFiles(prev, picked))
  {
    UniqFromAppend(prev, picked, {});
    UniqFromNoDups(prev, {});
    assert {} + Elems(prev) == Elems(prev);
  }

  // ---------------------------------------------------- autocomplete

  /** An autocomplete option `{ id, label }`; the label is `caption` here. */
  datatype Opt = Opt(id: string, caption: string)

  /** No option has `id` as its id: `!_.find(options, { id })`. */
  predicate IdUnused(options: seq<Opt>, id: string) {
    forall i :: 0 <= i < |options| ==> options[i].id != id
  }

  /** `filterOptions` of the nationality and category inputs: the library's
      own filtering (`filtered`, left abstract), then a "create new" option
      whose id is the raw input when the input is non-empty and no option
      has it as id. */
  function WithCreateNew(options: seq<Opt>, filtered: seq<Opt>, input: string, newLabel: string): (r: seq<Opt>)
    ensures |r| == |filtered| || |r| == |filtered| + 1
    ensures r[..|filtered|] == filtered
  {
    if input != "" && IdUnused(options, input) then filtered + [Opt(input, newLabel)] else filtered
  }

  /** The create-new option is added exactly when the input is non-empty and
      no option has it as id, and it carries the input as id. */
  lemma CreateNewIff(options: seq<Opt>, filtered: seq<Opt>, input: string, newLabel: string)
    ensures var r := WithCreateNew(options, filtered, input, newLabel);
      && (|r| == |filtered| + 1 <==> input != "" && IdUnused(options, input))
      && (|r| == |filtered| + 1 ==> r[|filtered|] == Opt(input, newLabel))
  {
  }

  /** Only ids are compared: an input that equals some option's label but no
      option's id still offers to create a new node. */
  lemma CreateNewIgnoresLabels()
    ensures var options := [Opt("0b9bde0e-53a2-4f52-9d5c-0d5c2b5b3a11", "Syria")];
      WithCreateNew(options, [], "Syria", "new") == [Opt("Syria", "new")]
  {
  }

  /** The selected option's id, or '' when the selection is cleared:
      `value?.id ?? ''`. */
  function Selected(value: Option<Opt>): (r: string)
    ensures value.None? ==> r == ""
    ensures value.Some? ==> r == value.value.id
  {
    if value.Some? then value.value.id else ""
  }

  /** Selecting an option and reading back the shown value: the form shows
      the first option whose id is the stored one, so a selection among
      options with distinct ids shows the option selected. */
  function Shown(options: seq<Opt>, stored: string): (r: Option<Opt>)
    ensures r.None? <==> IdUnused(options, stored)
    ensures r.Some? ==> r.value in options && r.value.id == stored
    decreases |options|
  {
    if |options| == 0 then None
    else if options[0].id == stored then Some(options[0])
    else Shown(options[1..], stored)
  }

  /** Ids are distinct. */
  predicate DistinctIds(options: seq<Opt>) {
    forall i, j :: 0 <= i < j < |options| ==> options[i].id != options[j].id
  }

  /** Storing the selection and showing it back gives the option chosen, and
      clearing shows nothing unless some option has the empty id. */
  lemma SelectThenShow(options: seq<Opt>, i: nat)
    requires DistinctIds(options)
    requires i < |options|
    ensures Shown(options, Selected(Some(options[i]))) == Some(options[i])
    ensures Shown(options, Selected(None)).None? <==> IdUnused(options, "")
  {
    var r := Shown(options, options[i].id);
    var j :| 0 <= j < |options| && options[j] == r.value;
  }

  // ------------------------------------------------- mentioned persons

  /** A value of the mentioned autocomplete: free text or a picked option. */
  datatype Mention = Typed(text: string) | Picked(opt: Opt)

  /** One value as stored: free text becomes `{ id: text, label: '' }`. */
  function ToOpt(m: Mention): Opt {
    match m
    case Typed(x) => Opt(x, "")
    case Picked(o) => o
  }

  /** The mentioned mapping, in order. */
  function MapMentioned(values: seq<Mention>): (r: seq<Opt>)
    ensures |r| == |values|
    ensures forall i :: 0 <= i < |values| ==> r[i] == ToOpt(values[i])
  {
    seq(|values|, i requires 0 <= i < |values| => ToOpt(values[i]))
  }

  /** Free text keeps its text as id with an empty label, and picked
      options pass through. */
  lemma MapMentionedEffect(values: seq<Mention>)
    ensures forall i :: 0 <= i < |values| && values[i].Typed? ==> MapMentioned(values)[i] == Opt(values[i].text, "")
    ensures forall i :: 0 <= i < |values| && values[i].Picked? ==> MapMentioned(values)[i] == values[i].opt
  {
  }

  /** Re-mapping picked options is the identity. */
  lemma MapMentionedPicked(opts: seq<Opt>)
    ensures MapMentioned(seq(|opts|, i requires 0 <= i < |opts| => Picked(opts[i]))) == opts
  {
  }

  /** `isOptionEqualToValue`: two options are the same person iff their ids are equal. */
  predicate SameOption(a: Opt, b: Opt) {
    a.id == b.id
  }

  /** Option sameness is an equivalence that ignores labels. */
  lemma SameOptionEquivalence(a: Opt, b: Opt, c: Opt, caption: string)
    ensures SameOption(a, a)
    ensures SameOption(a, b) ==> SameOption(b, a)
    ensures SameOption(a, b) && SameOption(b, c) ==> SameOption(a, c)
    ensures SameOption(a, a.(caption := caption))
  {
  }

  // ------------------------------------------------------------ dates

  /** A date (an opaque timestamp). */
  type Date = int

  /** The newer forms (person and transcript): an empty input is ignored,
      anything else is parsed by `moment(v).toDate()` and set. The parser is
      a parameter. */
  function DateInput(current: Option<Date>, input: string, parseMoment: string -> Date): (r: Option<Date>)
    ensures input == "" ==> r == current
    ensures input != "" ==> r == Some(parseMoment(input))
  {
    if input == "" then current else Some(parseMoment(input))
  }

  /** The older add-person form: an empty input clears the date, anything
      else is parsed by `new Date(v)`, a parser of its own (for a
      `YYYY-MM-DD` value it gives midnight UTC, where moment gives local
      midnight). */
  function DateInputClearing(input: string, parseDate: string -> Date): (r: Option<Date>)
    ensures input == "" <==> r.None?
    ensures input != "" ==> r == Some(parseDate(input))
  {
    if input == "" then None else Some(parseDate(input))
  }

  /** On a non-empty input the two forms set the same date exactly when
      their two parsers agree on it; on an empty input they differ exactly
      when a date was set: the newer form keeps it, the older drops it. */
  lemma DateFormsDiffer(current: Option<Date>, input: string, parseMoment: string -> Date, parseDate: string -> Date)
    ensures input != "" ==>
      (DateInput(current, input, parseMoment) == DateInputClearing(input, parseDate) <==> parseMoment(input) == parseDate(input))
    ensures input == "" ==>
      (DateInput(current, input, parseMoment) == DateInputClearing(input, parseDate) <==> current.None?)
  {
  }
}

=== FILE: list_view.dfy ===
/** src/views/list.view.tsx: the list page's search filter over the fetched
    people and transcripts, its sort comparators, the ASC/DESC switch and the
    lookup behind a click on a mentioned person. */
module ListView {
  import opened Wrappers
  import opened Seqs
  import opened Models

  /** `field.toLowerCase().includes(search.toLowerCase())`. */
  predicate Matches(field: string, search: string) {
    Includes(Lower(field), Lower(search))
  }

  /** A `forEach` over the entries that sets `result` when one matches. */
  function AnyMatches(xs: seq<string>, search: string): (r: bool)
    decreases |xs|
  {
    if |xs| == 0 then false else Matches(xs[0], search) || AnyMatches(xs[1..], search)
  }

  /** The loop sets `result` exactly when some entry matches. */
  lemma {:induction false} AnyMatchesIff(xs: seq<string>, search: string)
    ensures AnyMatches(xs, search) <==> exists i :: 0 <= i < |xs| && Matches(xs[i], search)
    decreases |xs|
  {
    if |xs| > 0 {
      AnyMatchesIff(xs[1..], search);
      if Matches(xs[0], search) {
        assert 0 < |xs| && Matches(xs[0], search);
      } else {
        forall i | 0 < i < |xs| && Matches(xs[i], search)
          ensures Matches(xs[1..][i - 1], search)
        {
        }
      }
    }
  }

  /** The nineteen person fields the search looks at, in the order it tries them. */
  function SearchedFields(p: Person): (r: seq<string>)
    ensures |r| == 19
  {
    var f := p.fields;
    [f.arabicName, f.englishName, f.motherName, f.nickname, p.category.text,
     p.nationality.text, f.job, f.email, f.phone, f.notes, f.address,
     f.gpsLocation, f.fileNumber, f.workplace, f.idNumber, f.passportNumber,
     f.passportIssuePlace, f.birthPlace, f.nationalNumber]
  }

  /** The person filter's callback. */
  predicate PersonKept(p: Person, search: string) {
    AnyMatches(SearchedFields(p), search) || AnyMatches(p.fields.extra, search) || AnyMatches(p.fields.restrictions, search)
  }

  /** A transcript as the list page holds it: the record plus the people it
      mentions, each an `{ id, label }` option. */
  datatype TranscriptRow = TranscriptRow(transcript: Transcript, mentioned: seq<Ref>)

  /** The labels of a transcript's mentioned people, in order. */
  function MentionedLabels(rs: seq<Ref>): (r: seq<string>)
    ensures |r| == |rs|
    ensures forall i :: 0 <= i < |rs| ==> r[i] == rs[i].text
  {
    seq(|rs|, i requires 0 <= i < |rs| => rs[i].text)
  }

  /** The transcript filter's callback. */
  predicate TranscriptKept(t: TranscriptRow, search: string) {
    Matches(t.transcript.title, search) || Matches(t.transcript.content, search)
    || AnyMatches(MentionedLabels(t.mentioned), search)
  }

  function FilterPeople(people: seq<Person>, search: string): seq<Person> {
    Filter(people, p => PersonKept(p, search))
  }

  function FilterTranscripts(ts: seq<TranscriptRow>, search: string): seq<TranscriptRow> {
    Filter(ts, t => TranscriptKept(t, search))
  }

  /** A person stays in the list exactly when the lower-cased search occurs in
      one of the nineteen searched fields or in some `extra` or `restrictions`
      entry, all lower-cased; the filtered list keeps the fetched order. */
  lemma FilterPeopleEffect(people: seq<Person>, search: string)
    ensures IsSubseq(FilterPeople(people, search), people)
    ensures forall p :: p in FilterPeople(people, search) ==> p in people
    ensures forall p :: p in people ==>
      (p in FilterPeople(people, search) <==>
        || (exists i :: 0 <= i < 19 && Matches(SearchedFields(p)[i], search))
        || (exists i :: 0 <= i < |p.fields.extra| && Matches(p.fields.extra[i], search))
        || (exists i :: 0 <= i < |p.fields.restrictions| && Matches(p.fields.restrictions[i], search)))
  {
    forall p | p in people
      ensures p in FilterPeople(people, search) <==> PersonKept(p, search)
    {
      var i :| 0 <= i < |people| && people[i] == p;
      assert people[i] == p;
    }
    forall p | p in people
      ensures PersonKept(p, search) <==>
        || (exists i :: 0 <= i < 19 && Matches(SearchedFields(p)[i], search))
        || (exists i :: 0 <= i < |p.fields.extra| && Matches(p.fields.extra[i], search))
        || (exists i :: 0 <= i < |p.fields.restrictions| && Matches(p.fields.restrictions[i], search))
    {
      AnyMatchesIff(SearchedFields(p), search);
      AnyMatchesIff(p.fields.extra, search);
      AnyMatchesIff(p.fields.restrictions, search);
    }
  }

  /** A transcript stays exactly when the search occurs, case-insensitively,
      in its title, its content or the label of someone it mentions. */
  lemma FilterTranscriptsEffect(ts: seq<TranscriptRow>, search: string)
    ensures IsSubseq(FilterTranscripts(ts, search), ts)
    ensures forall t :: t in ts ==>
      (t in FilterTranscripts(ts, search) <==>
        || Matches(t.transcript.title, search)
        || Matches(t.transcript.content, search)
        || (exists i :: 0 <= i < |t.mentioned| && Matches(t.mentioned[i].text, search)))
  {
    forall t | t in ts
      ensures t in FilterTranscripts(ts, search) <==> TranscriptKept(t, search)
    {
      var i :| 0 <= i < |ts| && ts[i] == t;
      assert ts[i] == t;
    }
    forall t | t in ts
      ensures AnyMatches(MentionedLabels(t.mentioned), search) <==>
        exists i :: 0 <= i < |t.mentioned| && Matches(t.mentioned[i].text, search)
    {
      var labels := MentionedLabels(t.mentioned);
      AnyMatchesIff(labels, search);
      if exists i :: 0 <= i < |t.mentioned| && Matches(t.mentioned[i].text, search) {
        var i :| 0 <= i < |t.mentioned| && Matches(t.mentioned[i].text, search);
        assert Matches(labels[i], search);
      }
    }
  }

  /** `Array.prototype.filter` with a callback that may throw: the callback
      runs on the entries in order and the first throw ends the filter. */
  function TryFilter<T>(s: seq<T>, keep: T -> Result<bool>): Result<seq<T>>
    decreases |s|
  {
    if |s| == 0 then Success([])
    else match keep(s[0])
      case Failure(e) => Failure(e)
      case Success(b) =>
        match TryFilter(s[1..], keep)
        case Failure(e) => Failure(e)
        case Success(rest) => Success(if b then [s[0]] + rest else rest)
  }

  /** `transcript.mentioned` on an instance of the `Transcript` class, which
      declares no such property: `undefined`. */
  function MentionedOf(t: Transcript): Option<seq<Ref>> {
    None
  }

  /** The transcript filter's callback on the class as written: the title
      and content tests run, then `transcript.mentioned.forEach` reads a
      property of `undefined` and throws. */
  function TranscriptKeptAsWritten(t: Transcript, search: string): Result<bool> {
    var hit := Matches(t.title, search) || Matches(t.content, search);
    match MentionedOf(t)
    case None => Failure("TypeError: Cannot read properties of undefined (reading 'forEach')")
    case Some(ms) => Success(hit || AnyMatches(MentionedLabels(ms), search))
  }

  /** The transcript filter over the fetched `Transcript` instances. */
  function FilterTranscriptsAsWritten(ts: seq<Transcript>, search: string): Result<seq<Transcript>> {
    TryFilter(ts, t => TranscriptKeptAsWritten(t, search))
  }

  /** As written, the filter effect throws as soon as one transcript has been
      fetched, whatever the search, and only an empty list gets through. */
  lemma {:induction false} FilterTranscriptsAsWrittenThrows(ts: seq<Transcript>, search: string)
    ensures FilterTranscriptsAsWritten(ts, search).Failure? <==> |ts| > 0
    ensures |ts| == 0 ==> FilterTranscriptsAsWritten(ts, search) == Success([])
  {
    if |ts| > 0 {
      assert TranscriptKeptAsWritten(ts[0], search).Failure?;
    }
  }

  /** A callback that never throws makes the throwing filter the plain one. */
  lemma {:induction false} TryFilterTotal<T>(s: seq<T>, keep: T -> Result<bool>, p: T -> bool)
    requires forall i :: 0 <= i < |s| ==> keep(s[i]) == Success(p(s[i]))
    ensures TryFilter(s, keep) == Success(Filter(s, p))
    decreases |s|
  {
    if |s| > 0 {
      assert forall i :: 0 <= i < |s[1..]| ==> s[1..][i] == s[i + 1];
      TryFilterTotal(s[1..], keep, p);
    }
  }

  /** With the `mentioned` field the class lacks, the callback never throws,
      and the filter keeps exactly the rows `FilterTranscripts` keeps. */
  lemma FilterTranscriptsIntended(ts: seq<TranscriptRow>, search: string)
    ensures TryFilter(ts, (t: TranscriptRow) => Success(TranscriptKept(t, search))) == Success(FilterTranscripts(ts, search))
  {
    TryFilterTotal(ts, (t: TranscriptRow) => Success(TranscriptKept(t, search)), t => TranscriptKept(t, search));
  }

  /** The empty search matches every field, so it keeps both lists whole. */
  lemma EmptySearchKeepsAll(people: seq<Person>, ts: seq<TranscriptRow>)
    ensures FilterPeople(people, "") == people
    ensures FilterTranscripts(ts, "") == ts
  {
    assert Lower("") == [];
    forall p: Person
      ensures PersonKept(p, "")
    {
      IncludesEmpty(Lower(SearchedFields(p)[0]));
    }
    forall t: TranscriptRow
      ensures TranscriptKept(t, "")
    {
      IncludesEmpty(Lower(t.transcript.title));
    }
    FilterAll(people, p => PersonKept(p, ""));
    FilterAll(ts, t => TranscriptKept(t, ""));
  }

  /** The keys of the sort menu. */
  datatype SortKey =
    | ArabicName | EnglishName | MotherName | Nickname | Job | Address
    | BirthDate | BirthPlace | Workplace | Phone | Email | GpsLocation
    | PassportNumber | NationalNumber | IdNumber | RegisterationNumber
    | CategoryKey | NationalityKey

  /** `String.prototype.localeCompare`, whose collation is the runtime's. */
  type Collation = (string, string) -> int

  /** The text a string-valued key compares (every key but `birthDate`). */
  function KeyText(key: SortKey, p: Person): string
    requires key != BirthDate
  {
    var f := p.fields;
    match key
    case ArabicName => f.arabicName
    case EnglishName => f.englishName
    case MotherName => f.motherName
    case Nickname => f.nickname
    case Job => f.job
    case Address => f.address
    case BirthPlace => f.birthPlace
    case Workplace => f.workplace
    case Phone => f.phone
    case Email => f.email
    case GpsLocation => f.gpsLocation
    case PassportNumber => f.passportNumber
    case NationalNumber => f.nationalNumber
    case IdNumber => f.idNumber
    case RegisterationNumber => f.registerationNumber
    case CategoryKey => p.category.text
    case NationalityKey => p.nationality.text
  }

  /** Keys whose comparator first checks that both sides are set. */
  predicate Guarded(key: SortKey) {
    key != ArabicName && key != CategoryKey
  }

  /** A guarded key's field is set: a non-empty string, a present date; a
      person's nationality object is always present. */
  predicate IsSet(key: SortKey, p: Person) {
    if key == BirthDate then p.fields.birthDate.Some?
    else if key == NationalityKey then true
    else KeyText(key, p) != ""
  }

  /** `sortKeysFunctions[key](a, b)`. */
  function Compare(key: SortKey, a: Person, b: Person, collate: Collation): int {
    if key == BirthDate then
      if a.fields.birthDate.Some? && b.fields.birthDate.Some? then a.fields.birthDate.value - b.fields.birthDate.value else 0
    else if Guarded(key) && !(IsSet(key, a) && IsSet(key, b)) then 0
    else collate(KeyText(key, a), KeyText(key, b))
  }

  /** Every comparator but `arabicName` and `category` treats two people as
      equal when either lacks the field; the two unguarded ones, and a guarded
      one on two set fields, defer to the collation (or to the timestamp
      difference for `birthDate`). */
  lemma CompareMeaning(key: SortKey, a: Person, b: Person, collate: Collation)
    ensures Guarded(key) && (!IsSet(key, a) || !IsSet(key, b)) ==> Compare(key, a, b, collate) == 0
    ensures key == BirthDate && IsSet(key, a) && IsSet(key, b) ==>
      Compare(key, a, b, collate) == a.fields.birthDate.value - b.fields.birthDate.value
    ensures key != BirthDate && (!Guarded(key) || (IsSet(key, a) && IsSet(key, b))) ==>
      Compare(key, a, b, collate) == collate(KeyText(key, a), KeyText(key, b))
  {
  }

  /** The `birthDate` comparator is a difference, so swapping the people
      negates it and a person compares equal to itself. */
  lemma BirthDateAntisymmetric(a: Person, b: Person, collate: Collation)
    ensures Compare(BirthDate, a, b, collate) == -Compare(BirthDate, b, a, collate)
    ensures Compare(BirthDate, a, a, collate) == 0
  {
  }

  /** A collation that negates under swapping. */
  ghost predicate Antisymmetric(collate: Collation) {
    forall x, y :: collate(x, y) == -collate(y, x)
  }

  /** Over an antisymmetric collation every comparator is antisymmetric. */
  lemma CompareAntisymmetric(key: SortKey, a: Person, b: Person, collate: Collation)
    requires Antisymmetric(collate)
    ensures Compare(key, a, b, collate) == -Compare(key, b, a, collate)
  {
    if key != BirthDate {
      assert collate(KeyText(key, a), KeyText(key, b)) == -collate(KeyText(key, b), KeyText(key, a));
    }
  }

  /** The comparator `sortKeysFunctions[key]` as a function value. */
  function Comparator(key: SortKey, collate: Collation): (Person, Person) -> int {
    (a: Person, b: Person) => Compare(key, a, b, collate)
  }

  /** One insertion step of a stable sort: `x` goes after every element that
      does not compare greater than it. */
  function Insert<T>(x: T, s: seq<T>, cmp: (T, T) -> int): (r: seq<T>)
    ensures multiset(r) == multiset(s) + multiset{x}
    ensures |r| == |s| + 1
    decreases |s|
  {
    if |s| == 0 then [x]
    else if cmp(s[0], x) > 0 then [x] + s
    else
      var rest := Insert(x, s[1..], cmp);
      assert s == [s[0]] + s[1..];
      [s[0]] + rest
  }

  /** `Array.prototype.sort(cmp)`, which is stable, as an insertion sort; the
      result is a permutation of the input. */
  function SortBy<T>(s: seq<T>, cmp: (T, T) -> int): (r: seq<T>)
    ensures multiset(r) == multiset(s)
    ensures |r| == |s|
    decreases |s|
  {
    if |s| == 0 then []
    else
      var init := s[..|s| - 1];
      assert s == init + [s[|s| - 1]];
      Insert(s[|s| - 1], SortBy(init, cmp), cmp)
  }

  /** Every pair in order compares at most zero. */
  ghost predicate SortedBy<T>(s: seq<T>, cmp: (T, T) -> int) {
    forall i, j :: 0 <= i < j < |s| ==> cmp(s[i], s[j]) <= 0
  }

  /** A comparator that is a total preorder: any two elements are ordered one
      way or the other, and the order is transitive. */
  ghost predicate Consistent<T(!new)>(cmp: (T, T) -> int) {
    && (forall a, b :: cmp(a, b) <= 0 || cmp(b, a) <= 0)
    && (forall a, b, c :: cmp(a, b) <= 0 && cmp(b, c) <= 0 ==> cmp(a, c) <= 0)
  }

  /** Under a consistent comparator, an insertion keeps a sorted list sorted. */
  lemma {:induction false} InsertSorted<T(!new)>(x: T, s: seq<T>, cmp: (T, T) -> int)
    requires Consistent(cmp)
    requires SortedBy(s, cmp)
    ensures SortedBy(Insert(x, s, cmp), cmp)
    decreases |s|
  {
    if |s| > 0 {
      if cmp(s[0], x) > 0 {
        InsertFrontSorted(x, s, cmp);
      } else {
        var rest := Insert(x, s[1..], cmp);
        assert SortedBy(s[1..], cmp);
        InsertSorted(x, s[1..], cmp);
        HeadBelowInsert(x, s, cmp);
        ConsSorted(s[0], rest, cmp);
      }
    }
  }

  /** An element greater than `x` at the head: `x` goes first. */
  lemma InsertFrontSorted<T(!new)>(x: T, s: seq<T>, cmp: (T, T) -> int)
    requires Consistent(cmp)
    requires SortedBy(s, cmp)
    requires |s| > 0 && cmp(s[0], x) > 0
    ensures SortedBy([x] + s, cmp)
  {
    var r := [x] + s;
    assert cmp(x, s[0]) <= 0;
    forall i, j | 0 <= i < j < |r|
      ensures cmp(r[i], r[j]) <= 0
    {
      if i == 0 && j > 1 {
        assert cmp(s[0], s[j - 1]) <= 0;
      }
    }
  }

  /** The head of a sorted list that does not compare greater than `x` is at
      most everything the insertion into its tail gives. */
  lemma HeadBelowInsert<T(!new)>(x: T, s: seq<T>, cmp: (T, T) -> int)
    requires SortedBy(s, cmp)
    requires |s| > 0 && cmp(s[0], x) <= 0
    ensures forall j :: 0 <= j < |Insert(x, s[1..], cmp)| ==> cmp(s[0], Insert(x, s[1..], cmp)[j]) <= 0
  {
    var rest := Insert(x, s[1..], cmp);
    forall j | 0 <= j < |rest|
      ensures cmp(s[0], rest[j]) <= 0
    {
      assert rest[j] in multiset(s[1..]) + multiset{x};
      if rest[j] != x {
        assert rest[j] in s[1..];
        var k :| 0 <= k < |s[1..]| && s[1..][k] == rest[j];
        assert s[k + 1] == rest[j];
      }
    }
  }

  /** A sorted list behind an element at most all of it is sorted. */
  lemma ConsSorted<T>(a: T, rest: seq<T>, cmp: (T, T) -> int)
    requires SortedBy(rest, cmp)
    requires forall j :: 0 <= j < |rest| ==> cmp(a, rest[j]) <= 0
    ensures SortedBy([a] + rest, cmp)
  {
    var r := [a] + rest;
    forall i, j | 0 <= i < j < |r|
      ensures cmp(r[i], r[j]) <= 0
    {
      if i > 0 {
        assert r[i] == rest[i - 1] && r[j] == rest[j - 1];
      } else {
        assert r[j] == rest[j - 1];
      }
    }
  }

  /** With a consistent comparator the sort orders the list. */
  lemma {:induction false} SortSorted<T(!new)>(s: seq<T>, cmp: (T, T) -> int)
    requires Consistent(cmp)
    ensures SortedBy(SortBy(s, cmp), cmp)
    decreases |s|
  {
    if |s| > 0 {
      SortSorted(s[..|s| - 1], cmp);
      InsertSorted(s[|s| - 1], SortBy(s[..|s| - 1], cmp), cmp);
    }
  }

  /** The empty-field guard breaks transitivity: with any collation that puts
      "b" after "a", a person without an English name compares equal to both a
      "b" and an "a" person, which compare unequal to each other, so the
      `englishName` order is not a total preorder and the sorted order of a
      list mixing named and unnamed people depends on the sort's visiting order. */
  lemma EmptyGuardInconsistent(collate: Collation)
    requires collate("b", "a") > 0
    ensures !Consistent(Comparator(EnglishName, collate))
  {
    var base := NewPerson("");
    var pb := base.(fields := base.fields.(englishName := "b"));
    var pa := base.(fields := base.fields.(englishName := "a"));
    var cmp := Comparator(EnglishName, collate);
    assert cmp(pb, base) == 0 && cmp(base, pa) == 0;
    assert cmp(pb, pa) > 0;
  }

  /** `Array.prototype.reverse`. */
  function Reverse<T>(s: seq<T>): (r: seq<T>)
    ensures |r| == |s|
    ensures forall i :: 0 <= i < |s| ==> r[i] == s[|s| - 1 - i]
  {
    seq(|s|, i requires 0 <= i < |s| => s[|s| - 1 - i])
  }

  datatype Order = Asc | Desc

  /** One render of the page: `filteredPeople.sort(cmp)` and, for DESC,
      `filteredPeople.reverse()`, both in place on the state array `shown`.
      The result is what the page shows and also the array the next render
      starts from; only the filter effect replaces it, with
      `FilterPeople(people, search)`, when the search, the people or the
      transcripts change. */
  function Displayed(shown: seq<Person>, key: SortKey, order: Order, collate: Collation): seq<Person> {
    var sorted := SortBy(shown, Comparator(key, collate));
    if order == Desc then Reverse(sorted) else sorted
  }

  /** From the same state array, the DESC render is the ASC render read
      backwards: the same people, and, under a consistent comparator, in
      non-increasing order. */
  lemma DescendingIsReversed(shown: seq<Person>, key: SortKey, collate: Collation)
    ensures var asc := Displayed(shown, key, Asc, collate);
      var desc := Displayed(shown, key, Desc, collate);
      && |desc| == |asc|
      && (forall i :: 0 <= i < |asc| ==> desc[i] == asc[|asc| - 1 - i])
      && multiset(desc) == multiset(shown)
      && (Consistent(Comparator(key, collate)) ==>
            forall i, j :: 0 <= i < j < |desc| ==> Compare(key, desc[j], desc[i], collate) <= 0)
  {
    var cmp := Comparator(key, collate);
    var asc := Displayed(shown, key, Asc, collate);
    var desc := Displayed(shown, key, Desc, collate);
    ReverseMultiset(asc);
    if Consistent(cmp) {
      SortSorted(shown, cmp);
      forall i, j | 0 <= i < j < |desc|
        ensures Compare(key, desc[j], desc[i], collate) <= 0
      {
        assert cmp(asc[|asc| - 1 - j], asc[|asc| - 1 - i]) <= 0;
      }
    }
  }

  /** Because each render sorts and reverses the previous render's array,
      the order of tied people depends on history: two people without a
      birth date swap places on every DESC render, and after one DESC render
      the ASC order differs from the one a fresh list gives. */
  lemma RenderOrderDependsOnHistory(collate: Collation)
    ensures var p1 := NewPerson("1");
      var p2 := NewPerson("2");
      && Displayed([p1, p2], BirthDate, Desc, collate) == [p2, p1]
      && Displayed([p2, p1], BirthDate, Desc, collate) == [p1, p2]
      && Displayed([p2, p1], BirthDate, Asc, collate) != Displayed([p1, p2], BirthDate, Asc, collate)
  {
    var p1 := NewPerson("1");
    var p2 := NewPerson("2");
    var cmp := Comparator(BirthDate, collate);
    assert cmp(p1, p2) == 0 && cmp(p2, p1) == 0;
    assert p1.id != p2.id;
    TiesFlip(p1, p2, cmp);
  }

  /** Two distinct tied elements: each DESC render of a pair puts them in
      the other order, and ASC keeps whichever order it is given. */
  lemma TiesFlip<T>(a: T, b: T, cmp: (T, T) -> int)
    requires cmp(a, b) == 0 && cmp(b, a) == 0 && a != b
    ensures Reverse(SortBy([a, b], cmp)) == [b, a]
    ensures Reverse(SortBy([b, a], cmp)) == [a, b]
    ensures SortBy([b, a], cmp) != SortBy([a, b], cmp)
  {
    TiedPairSorted(a, b, cmp);
    TiedPairSorted(b, a, cmp);
    ReversePair(a, b);
    ReversePair(b, a);
    assert [b, a][0] != [a, b][0];
  }

  /** A stable sort leaves two elements where they are when the first does
      not compare greater than the second. */
  lemma TiedPairSorted<T>(a: T, b: T, cmp: (T, T) -> int)
    requires cmp(a, b) <= 0
    ensures SortBy([a, b], cmp) == [a, b]
  {
    assert [a, b][..1] == [a];
    assert SortBy([a], cmp) == [a];
    assert Insert(b, [a], cmp) == [a] + Insert(b, [], cmp);
  }

  lemma ReversePair<T>(a: T, b: T)
    ensures Reverse([a, b]) == [b, a]
  {
  }

  /** Reversing keeps the elements. */
  lemma {:induction false} ReverseMultiset<T>(s: seq<T>)
    ensures multiset(Reverse(s)) == multiset(s)
    decreases |s|
  {
    if |s| > 0 {
      var init := s[..|s| - 1];
      ReverseMultiset(init);
      assert Reverse(s) == [s[|s| - 1]] + Reverse(init);
      assert s == init + [s[|s| - 1]];
    }
  }

  /** `people.find(p => p.id === id)`. */
  function FindPerson(people: seq<Person>, id: string): (r: Option<Person>)
    decreases |people|
  {
    if |people| == 0 then None
    else if people[0].id == id then Some(people[0])
    else FindPerson(people[1..], id)
  }

  /** The search finds the first fetched person with the id, and nothing when
      none has it. */
  lemma {:induction false} FindPersonEffect(people: seq<Person>, id: string)
    ensures FindPerson(people, id).None? <==> forall i :: 0 <= i < |people| ==> people[i].id != id
    ensures FindPerson(people, id).Some? ==>
      exists k :: 0 <= k < |people| && people[k] == FindPerson(people, id).value && people[k].id == id
        && forall i :: 0 <= i < k ==> people[i].id != id
    decreases |people|
  {
    if |people| > 0 && people[0].id != id {
      FindPersonEffect(people[1..], id);
      if FindPerson(people, id).Some? {
        var k :| 0 <= k < |people[1..]| && people[1..][k] == FindPerson(people, id).value && people[1..][k].id == id
          && forall i :: 0 <= i < k ==> people[1..][i].id != id;
        assert people[k + 1] == people[1..][k];
        assert forall i :: 0 < i < k + 1 ==> people[i] == people[1..][i - 1];
      }
    } else if |people| > 0 {
      assert people[0] == FindPerson(people, id).value;
    }
  }

  /** `handleOnMentionedClick`: the viewed person becomes the found one, and
      stays as it was when no fetched person has the id. */
  function MentionedClick(viewed: Option<Person>, people: seq<Person>, id: string): (r: Option<Person>)
    ensures r.Some? && r != viewed ==> r.value in people && r.value.id == id
  {
    match FindPerson(people, id)
    case Some(p) => FindPersonEffect(people, id); Some(p)
    case None => viewed
  }

  /** A click on an id no fetched person has leaves the view alone; otherwise
      it shows the first person carrying that id. */
  lemma MentionedClickEffect(viewed: Option<Person>, people: seq<Person>, id: string)
    ensures (forall i :: 0 <= i < |people| ==> people[i].id != id) ==> MentionedClick(viewed, people, id) == viewed
    ensures forall k :: 0 <= k < |people| && people[k].id == id && (forall i :: 0 <= i < k ==> people[i].id != id) ==>
      MentionedClick(viewed, people, id) == Some(people[k])
  {
    FindPersonEffect(people, id);
  }
}

=== FILE: media_repository.dfy ===
/** src/repositories/media.repository.ts: CRUD over Media nodes, and the
    `CreateMediaCypher`/`DeleteMediaCypher` statements of
    src/models/media.model.tsx, which are the same two statements. */
module MediaRepository {
  import opened Wrappers
  import opened Models
  import opened GraphStore

  /** `create`: `CREATE (m:Media { id, name, path, type })`. */
  function Create(s: Store, m: Media): (r: Store)
    ensures HasLabel(r, m.id, MediaLabel)
    ensures r.edges == s.edges
    ensures Valid(s) ==> Valid(r)
  {
    GraphStore.Create(s, m.id, MediaNode(m.name, m.path, m.kind))
  }

  /** The record a stored Media node reads back as. */
  function ToMedia(id: string, n: Node): Media
    requires n.MediaNode?
  {
    Media(id, n.name, n.path, n.kind)
  }

  /** `read`: one media per stored Media node. */
  function Read(s: Store): (r: set<Media>)
    ensures forall m :: m in r <==> m.id in s.nodes && s.nodes[m.id] == MediaNode(m.name, m.path, m.kind)
  {
    set id | id in s.nodes && s.nodes[id].MediaNode? :: ToMedia(id, s.nodes[id])
  }

  /** `readById`: fails with 'No such a media' when no Media node has the id. */
  function ReadById(s: Store, id: string): (r: Result<Media>)
    ensures r.Failure? <==> !HasLabel(s, id, MediaLabel)
    ensures r.Failure? ==> r.error == "No such a media"
    ensures r.Success? ==> r.value.id == id && s.nodes[id] == MediaNode(r.value.name, r.value.path, r.value.kind)
  {
    if HasLabel(s, id, MediaLabel) then Success(ToMedia(id, s.nodes[id]))
    else Failure("No such a media")
  }

  /** `update`: overwrites name, path and type of the Media node with that id
      and returns its argument. */
  function Update(s: Store, id: string, m: Media): (r: (Store, Media))
    ensures r.1 == m
  {
    (SetMedia(s, id, m.name, m.path, m.kind), m)
  }

  /** `delete`: `MATCH (m:Media) WHERE m.id = $id DETACH DELETE m`. */
  function Delete(s: Store, id: string): Store {
    DeleteNode(s, id, MediaLabel)
  }

  /** A created media reads back unchanged, and is listed. */
  lemma CreateThenRead(s: Store, m: Media)
    ensures ReadById(Create(s, m), m.id) == Success(m)
    ensures m in Read(Create(s, m))
  {
  }

  /** An update returns the media it was given, overwrites exactly the three
      properties of the matching media and keeps its id; nothing else
      changes, and an unknown id changes nothing. */
  lemma UpdateEffect(s: Store, id: string, m: Media, k: string)
    ensures Update(s, id, m).1 == m
    ensures var s' := Update(s, id, m).0;
      && s'.edges == s.edges
      && (HasLabel(s, id, MediaLabel) ==> ReadById(s', id) == Success(m.(id := id)))
      && (!HasLabel(s, id, MediaLabel) ==> s' == s)
      && (k != id && k in s.nodes ==> k in s'.nodes && s'.nodes[k] == s.nodes[k])
  {
  }

  /** After a delete the media is gone with its relationships; every other
      node stays. */
  lemma DeleteEffect(s: Store, id: string)
    requires Valid(s)
    ensures ReadById(Delete(s, id), id).Failure?
    ensures Valid(Delete(s, id))
    ensures forall k :: k != id && k in s.nodes ==> k in Delete(s, id).nodes && Delete(s, id).nodes[k] == s.nodes[k]
    ensures ReadById(s, id).Success? ==>
      forall i :: 0 <= i < |Delete(s, id).edges| ==> Delete(s, id).edges[i].src != id && Delete(s, id).edges[i].dst != id
  {
    DeleteNodeEffect(s, id, MediaLabel);
  }
}

=== FILE: media_upload.dfy ===
/** The step the person and transcript repositories repeat for every file
    they store: `window.files.upload`, a `new Media()` with the file's name,
    the returned path and the slot's type, `mediaRepository.create`, and
    `MATCH (o {id: $id}) MATCH (m:Media {id: $media}) CREATE (o)-[:HAS]->(m)`.
    The database and the disk together form the world these steps change. */
module MediaUpload {
  import opened Wrappers
  import opened Seqs
  import opened Models
  import opened GraphStore
  import opened FileStore
  import MediaRepository

  datatype World = World(db: Store, fs: Disk)

  /** How a repository call ends: normally, or by an exception after the
      writes made so far. */
  datatype Outcome = Done(w: World) | Thrown(w: World, error: string)

  /** The values successive `v4()` calls return; each call site reads its own index. */
  type UuidSource = nat -> string

  /** A file waiting to be stored, with the type of its slot. */
  datatype PendingUpload = PendingUpload(kind: FileType, file: File)

  /** `window.files.getFile(path)`. Its body is not part of this model; it
      is taken to give a file whose token is the path itself and whose name
      is the last path component. The disk is not read. */
  function GetFile(path: string): (f: File)
    ensures f.token == path && EndsWith(path, f.name)
  {
    File(path, FinalComponent(path))
  }

  /** The path `files.upload` returns for a file stored for `owner`. */
  function StoredPath(userData: string, kind: FileType, owner: string, name: string, uuid: string): string {
    userData + "/" + FileTypeName(kind) + "/" + owner + "/" + StoredName(name, uuid)
  }

  /** Reading back a stored file: its token is the stored path and, when the
      original name and the uuid are single path components, its name is the
      uuid-suffixed name it was stored under. */
  lemma StoredFileRead(userData: string, kind: FileType, owner: string, name: string, uuid: string)
    requires NoSlash(name) && NoSlash(uuid)
    ensures GetFile(StoredPath(userData, kind, owner, name, uuid)) == File(StoredPath(userData, kind, owner, name, uuid), StoredName(name, uuid))
  {
    StoredNameNoSlash(name, uuid);
    FinalComponentOfJoin(userData + "/" + FileTypeName(kind) + "/" + owner, StoredName(name, uuid));
  }

  /** What `upload` writes for the `ArrayBuffer` every caller passes:
      `content.toString()`, the same text whatever the buffer holds. */
  const ArrayBufferText: string := "[object ArrayBuffer]"

  /** Stores one file whose written content is `content` and links a Media
      node for it to `owner`. */
  function AttachContent(w: World, owner: string, ownerLabel: NodeLabel, u: PendingUpload, content: string, fileUuid: string, mediaId: string): (r: Outcome)
    ensures r.Thrown? <==> UploadBlocked(w.fs, u.kind, owner, StoredName(u.file.name, fileUuid))
    ensures r.Thrown? ==> r.w == w
  {
    match Upload(w.fs, owner, u.kind, u.file.name, content, fileUuid)
    case Failure(e) => Thrown(w, e)
    case Success(res) =>
      var db1 := MediaRepository.Create(w.db, Media(mediaId, u.file.name, res.1, u.kind));
      Done(World(Link(db1, owner, ownerLabel, Has, mediaId, MediaLabel), res.0))
  }

  /** One upload as written: the file's bytes are passed as an `ArrayBuffer`
      and what reaches the disk is its `toString()`. */
  function AttachFileAsWritten(w: World, owner: string, ownerLabel: NodeLabel, u: PendingUpload, fileUuid: string, mediaId: string): Outcome {
    AttachContent(w, owner, ownerLabel, u, ArrayBufferText, fileUuid, mediaId)
  }

  /** As written, the bytes never reach the disk: two files with the same
      name and slot leave exactly the same world, and a completed upload
      stores the text `[object ArrayBuffer]`. */
  lemma AttachFileAsWrittenLosesBytes(w: World, owner: string, ownerLabel: NodeLabel, k: FileType, f1: File, f2: File, fileUuid: string, mediaId: string)
    requires f1.name == f2.name
    ensures AttachFileAsWritten(w, owner, ownerLabel, PendingUpload(k, f1), fileUuid, mediaId) ==
      AttachFileAsWritten(w, owner, ownerLabel, PendingUpload(k, f2), fileUuid, mediaId)
    ensures var r := AttachFileAsWritten(w, owner, ownerLabel, PendingUpload(k, f1), fileUuid, mediaId);
      r.Done? ==> Lookup(r.w.fs, k, owner, StoredName(f1.name, fileUuid)) == Some(FileEntry(ArrayBufferText))
  {
  }

  /** One upload as intended, and as the rest of this model runs it: the
      file's bytes (its token) are written. */
  function AttachFile(w: World, owner: string, ownerLabel: NodeLabel, u: PendingUpload, fileUuid: string, mediaId: string): (r: Outcome)
    ensures r.Thrown? <==> UploadBlocked(w.fs, u.kind, owner, StoredName(u.file.name, fileUuid))
    ensures r.Thrown? ==> r.w == w
  {
    AttachContent(w, owner, ownerLabel, u, u.file.token, fileUuid, mediaId)
  }

  /** A completed upload stores the file's bytes under the stored name, adds
      the Media node and, for an existing owner, exactly one `HAS` relationship. */
  lemma AttachFileDone(w: World, owner: string, ownerLabel: NodeLabel, u: PendingUpload, fileUuid: string, mediaId: string)
    requires AttachFile(w, owner, ownerLabel, u, fileUuid, mediaId).Done?
    ensures var r := AttachFile(w, owner, ownerLabel, u, fileUuid, mediaId).w;
      var path := StoredPath(w.fs.userData, u.kind, owner, u.file.name, fileUuid);
      && r.fs.userData == w.fs.userData
      && Lookup(r.fs, u.kind, owner, StoredName(u.file.name, fileUuid)) == Some(FileEntry(u.file.token))
      && r.db.nodes == w.db.nodes[mediaId := MediaNode(u.file.name, path, u.kind)]
      && (HasLabel(w.db, owner, ownerLabel) && owner != mediaId ==>
            r.db.edges == w.db.edges + [Edge(owner, Has, mediaId)])
  {
  }

  /** Stores the files in order; the i-th one takes its file uuid from
      `gen(base + 2 i)` and its media id from `gen(base + 2 i + 1)`. The first
      exception ends the run. */
  function AttachAll(w: World, owner: string, ownerLabel: NodeLabel, ups: seq<PendingUpload>, gen: UuidSource, base: nat): Outcome
    decreases |ups|
  {
    if |ups| == 0 then Done(w)
    else match AttachFile(w, owner, ownerLabel, ups[0], gen(base), gen(base + 1))
      case Thrown(w1, e) => Thrown(w1, e)
      case Done(w1) => AttachAll(w1, owner, ownerLabel, ups[1..], gen, base + 2)
  }

  /** The Media record the upload of `u` creates when it takes the uuids
      `gen(k)` and `gen(k + 1)`. */
  function ExpectedAt(userData: string, owner: string, u: PendingUpload, gen: UuidSource, k: nat): Media {
    Media(gen(k + 1), u.file.name, StoredPath(userData, u.kind, owner, u.file.name, gen(k)), u.kind)
  }

  /** The Media records a run of uploads creates, in order. */
  function ExpectedMedia(userData: string, owner: string, ups: seq<PendingUpload>, gen: UuidSource, base: nat): (r: seq<Media>)
    ensures |r| == |ups|
    decreases |ups|
  {
    if |ups| == 0 then []
    else [ExpectedAt(userData, owner, ups[0], gen, base)] + ExpectedMedia(userData, owner, ups[1..], gen, base + 2)
  }

  /** A run of uploads split in two: the second part takes its uuids after
      the first part's, from `mid` on. */
  lemma {:induction false} ExpectedMediaAppend(userData: string, owner: string, a: seq<PendingUpload>, b: seq<PendingUpload>, gen: UuidSource, base: nat, mid: nat)
    requires mid == base + 2 * |a|
    ensures ExpectedMedia(userData, owner, a + b, gen, base) ==
      ExpectedMedia(userData, owner, a, gen, base) + ExpectedMedia(userData, owner, b, gen, mid)
    decreases |a|
  {
    if |a| == 0 {
      AppendEmptyLeft(b);
      AppendEmptyLeft(ExpectedMedia(userData, owner, b, gen, base));
    } else {
      var next := base + 2;
      AppendHeadTail(a, b);
      ExpectedMediaAppend(userData, owner, a[1..], b, gen, next, mid);
      ConsSplit(ExpectedMedia(userData, owner, a + b, gen, base), ExpectedAt(userData, owner, a[0], gen, base),
        ExpectedMedia(userData, owner, a[1..] + b, gen, next),
        ExpectedMedia(userData, owner, a, gen, base), ExpectedMedia(userData, owner, a[1..], gen, next),
        ExpectedMedia(userData, owner, b, gen, mid));
    }
  }

  /** The media id the i-th upload of a run starting at `base` takes. */
  function MediaIdAt(gen: UuidSource, base: nat, i: nat): string {
    gen(base + 2 * i + 1)
  }

  /** The media ids a run of `n` uploads takes. */
  function MediaIds(gen: UuidSource, base: nat, n: nat): set<string>
    decreases n
  {
    if n == 0 then {} else {MediaIdAt(gen, base, 0)} + MediaIds(gen, base + 2, n - 1)
  }

  /** The `HAS` relationships a run of `n` uploads for `owner` creates, in order. */
  function HasEdgesTo(owner: string, gen: UuidSource, base: nat, n: nat): (r: seq<Edge>)
    ensures |r| == n
    ensures forall i :: 0 <= i < n ==> r[i].src == owner && r[i].rel == Has
    decreases n
  {
    if n == 0 then [] else [Edge(owner, Has, MediaIdAt(gen, base, 0))] + HasEdgesTo(owner, gen, base + 2, n - 1)
  }

  /** The media ids a run of `n` uploads takes are distinct and new. */
  predicate FreshMediaIds(s: Store, gen: UuidSource, base: nat, n: nat) {
    && (forall i: nat :: i < n ==> MediaIdAt(gen, base, i) !in s.nodes)
    && (forall i: nat, j: nat :: i < j < n ==> MediaIdAt(gen, base, i) != MediaIdAt(gen, base, j))
  }

  /** After the first upload the remaining ids are still fresh. */
  lemma FreshMediaIdsShift(s: Store, t: Store, gen: UuidSource, base: nat, n: nat)
    requires n > 0 && FreshMediaIds(s, gen, base, n)
    requires t.nodes.Keys <= s.nodes.Keys + {MediaIdAt(gen, base, 0)}
    ensures FreshMediaIds(t, gen, base + 2, n - 1)
  {
    var next := base + 2;
    forall i: nat | i < n - 1
      ensures MediaIdAt(gen, next, i) !in t.nodes
    {
      assert MediaIdAt(gen, next, i) == MediaIdAt(gen, base, i + 1);
      assert MediaIdAt(gen, base, 0) != MediaIdAt(gen, base, i + 1);
    }
    forall i: nat, j: nat | i < j < n - 1
      ensures MediaIdAt(gen, next, i) != MediaIdAt(gen, next, j)
    {
      assert MediaIdAt(gen, next, i) == MediaIdAt(gen, base, i + 1);
      assert MediaIdAt(gen, next, j) == MediaIdAt(gen, base, j + 1);
    }
  }

  /** One upload for an existing owner: the store grows by one Media node and
      one `HAS` relationship, and the owner's media list by one record. */
  lemma AttachFileEffect(w: World, owner: string, ownerLabel: NodeLabel, u: PendingUpload, fileUuid: string, mediaId: string)
    requires Valid(w.db)
    requires HasLabel(w.db, owner, ownerLabel)
    requires mediaId !in w.db.nodes
    requires AttachFile(w, owner, ownerLabel, u, fileUuid, mediaId).Done?
    ensures var w1 := AttachFile(w, owner, ownerLabel, u, fileUuid, mediaId).w;
      && Valid(w1.db)
      && Grows(w.db, w1.db)
      && HasLabel(w1.db, owner, ownerLabel)
      && w1.db.edges == w.db.edges + [Edge(owner, Has, mediaId)]
      && HasMedia(w1.db, w1.db.edges, owner) == HasMedia(w.db, w.db.edges, owner) +
           [Media(mediaId, u.file.name, StoredPath(w.fs.userData, u.kind, owner, u.file.name, fileUuid), u.kind)]
  {
    var w1 := AttachFile(w, owner, ownerLabel, u, fileUuid, mediaId).w;
    AttachFileDone(w, owner, ownerLabel, u, fileUuid, mediaId);
    assert w1.db.edges == w.db.edges + [Edge(owner, Has, mediaId)];
    assert w1.db.edges[..|w.db.edges|] == w.db.edges;
    HasMediaAppend(w1.db, w.db.edges, [Edge(owner, Has, mediaId)], owner);
    HasMediaStable(w.db, w1.db, w.db.edges, owner);
  }

  /** The first upload of a run, and the run that follows it. */
  lemma AttachAllStep(w: World, owner: string, ownerLabel: NodeLabel, ups: seq<PendingUpload>, gen: UuidSource, base: nat)
    requires |ups| > 0
    requires AttachAll(w, owner, ownerLabel, ups, gen, base).Done?
    ensures AttachFile(w, owner, ownerLabel, ups[0], gen(base), gen(base + 1)).Done?
    ensures AttachAll(w, owner, ownerLabel, ups, gen, base) ==
      AttachAll(AttachFile(w, owner, ownerLabel, ups[0], gen(base), gen(base + 1)).w, owner, ownerLabel, ups[1..], gen, base + 2)
  {
  }

  /** A completed run of uploads for an existing owner only adds: every
      stored node stays, the store stays valid, the new nodes are the media
      ids and every new relationship is a `HAS` from the owner. */
  lemma {:induction false} AttachAllShape(w: World, owner: string, ownerLabel: NodeLabel, ups: seq<PendingUpload>, gen: UuidSource, base: nat)
    requires RunReady(w, owner, ownerLabel, ups, gen, base)
    ensures var w' := AttachAll(w, owner, ownerLabel, ups, gen, base).w;
      && Valid(w'.db)
      && Grows(w.db, w'.db)
      && w'.fs.userData == w.fs.userData
      && w'.db.nodes.Keys == w.db.nodes.Keys + MediaIds(gen, base, |ups|)
    decreases |ups|
  {
    if |ups| == 0 {
      assert w.db.edges[..|w.db.edges|] == w.db.edges;
    } else {
      var mid := gen(base + 1);
      assert mid == MediaIdAt(gen, base, 0);
      AttachRunStep(w, owner, ownerLabel, ups, gen, base);
      var w1 := AttachFile(w, owner, ownerLabel, ups[0], gen(base), mid).w;
      var w' := AttachAll(w1, owner, ownerLabel, ups[1..], gen, base + 2).w;
      AttachAllShape(w1, owner, ownerLabel, ups[1..], gen, base + 2);
      GrowsTrans(w.db, w1.db, w'.db);
    }
  }

  /** What a run of uploads needs for its promises: a valid store, an
      existing owner, media ids that are new and distinct, and no upload
      that throws. */
  predicate RunReady(w: World, owner: string, ownerLabel: NodeLabel, ups: seq<PendingUpload>, gen: UuidSource, base: nat) {
    && Valid(w.db)
    && HasLabel(w.db, owner, ownerLabel)
    && FreshMediaIds(w.db, gen, base, |ups|)
    && AttachAll(w, owner, ownerLabel, ups, gen, base).Done?
  }

  /** The first upload of a completed run: what it adds, and that the rest
      of the run is ready in turn. */
  lemma AttachRunStep(w: World, owner: string, ownerLabel: NodeLabel, ups: seq<PendingUpload>, gen: UuidSource, base: nat)
    requires |ups| > 0
    requires RunReady(w, owner, ownerLabel, ups, gen, base)
    ensures var w1 := AttachFile(w, owner, ownerLabel, ups[0], gen(base), gen(base + 1)).w;
      && AttachAll(w, owner, ownerLabel, ups, gen, base) == AttachAll(w1, owner, ownerLabel, ups[1..], gen, base + 2)
      && RunReady(w1, owner, ownerLabel, ups[1..], gen, base + 2)
      && Grows(w.db, w1.db)
      && w1.fs.userData == w.fs.userData
      && w1.db.nodes.Keys == w.db.nodes.Keys + {gen(base + 1)}
      && w1.db.edges == w.db.edges + [Edge(owner, Has, gen(base + 1))]
      && HasMedia(w1.db, w1.db.edges, owner) == HasMedia(w.db, w.db.edges, owner) + [ExpectedAt(w.fs.userData, owner, ups[0], gen, base)]
  {
    var mid := gen(base + 1);
    assert mid == MediaIdAt(gen, base, 0);
    var w1 := AttachFile(w, owner, ownerLabel, ups[0], gen(base), mid).w;
    AttachAllStep(w, owner, ownerLabel, ups, gen, base);
    AttachFileEffect(w, owner, ownerLabel, ups[0], gen(base), mid);
    AttachFileDone(w, owner, ownerLabel, ups[0], gen(base), mid);
    FreshMediaIdsShift(w.db, w1.db, gen, base, |ups|);
  }

  /** A completed run of uploads for an existing owner appends exactly one
      `HAS` relationship from the owner to each new media id, in upload order. */
  lemma {:induction false} AttachAllEdges(w: World, owner: string, ownerLabel: NodeLabel, ups: seq<PendingUpload>, gen: UuidSource, base: nat)
    requires RunReady(w, owner, ownerLabel, ups, gen, base)
    ensures AttachAll(w, owner, ownerLabel, ups, gen, base).w.db.edges == w.db.edges + HasEdgesTo(owner, gen, base, |ups|)
    decreases |ups|
  {
    if |ups| == 0 {
      AppendEmpty(w.db.edges);
    } else {
      var mid := gen(base + 1);
      var w1 := AttachFile(w, owner, ownerLabel, ups[0], gen(base), mid).w;
      AttachRunStep(w, owner, ownerLabel, ups, gen, base);
      AttachAllEdges(w1, owner, ownerLabel, ups[1..], gen, base + 2);
      var w' := AttachAll(w1, owner, ownerLabel, ups[1..], gen, base + 2).w;
      var tail := HasEdgesTo(owner, gen, base + 2, |ups| - 1);
      assert HasEdgesTo(owner, gen, base, |ups|) == [Edge(owner, Has, mid)] + tail;
      AppendStep(w.db.edges, w1.db.edges, w'.db.edges, Edge(owner, Has, mid), tail);
    }
  }

  /** A completed run of uploads for an existing owner creates one Media node
      and one `HAS` relationship per file, in order: the owner's media list
      grows by exactly the expected records. */
  lemma {:induction false} AttachAllMedia(w: World, owner: string, ownerLabel: NodeLabel, ups: seq<PendingUpload>, gen: UuidSource, base: nat)
    requires RunReady(w, owner, ownerLabel, ups, gen, base)
    ensures var w' := AttachAll(w, owner, ownerLabel, ups, gen, base).w;
      HasMedia(w'.db, w'.db.edges, owner) == HasMedia(w.db, w.db.edges, owner) + ExpectedMedia(w.fs.userData, owner, ups, gen, base)
    decreases |ups|
  {
    if |ups| == 0 {
      AppendEmpty(HasMedia(w.db, w.db.edges, owner));
    } else {
      var mid := gen(base + 1);
      AttachRunStep(w, owner, ownerLabel, ups, gen, base);
      var w1 := AttachFile(w, owner, ownerLabel, ups[0], gen(base), mid).w;
      AttachAllMedia(w1, owner, ownerLabel, ups[1..], gen, base + 2);
      var w' := AttachAll(w1, owner, ownerLabel, ups[1..], gen, base + 2).w;
      AppendStep(HasMedia(w.db, w.db.edges, owner), HasMedia(w1.db, w1.db.edges, owner), HasMedia(w'.db, w'.db.edges, owner),
        ExpectedAt(w.fs.userData, owner, ups[0], gen, base), ExpectedMedia(w.fs.userData, owner, ups[1..], gen, base + 2));
    }
  }

  /** The files of one slot, each waiting under that slot's type. */
  function AsUploads(kind: FileType, files: seq<File>): (r: seq<PendingUpload>)
    ensures |r| == |files|
    ensures forall i :: 0 <= i < |r| ==> r[i] == PendingUpload(kind, files[i])
    decreases |files|
  {
    if |files| == 0 then [] else [PendingUpload(kind, files[0])] + AsUploads(kind, files[1..])
  }

  /** Media ids stay fresh in a store that adds only nodes outside them. */
  lemma FreshMediaIdsGrow(s: Store, t: Store, gen: UuidSource, base: nat, n: nat, a: string, b: string, c: string)
    requires FreshMediaIds(s, gen, base, n)
    requires t.nodes.Keys <= s.nodes.Keys + {a, b, c}
    requires a !in MediaIds(gen, base, n) && b !in MediaIds(gen, base, n) && c !in MediaIds(gen, base, n)
    ensures FreshMediaIds(t, gen, base, n)
  {
    forall i: nat | i < n
      ensures MediaIdAt(gen, base, i) !in t.nodes
    {
      MediaIdsHas(gen, base, n, i);
    }
  }

  /** Every id of a run is one of its media ids. */
  lemma {:induction false} MediaIdsHas(gen: UuidSource, base: nat, n: nat, i: nat)
    requires i < n
    ensures MediaIdAt(gen, base, i) in MediaIds(gen, base, n)
    decreases n
  {
    if i > 0 {
      MediaIdsHas(gen, base + 2, n - 1, i - 1);
      assert MediaIdAt(gen, base + 2, i - 1) == MediaIdAt(gen, base, i);
    }
  }

  /** Uploads started without waiting for one another: each runs on its own,
      and one that throws is lost without stopping the others or reaching the
      caller. */
  function AttachEach(w: World, owner: string, ownerLabel: NodeLabel, ups: seq<PendingUpload>, gen: UuidSource, base: nat): World
    decreases |ups|
  {
    if |ups| == 0 then w
    else AttachEach(AttachFile(w, owner, ownerLabel, ups[0], gen(base), gen(base + 1)).w, owner, ownerLabel, ups[1..], gen, base + 2)
  }

  /** When no upload throws, running them unawaited ends where running them
      in sequence does. */
  lemma {:induction false} AttachEachAgrees(w: World, owner: string, ownerLabel: NodeLabel, ups: seq<PendingUpload>, gen: UuidSource, base: nat)
    requires AttachAll(w, owner, ownerLabel, ups, gen, base).Done?
    ensures AttachEach(w, owner, ownerLabel, ups, gen, base) == AttachAll(w, owner, ownerLabel, ups, gen, base).w
    decreases |ups|
  {
    if |ups| > 0 {
      AttachAllStep(w, owner, ownerLabel, ups, gen, base);
      AttachEachAgrees(AttachFile(w, owner, ownerLabel, ups[0], gen(base), gen(base + 1)).w, owner, ownerLabel, ups[1..], gen, base + 2);
    }
  }

  /** Unawaited uploads for an existing owner, whether or not some throw,
      keep every stored node, keep the store valid and add no node beyond
      the run's media ids. */
  lemma {:induction false} AttachEachGrows(w: World, owner: string, ownerLabel: NodeLabel, ups: seq<PendingUpload>, gen: UuidSource, base: nat)
    requires Valid(w.db)
    requires HasLabel(w.db, owner, ownerLabel)
    requires FreshMediaIds(w.db, gen, base, |ups|)
    ensures var w' := AttachEach(w, owner, ownerLabel, ups, gen, base);
      && Valid(w'.db)
      && Grows(w.db, w'.db)
      && w'.db.nodes.Keys <= w.db.nodes.Keys + MediaIds(gen, base, |ups|)
    decreases |ups|
  {
    if |ups| == 0 {
      assert w.db.edges[..|w.db.edges|] == w.db.edges;
    } else {
      var mid := gen(base + 1);
      assert mid == MediaIdAt(gen, base, 0);
      var r := AttachFile(w, owner, ownerLabel, ups[0], gen(base), mid);
      var w1 := r.w;
      if r.Done? {
        AttachFileEffect(w, owner, ownerLabel, ups[0], gen(base), mid);
        AttachFileDone(w, owner, ownerLabel, ups[0], gen(base), mid);
        assert w1.db.nodes.Keys == w.db.nodes.Keys + {mid};
      } else {
        assert w1.db.edges[..|w.db.edges|] == w.db.edges;
      }
      FreshMediaIdsShift(w.db, w1.db, gen, base, |ups|);
      AttachEachGrows(w1, owner, ownerLabel, ups[1..], gen, base + 2);
      var w' := AttachEach(w1, owner, ownerLabel, ups[1..], gen, base + 2);
      GrowsTrans(w.db, w1.db, w'.db);
    }
  }
}

=== FILE: models.dfy ===
/** The plain records of src/models: Media, Nationality, Category, Transcript
    and Person, the `FileType` enumeration of src/global.d.ts, and the
    `{ id, label }` options and browser `File` objects the forms pass around.
    Mutable MobX classes become immutable datatypes; each setter is a function
    returning the updated record. */
module Models {
  import opened Wrappers
  import Uuid

  /** `FileType`: 'image' | 'video' | 'id' | 'avatar' | 'passport' | 'attachment'. */
  datatype FileType = Image | Video | IdCard | Avatar | Passport | Attachment

  /** The string the source stores for each file type. */
  function FileTypeName(t: FileType): string {
    match t
    case Image => "image"
    case Video => "video"
    case IdCard => "id"
    case Avatar => "avatar"
    case Passport => "passport"
    case Attachment => "attachment"
  }

  /** Reads a stored type string back; anything outside the six names is rejected. */
  function ParseFileType(s: string): (r: Option<FileType>)
    ensures r.Some? ==> FileTypeName(r.value) == s
  {
    if s == "image" then Some(Image)
    else if s == "video" then Some(Video)
    else if s == "id" then Some(IdCard)
    else if s == "avatar" then Some(Avatar)
    else if s == "passport" then Some(Passport)
    else if s == "attachment" then Some(Attachment)
    else None
  }

  /** Every file type survives the trip through its stored name, and the six
      names are pairwise distinct. */
  lemma FileTypeRoundTrip(t: FileType, u: FileType)
    ensures ParseFileType(FileTypeName(t)) == Some(t)
    ensures FileTypeName(t) == FileTypeName(u) ==> t == u
  {
  }

  /** An autocomplete option `{ id, label }`; also a person's category and
      nationality. (`label` is a Dafny keyword, so the field is `text`.) */
  datatype Ref = Ref(id: string, text: string)

  /** A browser `File`. `token` stands for the object's identity (two `File`
      objects with the same name are still different objects); files read back
      from the store carry their path as token. */
  datatype File = File(token: string, name: string)

  /** Dates are opaque timestamps. */
  type Date = int

  /** `Media`: `{ id, name, path, type }`. */
  datatype Media = Media(id: string, name: string, path: string, kind: FileType)

  /** `new Media(id?)`: keeps a given id, otherwise takes the generator's fresh
      UUIDv4; name and path start empty and the type starts as 'image'. */
  function NewMedia(given: Option<string>, generated: string): (m: Media)
    requires Uuid.IsUUIDv4(generated)
    ensures given.Some? ==> m.id == given.value
    ensures given.None? ==> Uuid.IsUUIDv4(m.id)
    ensures m.name == "" && m.path == "" && m.kind == Image
  {
    Media(given.GetOr(generated), "", "", Image)
  }

  /** One call of a `Media` setter. */
  datatype MediaEdit = SetMediaName(name: string) | SetMediaPath(path: string) | SetMediaType(kind: FileType)

  function ApplyMediaEdit(m: Media, e: MediaEdit): (r: Media)
    ensures r.id == m.id
    ensures e.SetMediaName? ==> r == m.(name := e.name)
    ensures e.SetMediaPath? ==> r == m.(path := e.path)
    ensures e.SetMediaType? ==> r == m.(kind := e.kind)
  {
    match e
    case SetMediaName(v) => m.(name := v)
    case SetMediaPath(v) => m.(path := v)
    case SetMediaType(v) => m.(kind := v)
  }

  /** A run of setter calls, in order. */
  function ApplyMediaEdits(m: Media, es: seq<MediaEdit>): Media
    decreases |es|
  {
    if |es| == 0 then m else ApplyMediaEdits(ApplyMediaEdit(m, es[0]), es[1..])
  }

  /** No sequence of setter calls changes a media's id, and a field no call
      names keeps its value. */
  lemma {:induction false} MediaEditsKeepId(m: Media, es: seq<MediaEdit>)
    ensures ApplyMediaEdits(m, es).id == m.id
    ensures (forall i :: 0 <= i < |es| ==> !es[i].SetMediaName?) ==> ApplyMediaEdits(m, es).name == m.name
    ensures (forall i :: 0 <= i < |es| ==> !es[i].SetMediaPath?) ==> ApplyMediaEdits(m, es).path == m.path
    ensures (forall i :: 0 <= i < |es| ==> !es[i].SetMediaType?) ==> ApplyMediaEdits(m, es).kind == m.kind
    decreases |es|
  {
    if |es| > 0 {
      MediaEditsKeepId(ApplyMediaEdit(m, es[0]), es[1..]);
    }
  }

  /** `Nationality`: `{ id, name }`. */
  datatype Nationality = Nationality(id: string, name: string)

  /** `new Nationality(id?)`: keeps a given id, otherwise a fresh UUIDv4; the name starts empty. */
  function NewNationality(given: Option<string>, generated: string): (n: Nationality)
    requires Uuid.IsUUIDv4(generated)
    ensures given.Some? ==> n.id == given.value
    ensures given.None? ==> Uuid.IsUUIDv4(n.id)
    ensures n.name == ""
  {
    Nationality(given.GetOr(generated), "")
  }

  /** `Category`: `{ id, name }`, built the same way as a nationality. */
  datatype Category = Category(id: string, name: string)

  /** `new Category(id?)`. */
  function NewCategory(given: Option<string>, generated: string): (c: Category)
    requires Uuid.IsUUIDv4(generated)
    ensures given.Some? ==> c.id == given.value
    ensures given.None? ==> Uuid.IsUUIDv4(c.id)
    ensures c.name == ""
  {
    Category(given.GetOr(generated), "")
  }

  /** `Transcript`: `{ id, title, content, date, attachments }`. */
  datatype Transcript = Transcript(id: string, title: string, content: string, date: Option<Date>, attachments: seq<File>)

  /** `new Transcript(id?)`: title and content empty, date null, no attachments. */
  function NewTranscript(given: Option<string>, generated: string): (t: Transcript)
    requires Uuid.IsUUIDv4(generated)
    ensures given.Some? ==> t.id == given.value
    ensures given.None? ==> Uuid.IsUUIDv4(t.id)
    ensures t.title == "" && t.content == "" && t.date.None? && t.attachments == []
  {
    Transcript(given.GetOr(generated), "", "", None, [])
  }

  /** One call of a `Transcript` setter; `setDate` accepts null. */
  datatype TranscriptEdit =
    | SetTitle(title: string)
    | SetContent(content: string)
    | SetDate(date: Option<Date>)
    | SetAttachments(attachments: seq<File>)

  function ApplyTranscriptEdit(t: Transcript, e: TranscriptEdit): (r: Transcript)
    ensures r.id == t.id
    ensures e.SetTitle? ==> r == t.(title := e.title)
    ensures e.SetContent? ==> r == t.(content := e.content)
    ensures e.SetDate? ==> r == t.(date := e.date)
    ensures e.SetAttachments? ==> r == t.(attachments := e.attachments)
  {
    match e
    case SetTitle(v) => t.(title := v)
    case SetContent(v) => t.(content := v)
    case SetDate(v) => t.(date := v)
    case SetAttachments(v) => t.(attachments := v)
  }

  function ApplyTranscriptEdits(t: Transcript, es: seq<TranscriptEdit>): Transcript
    decreases |es|
  {
    if |es| == 0 then t else ApplyTranscriptEdits(ApplyTranscriptEdit(t, es[0]), es[1..])
  }

  /** No sequence of setter calls changes a transcript's id, and a field no
      call names keeps its value. */
  lemma {:induction false} TranscriptEditsKeepId(t: Transcript, es: seq<TranscriptEdit>)
    ensures ApplyTranscriptEdits(t, es).id == t.id
    ensures (forall i :: 0 <= i < |es| ==> !es[i].SetTitle?) ==> ApplyTranscriptEdits(t, es).title == t.title
    ensures (forall i :: 0 <= i < |es| ==> !es[i].SetContent?) ==> ApplyTranscriptEdits(t, es).content == t.content
    ensures (forall i :: 0 <= i < |es| ==> !es[i].SetDate?) ==> ApplyTranscriptEdits(t, es).date == t.date
    ensures (forall i :: 0 <= i < |es| ==> !es[i].SetAttachments?) ==> ApplyTranscriptEdits(t, es).attachments == t.attachments
    decreases |es|
  {
    if |es| > 0 {
      TranscriptEditsKeepId(ApplyTranscriptEdit(t, es[0]), es[1..]);
    }
  }

  /** The scalar properties a Person node stores (everything but the id, the
      category/nationality links and the media). */
  datatype PersonFields = PersonFields(
    fileNumber: string,
    arabicName: string,
    englishName: string,
    motherName: string,
    nickname: string,
    birthDate: Option<Date>,
    birthPlace: string,
    job: string,
    phone: string,
    email: string,
    workplace: string,
    address: string,
    gpsLocation: string,
    passportNumber: string,
    passportIssueDate: Option<Date>,
    passportIssuePlace: string,
    idNumber: string,
    nationalNumber: string,
    registerationNumber: string,
    restrictions: seq<string>,
    notes: string,
    extra: seq<string>)

  /** `Person`, with the fields its setters and its readers use. */
  datatype Person = Person(
    id: string,
    fields: PersonFields,
    category: Ref,
    nationality: Ref,
    image: Option<File>,
    idImage: Option<File>,
    passportImage: Option<File>,
    attachments: seq<File>)

  /** The values of a person's scalar fields before any setter runs. */
  function EmptyFields(): PersonFields {
    PersonFields("", "", "", "", "", None, "", "", "", "", "", "", "", "", None, "", "", "", "", [], "", [])
  }

  /** `new Person(id)`: empty fields, an empty category and nationality, no media. */
  function NewPerson(id: string): (p: Person)
    ensures p.id == id && p.fields == EmptyFields()
    ensures p.category == Ref("", "") && p.nationality == Ref("", "")
    ensures p.image.None? && p.idImage.None? && p.passportImage.None? && p.attachments == []
  {
    Person(id, EmptyFields(), Ref("", ""), Ref("", ""), None, None, None, [])
  }
}

=== FILE: nationality_repository.dfy ===
/** src/repositories/nationality.repository.ts: CRUD over Nationality nodes. */
module NationalityRepository {
  import opened Wrappers
  import opened Models
  import opened GraphStore

  /** `create`: `CREATE (n:Nationality { id: $id, name: $name })`; the nationality
      itself is returned. */
  function Create(s: Store, c: Nationality): (r: Store)
    ensures HasLabel(r, c.id, NationalityLabel)
    ensures Valid(s) ==> Valid(r)
  {
    GraphStore.Create(s, c.id, NationalityNode(c.name))
  }

  /** `read`: one nationality per stored Nationality node. */
  function Read(s: Store): (r: set<Nationality>)
    ensures forall c :: c in r <==> c.id in s.nodes && s.nodes[c.id] == NationalityNode(c.name)
  {
    set id | id in s.nodes && s.nodes[id].NationalityNode? :: Nationality(id, s.nodes[id].name)
  }

  /** `readById`: fails with 'No such a nationality' when no Nationality node has
      the id; otherwise the nationality carries the stored id and name. */
  function ReadById(s: Store, id: string): (r: Result<Nationality>)
    ensures r.Failure? <==> !HasLabel(s, id, NationalityLabel)
    ensures r.Failure? ==> r.error == "No such a nationality"
    ensures r.Success? ==> r.value.id == id && s.nodes[id] == NationalityNode(r.value.name)
  {
    if HasLabel(s, id, NationalityLabel) then Success(Nationality(id, s.nodes[id].name))
    else Failure("No such a nationality")
  }

  /** `update`: sets the name of the Nationality node with that id, if any, and
      returns its argument. */
  function Update(s: Store, id: string, c: Nationality): (r: (Store, Nationality))
    ensures r.1 == c
  {
    (SetName(s, id, NationalityLabel, c.name), c)
  }

  /** `delete`: `MATCH (n:Nationality) WHERE n.id = $id DETACH DELETE n`. */
  function Delete(s: Store, id: string): Store {
    DeleteNode(s, id, NationalityLabel)
  }

  /** A created nationality reads back with its id and name. */
  lemma CreateThenRead(s: Store, c: Nationality)
    ensures ReadById(Create(s, c), c.id) == Success(c)
    ensures c in Read(Create(s, c))
  {
  }

  /** An update returns the nationality it was given and renames exactly the
      matching nationality: other nodes and all relationships are untouched,
      and an unknown id changes nothing. */
  lemma UpdateEffect(s: Store, id: string, c: Nationality, k: string)
    ensures Update(s, id, c).1 == c
    ensures var s' := Update(s, id, c).0;
      && s'.edges == s.edges
      && (HasLabel(s, id, NationalityLabel) ==> ReadById(s', id) == Success(Nationality(id, c.name)))
      && (!HasLabel(s, id, NationalityLabel) ==> s' == s)
      && (k != id && k in s.nodes ==> k in s'.nodes && s'.nodes[k] == s.nodes[k])
  {
  }

  /** After a delete the nationality is gone, the store stays valid, every
      other node is still there, and no relationship touches the deleted one. */
  lemma DeleteEffect(s: Store, id: string)
    requires Valid(s)
    ensures ReadById(Delete(s, id), id).Failure?
    ensures Valid(Delete(s, id))
    ensures forall k :: k != id && k in s.nodes ==> k in Delete(s, id).nodes && Delete(s, id).nodes[k] == s.nodes[k]
    ensures ReadById(s, id).Success? ==>
      forall i :: 0 <= i < |Delete(s, id).edges| ==> Delete(s, id).edges[i].src != id && Delete(s, id).edges[i].dst != id
  {
    DeleteNodeEffect(s, id, NationalityLabel);
  }
}

=== FILE: person_repository.dfy ===
/** src/repositories/person.repository.ts: Person nodes, the category and
    nationality they link to, and the files stored for them. Every call that
    reads, uploads or deletes runs against the world of database and disk;
    an exception ends the call with the writes made so far. */
module PersonRepository {
  import opened Wrappers
  import opened Seqs
  import Uuid
  import opened Models
  import opened GraphStore
  import opened FileStore
  import opened MediaUpload
  import CategoryRepository
  import NationalityRepository

  // ------------------------------------------------------------- create

  /** The node `create` and `update` link a category (`l` = Category) or a
      nationality (`l` = Nationality) reference to: the referenced id when it
      passes the UUIDv4 test, otherwise a new node of that label under the
      fresh id, named after the typed text and created first. */
  function Resolve(s: Store, r: Ref, freshId: string, l: NodeLabel): (Store, string)
    requires l == CategoryLabel || l == NationalityLabel
  {
    if Uuid.IsUUIDv4(r.id) then (s, r.id)
    else if l == CategoryLabel then (CategoryRepository.Create(s, Category(freshId, r.id)), freshId)
    else (NationalityRepository.Create(s, Nationality(freshId, r.id)), freshId)
  }

  /** One link step of `create`: resolve the reference, then
      `MATCH (p:Person {id}) MATCH (c:L {id}) CREATE (p)-[:REL]->(c)`. */
  function LinkStep(s: Store, id: string, rel: Rel, r: Ref, freshId: string, l: NodeLabel): Store
    requires l == CategoryLabel || l == NationalityLabel
  {
    var c := Resolve(s, r, freshId, l);
    Link(c.0, id, PersonLabel, rel, c.1, l)
  }

  /** An optional file slot as a run of zero or one upload. */
  function Slot(kind: FileType, f: Option<File>): (r: seq<PendingUpload>)
    ensures |r| == (if f.Some? then 1 else 0)
  {
    if f.Some? then [PendingUpload(kind, f.value)] else []
  }

  /** The files `create` stores, in order: avatar, id image, passport image,
      then the attachments. */
  function PersonUploads(p: Person): seq<PendingUpload> {
    Slot(Avatar, p.image) + Slot(IdCard, p.idImage) + Slot(Passport, p.passportImage) + AsUploads(Attachment, p.attachments)
  }

  /** The writes of `create` before any file: the Person node, then the
      category and its `CATEGORIZED_AS`, then the nationality and its `FROM`.
      A new category takes the id `gen(0)` and a new nationality `gen(1)`. */
  function CreateRecord(s: Store, p: Person, gen: UuidSource): Store {
    var s1 := GraphStore.Create(s, p.id, PersonNode(p.fields));
    var s3 := LinkStep(s1, p.id, CategorizedAs, p.category, gen(0), CategoryLabel);
    LinkStep(s3, p.id, From, p.nationality, gen(1), NationalityLabel)
  }

  /** `create`: the record, then each file in `PersonUploads` order, the i-th
      one taking the uuids `gen(2 + 2 i)` and `gen(3 + 2 i)`. Every upload is
      awaited, so the first one that throws ends the call. */
  function Create(w: World, p: Person, gen: UuidSource): Outcome {
    AttachAll(World(CreateRecord(w.db, p, gen), w.fs), p.id, PersonLabel, PersonUploads(p), gen, 2)
  }

  // --------------------------------------------------------------- read

  /** The name a Category or Nationality node stores. */
  function NameOf(n: Node): string {
    match n
    case CategoryNode(x) => x
    case NationalityNode(x) => x
    case _ => ""
  }

  /** `{ id, label: name }` of the first node a `rel` relationship from `id`
      reaches with label `l`, if any. */
  function LinkedRef(s: Store, id: string, rel: Rel, l: NodeLabel): Option<Ref> {
    match FirstTarget(s, s.edges, id, rel, l)
    case None => None
    case Some(c) => Some(Ref(c, NameOf(s.nodes[c])))
  }

  /** One Media record of the `switch` in the hydration: avatar, id and
      passport files replace their slot, attachments are appended, images and
      videos are ignored. The file is `getFile(path)`. */
  function Absorb(p: Person, m: Media): (r: Person)
    ensures r.id == p.id && r.fields == p.fields && r.category == p.category && r.nationality == p.nationality
  {
    match m.kind
    case Avatar => p.(image := Some(GetFile(m.path)))
    case IdCard => p.(idImage := Some(GetFile(m.path)))
    case Passport => p.(passportImage := Some(GetFile(m.path)))
    case Attachment => p.(attachments := p.attachments + [GetFile(m.path)])
    case Image => p
    case Video => p
  }

  /** `media.forEach(...)`: the records in order. */
  function Hydrate(p: Person, media: seq<Media>): (r: Person)
    ensures r.id == p.id && r.fields == p.fields && r.category == p.category && r.nationality == p.nationality
    decreases |media|
  {
    if |media| == 0 then p else Hydrate(Absorb(p, media[0]), media[1..])
  }

  /** The person a stored Person node reads back as: its properties, its
      media, and its category and nationality when the relationship exists. */
  function ToPerson(s: Store, id: string): (r: Person)
    requires HasLabel(s, id, PersonLabel)
    ensures r.id == id && s.nodes[id] == PersonNode(r.fields)
  {
    var withMedia := Hydrate(NewPerson(id).(fields := s.nodes[id].fields), HasMedia(s, s.edges, id));
    var c := LinkedRef(s, id, CategorizedAs, CategoryLabel);
    var n := LinkedRef(s, id, From, NationalityLabel);
    withMedia.(category := c.GetOr(withMedia.category), nationality := n.GetOr(withMedia.nationality))
  }

  /** `readById`: fails with 'No such a person' when no Person node has the id. */
  function ReadById(s: Store, id: string): (r: Result<Person>)
    ensures r.Failure? <==> !HasLabel(s, id, PersonLabel)
    ensures r.Failure? ==> r.error == "No such a person"
    ensures r.Success? ==> r.value.id == id && s.nodes[id] == PersonNode(r.value.fields)
  {
    if HasLabel(s, id, PersonLabel) then Success(ToPerson(s, id)) else Failure("No such a person")
  }

  /** `read()` without a search: every Person node, hydrated as `readById` does. */
  function Read(s: Store): (r: set<Person>)
    ensures forall p :: p in r ==> ReadById(s, p.id) == Success(p)
    ensures forall id :: HasLabel(s, id, PersonLabel) ==> ReadById(s, id).value in r
  {
    set id | id in s.nodes && HasLabel(s, id, PersonLabel) :: ToPerson(s, id)
  }

  // ------------------------------------------------------- update, delete

  /** `MATCH (m:Media { type }) WHERE m.path ENDS WITH $name DETACH DELETE m`,
      then `files.delete(owner, type, name)`. */
  function RemoveStored(w: World, owner: string, kind: FileType, name: string): Outcome {
    var db := DeleteMediaEndingWith(w.db, kind, name);
    match FileStore.Delete(w.fs, owner, kind, name)
    case Failure(e) => Thrown(World(db, w.fs), e)
    case Success(fs) => Done(World(db, fs))
  }

  /** `RemoveStored` for each file, in order, by its name. */
  function RemoveAll(w: World, owner: string, kind: FileType, files: seq<File>): Outcome
    decreases |files|
  {
    if |files| == 0 then Done(w)
    else match RemoveStored(w, owner, kind, files[0].name)
      case Thrown(w1, e) => Thrown(w1, e)
      case Done(w1) => RemoveAll(w1, owner, kind, files[1..])
  }

  /** The rules of `update` for one of the avatar, id and passport slots: no
      new file leaves the slot alone; a new file named like the old one is
      taken to be the old one; otherwise the old media and file go (if there
      was one) and the new file is stored. */
  function SlotUpdate(w: World, owner: string, kind: FileType, prev: Option<File>, cur: Option<File>, fileUuid: string, mediaId: string): Outcome {
    if cur.None? then Done(w)
    else if prev.Some? && prev.value.name == cur.value.name then Done(w)
    else
      var r := if prev.Some? then RemoveStored(w, owner, kind, prev.value.name) else Done(w);
      match r
      case Thrown(w1, e) => Thrown(w1, e)
      case Done(w1) => AttachFile(w1, owner, PersonLabel, PendingUpload(kind, cur.value), fileUuid, mediaId)
  }

  /** `_.find(files, { name })` finds something. */
  predicate NamedIn(name: string, files: seq<File>) {
    exists i :: 0 <= i < |files| && files[i].name == name
  }

  /** The old attachments no new one is named like. */
  function Dropped(prev: seq<File>, cur: seq<File>): seq<File> {
    Filter(prev, (f: File) => !NamedIn(f.name, cur))
  }

  /** The new attachments no old one is named like. */
  function Added(prev: seq<File>, cur: seq<File>): seq<File> {
    Filter(cur, (f: File) => !NamedIn(f.name, prev))
  }

  /** The first loop of `update` over the old attachments, skipping
      (`continue`) those a new one is named like. */
  function RemoveDropped(w: World, owner: string, prev: seq<File>, cur: seq<File>): Outcome
    decreases |prev|
  {
    if |prev| == 0 then Done(w)
    else if NamedIn(prev[0].name, cur) then RemoveDropped(w, owner, prev[1..], cur)
    else match RemoveStored(w, owner, Attachment, prev[0].name)
      case Thrown(w1, e) => Thrown(w1, e)
      case Done(w1) => RemoveDropped(w1, owner, prev[1..], cur)
  }

  /** The second loop of `update` over the new attachments, skipping those an
      old one is named like; each upload takes the next two uuids. */
  function UploadAdded(w: World, owner: string, cur: seq<File>, prev: seq<File>, gen: UuidSource, base: nat): Outcome
    decreases |cur|
  {
    if |cur| == 0 then Done(w)
    else if NamedIn(cur[0].name, prev) then UploadAdded(w, owner, cur[1..], prev, gen, base)
    else match AttachFile(w, owner, PersonLabel, PendingUpload(Attachment, cur[0]), gen(base), gen(base + 1))
      case Thrown(w1, e) => Thrown(w1, e)
      case Done(w1) => UploadAdded(w1, owner, cur[1..], prev, gen, base + 2)
  }

  /** The writes of `update` before any file: the scalar `SET` on the node
      `id`, then the category and nationality relinks, which match the person
      by `person.id`. */
  function UpdateRecord(s: Store, id: string, p: Person, gen: UuidSource): Store {
    var s1 := SetPerson(s, id, p.fields);
    var s3 := RelinkStep(s1, p.id, CategorizedAs, p.category, gen(0), CategoryLabel);
    RelinkStep(s3, p.id, From, p.nationality, gen(1), NationalityLabel)
  }

  /** One relink step of `update`: resolve the reference as `create` does,
      then move every `rel` relationship of the person to it. */
  function RelinkStep(s: Store, id: string, rel: Rel, r: Ref, freshId: string, l: NodeLabel): Store
    requires l == CategoryLabel || l == NationalityLabel
  {
    var c := Resolve(s, r, freshId, l);
    Relink(c.0, id, rel, c.1, l)
  }

  /** The file part of `update`, for the person as read before the update:
      the three slots with the uuid pairs (2, 3), (4, 5) and (6, 7), then the
      dropped attachments, then the added ones from uuid 8 on. */
  function UpdateFiles(w: World, p: Person, prev: Person, gen: UuidSource): Outcome {
    match SlotUpdate(w, p.id, Avatar, prev.image, p.image, gen(2), gen(3))
    case Thrown(w1, e) => Thrown(w1, e)
    case Done(w1) =>
      match SlotUpdate(w1, p.id, IdCard, prev.idImage, p.idImage, gen(4), gen(5))
      case Thrown(w2, e) => Thrown(w2, e)
      case Done(w2) =>
        match SlotUpdate(w2, p.id, Passport, prev.passportImage, p.passportImage, gen(6), gen(7))
        case Thrown(w3, e) => Thrown(w3, e)
        case Done(w3) =>
          match RemoveDropped(w3, p.id, prev.attachments, p.attachments)
          case Thrown(w4, e) => Thrown(w4, e)
          case Done(w4) => UploadAdded(w4, p.id, p.attachments, prev.attachments, gen, 8)
  }

  /** `update(id, person)`: `readById(id)` first, so an unknown id throws
      before anything is written. */
  function Update(w: World, id: string, p: Person, gen: UuidSource): Outcome {
    match ReadById(w.db, id)
    case Failure(e) => Thrown(w, e)
    case Success(prev) => UpdateFiles(World(UpdateRecord(w.db, id, p, gen), w.fs), p, prev, gen)
  }

  /** `RemoveStored` for a slot that may be empty. */
  function RemoveSlot(w: World, owner: string, kind: FileType, f: Option<File>): Outcome {
    if f.Some? then RemoveStored(w, owner, kind, f.value.name) else Done(w)
  }

  /** `delete(id)`: `readById(id)` first; then the cascade of
      `DeletePersonCypher`; then, for the media read before, the suffix delete
      and the file delete: attachments, avatar, id image, passport image. */
  function Delete(w: World, id: string): Outcome {
    match ReadById(w.db, id)
    case Failure(e) => Thrown(w, e)
    case Success(prev) => RemoveFiles(World(DeletePerson(w.db, id), w.fs), prev)
  }

  /** The media part of `delete` for the person read before: attachments,
      then avatar, id image and passport image; the first exception ends it. */
  function RemoveFiles(w0: World, prev: Person): Outcome {
    match RemoveAll(w0, prev.id, Attachment, prev.attachments)
    case Thrown(w1, e) => Thrown(w1, e)
    case Done(w1) => RemoveSlots(w1, prev)
  }

  /** The avatar, id image and passport image parts of `RemoveFiles`. */
  function RemoveSlots(w1: World, prev: Person): Outcome {
    match RemoveSlot(w1, prev.id, Avatar, prev.image)
    case Thrown(w2, e) => Thrown(w2, e)
    case Done(w2) =>
      match RemoveSlot(w2, prev.id, IdCard, prev.idImage)
      case Thrown(w3, e) => Thrown(w3, e)
      case Done(w3) => RemoveSlot(w3, prev.id, Passport, prev.passportImage)
  }

  // ------------------------------------------------------------- lemmas

  /** `readById` of an unknown id fails with 'No such a person', and since
      `update` and `delete` call it first they throw before writing anything. */
  lemma UnknownIdChangesNothing(w: World, id: string, p: Person, gen: UuidSource)
    requires !HasLabel(w.db, id, PersonLabel)
    ensures ReadById(w.db, id) == Failure("No such a person")
    ensures Update(w, id, p, gen) == Thrown(w, "No such a person")
    ensures Delete(w, id) == Thrown(w, "No such a person")
  {
  }

  /** A suffix delete followed by a file delete: only Media nodes of that
      type whose path ends with the name go, with their relationships; the
      file under exactly that name goes; everything else stays. */
  lemma RemoveStoredEffect(w: World, owner: string, kind: FileType, name: string)
    requires Valid(w.db)
    requires RemoveStored(w, owner, kind, name).Done?
    ensures var w' := RemoveStored(w, owner, kind, name).w;
      && Valid(w'.db)
      && w'.db.nodes.Keys == w.db.nodes.Keys - MediaEndingWith(w.db, kind, name)
      && (forall k :: k in w'.db.nodes ==> w'.db.nodes[k] == w.db.nodes[k])
      && w'.fs.userData == w.fs.userData
      && Lookup(w'.fs, kind, owner, name).None?
      && (forall t', n', name' :: (t', n', name') != (kind, owner, name) ==> Lookup(w'.fs, t', n', name') == Lookup(w.fs, t', n', name'))
  {
    DetachDeleteValid(w.db, MediaEndingWith(w.db, kind, name));
  }

  /** Removing a run of files by name: only Media nodes of that type go, each
      named file is gone from the owner's folder, and every other file stays. */
  lemma RemoveAllEffect(w: World, owner: string, kind: FileType, files: seq<File>)
    requires Valid(w.db)
    requires RemoveAll(w, owner, kind, files).Done?
    ensures var w' := RemoveAll(w, owner, kind, files).w;
      && Valid(w'.db)
      && w'.db.nodes.Keys <= w.db.nodes.Keys
      && (forall k :: k in w'.db.nodes ==> w'.db.nodes[k] == w.db.nodes[k])
      && (forall k :: k in w.db.nodes && !(w.db.nodes[k].MediaNode? && w.db.nodes[k].kind == kind) ==> k in w'.db.nodes)
      && w'.fs.userData == w.fs.userData
      && (forall i :: 0 <= i < |files| ==> Lookup(w'.fs, kind, owner, files[i].name).None?)
      && (forall t', n', name' :: (t' != kind || n' != owner || !NamedIn(name', files)) ==> Lookup(w'.fs, t', n', name') == Lookup(w.fs, t', n', name'))
  {
    RemoveAllStore(w, owner, kind, files);
    RemoveAllDisk(w, owner, kind, files);
  }

  /** The store half of `RemoveAllEffect`. */
  lemma {:induction false} RemoveAllStore(w: World, owner: string, kind: FileType, files: seq<File>)
    requires Valid(w.db)
    requires RemoveAll(w, owner, kind, files).Done?
    ensures var w' := RemoveAll(w, owner, kind, files).w;
      && Valid(w'.db)
      && w'.db.nodes.Keys <= w.db.nodes.Keys
      && (forall k :: k in w'.db.nodes ==> w'.db.nodes[k] == w.db.nodes[k])
      && (forall k :: k in w.db.nodes && !(w.db.nodes[k].MediaNode? && w.db.nodes[k].kind == kind) ==> k in w'.db.nodes)
    decreases |files|
  {
    if |files| > 0 {
      var w1 := RemoveStored(w, owner, kind, files[0].name).w;
      RemoveStoredEffect(w, owner, kind, files[0].name);
      RemoveAllStore(w1, owner, kind, files[1..]);
    }
  }

  /** The file half of `RemoveAllEffect`. */
  lemma {:induction false} RemoveAllDisk(w: World, owner: string, kind: FileType, files: seq<File>)
    requires Valid(w.db)
    requires RemoveAll(w, owner, kind, files).Done?
    ensures var w' := RemoveAll(w, owner, kind, files).w;
      && w'.fs.userData == w.fs.userData
      && (forall i :: 0 <= i < |files| ==> Lookup(w'.fs, kind, owner, files[i].name).None?)
      && (forall t', n', name' :: (t' != kind || n' != owner || !NamedIn(name', files)) ==> Lookup(w'.fs, t', n', name') == Lookup(w.fs, t', n', name'))
    decreases |files|
  {
    if |files| > 0 {
      var w1 := RemoveStored(w, owner, kind, files[0].name).w;
      RemoveStoredEffect(w, owner, kind, files[0].name);
      RemoveAllDisk(w1, owner, kind, files[1..]);
      var w' := RemoveAll(w1, owner, kind, files[1..]).w;
      forall i | 0 <= i < |files|
        ensures Lookup(w'.fs, kind, owner, files[i].name).None?
      {
        if i > 0 {
          assert files[1..][i - 1] == files[i];
        } else if NamedIn(files[0].name, files[1..]) {
          var j :| 0 <= j < |files[1..]| && files[1..][j].name == files[0].name;
        }
      }
    }
  }

  /** The slot rules that write nothing: no new file, or a new file named
      like the old one. */
  lemma SlotKept(w: World, owner: string, kind: FileType, prev: Option<File>, cur: Option<File>, fileUuid: string, mediaId: string)
    requires cur.None? || (prev.Some? && prev.value.name == cur.value.name)
    ensures SlotUpdate(w, owner, kind, prev, cur, fileUuid, mediaId) == Done(w)
  {
  }

  /** A new file named unlike the old one: the Media nodes of that type whose
      path ends with the old name are deleted, the old file is deleted (unless
      the new stored name happens to equal it), and exactly one Media node is
      created for the new file, linked from the owner by one `HAS`. With no
      old file only the new one is stored. */
  lemma SlotReplaced(w: World, owner: string, kind: FileType, prev: Option<File>, cur: Option<File>, fileUuid: string, mediaId: string)
    requires Valid(w.db)
    requires HasLabel(w.db, owner, PersonLabel)
    requires mediaId !in w.db.nodes
    requires cur.Some? && !(prev.Some? && prev.value.name == cur.value.name)
    requires SlotUpdate(w, owner, kind, prev, cur, fileUuid, mediaId).Done?
    ensures var w' := SlotUpdate(w, owner, kind, prev, cur, fileUuid, mediaId).w;
      var gone := if prev.Some? then MediaEndingWith(w.db, kind, prev.value.name) else {};
      var stored := StoredName(cur.value.name, fileUuid);
      && Valid(w'.db)
      && w'.db.nodes.Keys == w.db.nodes.Keys - gone + {mediaId}
      && w'.db.nodes[mediaId] == MediaNode(cur.value.name, StoredPath(w.fs.userData, kind, owner, cur.value.name, fileUuid), kind)
      && |w'.db.edges| > 0 && w'.db.edges[|w'.db.edges| - 1] == Edge(owner, Has, mediaId)
      && Lookup(w'.fs, kind, owner, stored) == Some(FileEntry(cur.value.token))
      && (prev.Some? && stored != prev.value.name ==> Lookup(w'.fs, kind, owner, prev.value.name).None?)
  {
    var w1 := SlotCleared(w, owner, kind, prev, cur, fileUuid, mediaId);
    SlotStored(w, w1, owner, kind, prev, cur.value, fileUuid, mediaId);
  }

  /** Storing the new file of a slot into the cleared world `w1`. */
  lemma SlotStored(w: World, w1: World, owner: string, kind: FileType, prev: Option<File>, f: File, fileUuid: string, mediaId: string)
    requires Valid(w1.db) && HasLabel(w1.db, owner, PersonLabel) && mediaId !in w1.db.nodes
    requires w1.fs.userData == w.fs.userData
    requires prev.Some? ==> Lookup(w1.fs, kind, owner, prev.value.name).None?
    requires AttachFile(w1, owner, PersonLabel, PendingUpload(kind, f), fileUuid, mediaId).Done?
    ensures var w' := AttachFile(w1, owner, PersonLabel, PendingUpload(kind, f), fileUuid, mediaId).w;
      var stored := StoredName(f.name, fileUuid);
      && Valid(w'.db)
      && w'.db.nodes.Keys == w1.db.nodes.Keys + {mediaId}
      && w'.db.nodes[mediaId] == MediaNode(f.name, StoredPath(w.fs.userData, kind, owner, f.name, fileUuid), kind)
      && |w'.db.edges| > 0 && w'.db.edges[|w'.db.edges| - 1] == Edge(owner, Has, mediaId)
      && Lookup(w'.fs, kind, owner, stored) == Some(FileEntry(f.token))
      && (prev.Some? && stored != prev.value.name ==> Lookup(w'.fs, kind, owner, prev.value.name).None?)
  {
    AttachFileDone(w1, owner, PersonLabel, PendingUpload(kind, f), fileUuid, mediaId);
    AttachFileEffect(w1, owner, PersonLabel, PendingUpload(kind, f), fileUuid, mediaId);
    if prev.Some? && StoredName(f.name, fileUuid) != prev.value.name {
      UploadFrame(w1.fs, owner, kind, f.name, f.token, fileUuid, kind, owner, prev.value.name);
    }
  }

  /** The world after the old media and file of a slot are gone, from which
      the new file is stored. */
  lemma SlotCleared(w: World, owner: string, kind: FileType, prev: Option<File>, cur: Option<File>, fileUuid: string, mediaId: string)
    returns (w1: World)
    requires Valid(w.db)
    requires HasLabel(w.db, owner, PersonLabel)
    requires mediaId !in w.db.nodes
    requires cur.Some? && !(prev.Some? && prev.value.name == cur.value.name)
    requires SlotUpdate(w, owner, kind, prev, cur, fileUuid, mediaId).Done?
    ensures SlotUpdate(w, owner, kind, prev, cur, fileUuid, mediaId) ==
      AttachFile(w1, owner, PersonLabel, PendingUpload(kind, cur.value), fileUuid, mediaId)
    ensures Valid(w1.db) && HasLabel(w1.db, owner, PersonLabel) && mediaId !in w1.db.nodes
    ensures w1.db.nodes.Keys == w.db.nodes.Keys - (if prev.Some? then MediaEndingWith(w.db, kind, prev.value.name) else {})
    ensures w1.fs.userData == w.fs.userData
    ensures prev.Some? ==> Lookup(w1.fs, kind, owner, prev.value.name).None?
  {
    w1 := if prev.Some? then RemoveStored(w, owner, kind, prev.value.name).w else w;
    if prev.Some? {
      RemoveStoredEffect(w, owner, kind, prev.value.name);
      assert w1.db.nodes[owner] == w.db.nodes[owner];
    }
  }

  /** The update's first attachment loop removes exactly the dropped
      attachments, in order. */
  lemma {:induction false} RemoveDroppedIsDiff(w: World, owner: string, prev: seq<File>, cur: seq<File>)
    ensures RemoveDropped(w, owner, prev, cur) == RemoveAll(w, owner, Attachment, Dropped(prev, cur))
    decreases |prev|
  {
    if |prev| > 0 {
      if NamedIn(prev[0].name, cur) {
        RemoveDroppedIsDiff(w, owner, prev[1..], cur);
      } else {
        var d := Dropped(prev, cur);
        assert d == [prev[0]] + Dropped(prev[1..], cur);
        assert d[0] == prev[0] && d[1..] == Dropped(prev[1..], cur);
        match RemoveStored(w, owner, Attachment, prev[0].name)
        case Thrown(w1, e) =>
        case Done(w1) => RemoveDroppedIsDiff(w1, owner, prev[1..], cur);
      }
    }
  }

  /** The update's second attachment loop uploads exactly the added
      attachments, in order, as one run. */
  lemma {:induction false} UploadAddedIsDiff(w: World, owner: string, cur: seq<File>, prev: seq<File>, gen: UuidSource, base: nat)
    ensures UploadAdded(w, owner, cur, prev, gen, base) == AttachAll(w, owner, PersonLabel, AsUploads(Attachment, Added(prev, cur)), gen, base)
    decreases |cur|
  {
    if |cur| > 0 {
      if NamedIn(cur[0].name, prev) {
        UploadAddedIsDiff(w, owner, cur[1..], prev, gen, base);
      } else {
        var a := Added(prev, cur);
        assert a == [cur[0]] + Added(prev, cur[1..]);
        var ups := AsUploads(Attachment, a);
        assert ups[0] == PendingUpload(Attachment, cur[0]);
        assert ups[1..] == AsUploads(Attachment, Added(prev, cur[1..]));
        match AttachFile(w, owner, PersonLabel, PendingUpload(Attachment, cur[0]), gen(base), gen(base + 1))
        case Thrown(w1, e) =>
        case Done(w1) => UploadAddedIsDiff(w1, owner, cur[1..], prev, gen, base + 2);
      }
    }
  }

  /** The name diff: an old attachment is dropped iff no new one has its
      name, a new one is added iff no old one has its name, so one whose name
      is on both sides is neither dropped nor added. */
  lemma DiffByName(prev: seq<File>, cur: seq<File>, f: File)
    ensures f in Dropped(prev, cur) <==> f in prev && !NamedIn(f.name, cur)
    ensures f in Added(prev, cur) <==> f in cur && !NamedIn(f.name, prev)
  {
    if f in prev && !NamedIn(f.name, cur) {
      var i :| 0 <= i < |prev| && prev[i] == f;
    }
    if f in cur && !NamedIn(f.name, prev) {
      var i :| 0 <= i < |cur| && cur[i] == f;
    }
  }

  /** The files of old attachments that keep their name are not touched by
      the removal loop. */
  lemma SameNamedKept(w: World, owner: string, prev: seq<File>, cur: seq<File>, name: string)
    requires Valid(w.db)
    requires NamedIn(name, cur)
    requires RemoveDropped(w, owner, prev, cur).Done?
    ensures Lookup(RemoveDropped(w, owner, prev, cur).w.fs, Attachment, owner, name) == Lookup(w.fs, Attachment, owner, name)
  {
    RemoveDroppedIsDiff(w, owner, prev, cur);
    RemoveAllEffect(w, owner, Attachment, Dropped(prev, cur));
  }

  // ----------------------------------------------- create, then read back

  /** What `readById` finds for a category or nationality reference right
      after `create`: the referenced node when the reference is a UUIDv4 and
      such a node exists, nothing when it is a UUIDv4 naming no such node,
      and the node created under `freshId` and named after the typed text
      otherwise. */
  function ExpectedLink(s: Store, r: Ref, freshId: string, l: NodeLabel): Option<Ref> {
    if Uuid.IsUUIDv4(r.id) then
      if HasLabel(s, r.id, l) then Some(Ref(r.id, NameOf(s.nodes[r.id]))) else None
    else Some(Ref(freshId, r.id))
  }

  /** One link step for a person `id` and a fresh id: the store stays valid
      and keeps its nodes, gains at most the fresh node (with label `l`), and
      gains exactly the one relationship the UUID rule expects, or none. */
  lemma LinkStepEffect(t: Store, id: string, rel: Rel, r: Ref, freshId: string, l: NodeLabel)
    requires l == CategoryLabel || l == NationalityLabel
    requires Valid(t)
    requires HasLabel(t, id, PersonLabel)
    requires freshId !in t.nodes
    ensures var t' := LinkStep(t, id, rel, r, freshId, l);
      var e := ExpectedLink(t, r, freshId, l);
      && Valid(t')
      && (forall k :: k in t.nodes ==> k in t'.nodes && t'.nodes[k] == t.nodes[k])
      && t'.nodes.Keys <= t.nodes.Keys + {freshId}
      && (freshId in t'.nodes ==> LabelOf(t'.nodes[freshId]) == l)
      && (e.Some? ==> t'.edges == t.edges + [Edge(id, rel, e.value.id)] && HasLabel(t', e.value.id, l) && NameOf(t'.nodes[e.value.id]) == e.value.text)
      && (e.None? ==> t'.edges == t.edges)
  {
    var c := Resolve(t, r, freshId, l);
    LinkValid(c.0, id, PersonLabel, rel, c.1, l);
  }

  /** The record part of `create` on ids that are all new: the store stays
      valid and only grows, by the Person node holding the fields and at most
      the two fresh nodes. */
  lemma CreateRecordShape(s: Store, p: Person, gen: UuidSource)
    requires Valid(s)
    requires p.id !in s.nodes && gen(0) !in s.nodes && gen(1) !in s.nodes
    requires p.id != gen(0) && p.id != gen(1) && gen(0) != gen(1)
    ensures var s' := CreateRecord(s, p, gen);
      && Valid(s')
      && Grows(s, s')
      && s'.nodes.Keys <= s.nodes.Keys + {p.id, gen(0), gen(1)}
      && HasLabel(s', p.id, PersonLabel) && s'.nodes[p.id] == PersonNode(p.fields)
  {
    var s3 := LinkStep(GraphStore.Create(s, p.id, PersonNode(p.fields)), p.id, CategorizedAs, p.category, gen(0), CategoryLabel);
    CreateCategoryStage(s, p, gen);
    var s5 := LinkStep(s3, p.id, From, p.nationality, gen(1), NationalityLabel);
    LinkStepEffect(s3, p.id, From, p.nationality, gen(1), NationalityLabel);
    assert IsPrefix(s.edges, s3.edges) by {
      assert s3.edges[..|s.edges|] == s.edges;
    }
    assert IsPrefix(s3.edges, s5.edges) by {
      assert s5.edges[..|s3.edges|] == s3.edges;
    }
    assert Grows(s, s3);
    GrowsTrans(s, s3, s5);
  }

  /** The Person node and its category link, the first two writes of
      `create` on ids that are all new. */
  lemma CreateCategoryStage(s: Store, p: Person, gen: UuidSource)
    requires Valid(s)
    requires p.id !in s.nodes && gen(0) !in s.nodes && gen(1) !in s.nodes
    requires p.id != gen(0) && p.id != gen(1) && gen(0) != gen(1)
    ensures var s3 := LinkStep(GraphStore.Create(s, p.id, PersonNode(p.fields)), p.id, CategorizedAs, p.category, gen(0), CategoryLabel);
      var ec := ExpectedLink(s, p.category, gen(0), CategoryLabel);
      && Valid(s3) && HasLabel(s3, p.id, PersonLabel) && s3.nodes[p.id] == PersonNode(p.fields)
      && gen(1) !in s3.nodes
      && (forall k :: k in s.nodes ==> k in s3.nodes && s3.nodes[k] == s.nodes[k])
      && s3.nodes.Keys <= s.nodes.Keys + {p.id, gen(0)}
      && s3.edges == s.edges + (if ec.Some? then [Edge(p.id, CategorizedAs, ec.value.id)] else [])
      && ExpectedLink(s3, p.nationality, gen(1), NationalityLabel) == ExpectedLink(s, p.nationality, gen(1), NationalityLabel)
      && (ec.Some? ==> HasLabel(s3, ec.value.id, CategoryLabel) && NameOf(s3.nodes[ec.value.id]) == ec.value.text)
  {
    var s1 := GraphStore.Create(s, p.id, PersonNode(p.fields));
    CreateValid(s, p.id, PersonNode(p.fields));
    var s3 := LinkStep(s1, p.id, CategorizedAs, p.category, gen(0), CategoryLabel);
    LinkStepEffect(s1, p.id, CategorizedAs, p.category, gen(0), CategoryLabel);
    var ec := ExpectedLink(s, p.category, gen(0), CategoryLabel);
    assert ExpectedLink(s1, p.category, gen(0), CategoryLabel) == ec;
    assert ExpectedLink(s3, p.nationality, gen(1), NationalityLabel) == ExpectedLink(s, p.nationality, gen(1), NationalityLabel);
    if ec.Some? {
      assert s3.edges == s.edges + [Edge(p.id, CategorizedAs, ec.value.id)];
    }
  }

  /** The relationships of `create` on ids that are all new: nothing links
      the person to a Media node yet, and its category and nationality read
      back as the UUID rule says. */
  lemma CreateRecordLinks(s: Store, p: Person, gen: UuidSource)
    requires Valid(s)
    requires p.id !in s.nodes && gen(0) !in s.nodes && gen(1) !in s.nodes
    requires p.id != gen(0) && p.id != gen(1) && gen(0) != gen(1)
    ensures var s' := CreateRecord(s, p, gen);
      && (forall i :: 0 <= i < |s'.edges| && s'.edges[i].src == p.id ==> s'.edges[i].rel != Has)
      && LinkedRef(s', p.id, CategorizedAs, CategoryLabel) == ExpectedLink(s, p.category, gen(0), CategoryLabel)
      && LinkedRef(s', p.id, From, NationalityLabel) == ExpectedLink(s, p.nationality, gen(1), NationalityLabel)
  {
    var s3 := LinkStep(GraphStore.Create(s, p.id, PersonNode(p.fields)), p.id, CategorizedAs, p.category, gen(0), CategoryLabel);
    CreateCategoryStage(s, p, gen);
    var s5 := LinkStep(s3, p.id, From, p.nationality, gen(1), NationalityLabel);
    LinkStepEffect(s3, p.id, From, p.nationality, gen(1), NationalityLabel);
    var ec := ExpectedLink(s, p.category, gen(0), CategoryLabel);
    var en := ExpectedLink(s, p.nationality, gen(1), NationalityLabel);
    var ce: seq<Edge> := if ec.Some? then [Edge(p.id, CategorizedAs, ec.value.id)] else [];
    var ne: seq<Edge> := if en.Some? then [Edge(p.id, From, en.value.id)] else [];
    assert s5.edges == s.edges + ce + ne;
    if ec.Some? {
      assert ec.value.id in s3.nodes && s5.nodes[ec.value.id] == s3.nodes[ec.value.id];
    }
    LinkedAfterCreate(s, s5, p.id, ce, ne, ec, en);
  }

  /** Reading the category and nationality off the relationships `create`
      wrote after the ones already stored. */
  lemma LinkedAfterCreate(s: Store, s5: Store, id: string, ce: seq<Edge>, ne: seq<Edge>, ec: Option<Ref>, en: Option<Ref>)
    requires Valid(s) && id !in s.nodes
    requires s5.edges == s.edges + ce + ne
    requires ce == (if ec.Some? then [Edge(id, CategorizedAs, ec.value.id)] else [])
    requires ne == (if en.Some? then [Edge(id, From, en.value.id)] else [])
    requires ec.Some? ==> HasLabel(s5, ec.value.id, CategoryLabel) && NameOf(s5.nodes[ec.value.id]) == ec.value.text
    requires en.Some? ==> HasLabel(s5, en.value.id, NationalityLabel) && NameOf(s5.nodes[en.value.id]) == en.value.text
    ensures LinkedRef(s5, id, CategorizedAs, CategoryLabel) == ec
    ensures LinkedRef(s5, id, From, NationalityLabel) == en
    ensures forall i :: 0 <= i < |s5.edges| && s5.edges[i].src == id ==> s5.edges[i].rel != Has
  {
    forall i | 0 <= i < |s.edges|
      ensures s.edges[i].src != id
    {
    }
    CategoryAfterCreate(s, s5, id, ce, ne, ec);
    NationalityAfterCreate(s, s5, id, ce, ne, en);
  }

  /** The category half of `LinkedAfterCreate`. */
  lemma CategoryAfterCreate(s: Store, s5: Store, id: string, ce: seq<Edge>, ne: seq<Edge>, ec: Option<Ref>)
    requires forall i :: 0 <= i < |s.edges| ==> s.edges[i].src != id
    requires s5.edges == s.edges + ce + ne
    requires ce == (if ec.Some? then [Edge(id, CategorizedAs, ec.value.id)] else [])
    requires forall i :: 0 <= i < |ne| ==> ne[i].rel == From
    requires ec.Some? ==> HasLabel(s5, ec.value.id, CategoryLabel) && NameOf(s5.nodes[ec.value.id]) == ec.value.text
    ensures LinkedRef(s5, id, CategorizedAs, CategoryLabel) == ec
  {
    FirstTargetOthers(s5, s.edges, id, CategorizedAs, CategoryLabel);
    FirstTargetOthers(s5, ne, id, CategorizedAs, CategoryLabel);
    FirstTargetAppend(s5, s.edges, ce, id, CategorizedAs, CategoryLabel);
    FirstTargetAppend(s5, s.edges + ce, ne, id, CategorizedAs, CategoryLabel);
    if ec.None? {
      FirstTargetOthers(s5, ce, id, CategorizedAs, CategoryLabel);
    }
  }

  /** The nationality half of `LinkedAfterCreate`. */
  lemma NationalityAfterCreate(s: Store, s5: Store, id: string, ce: seq<Edge>, ne: seq<Edge>, en: Option<Ref>)
    requires forall i :: 0 <= i < |s.edges| ==> s.edges[i].src != id
    requires s5.edges == s.edges + ce + ne
    requires forall i :: 0 <= i < |ce| ==> ce[i].rel == CategorizedAs
    requires ne == (if en.Some? then [Edge(id, From, en.value.id)] else [])
    requires en.Some? ==> HasLabel(s5, en.value.id, NationalityLabel) && NameOf(s5.nodes[en.value.id]) == en.value.text
    ensures LinkedRef(s5, id, From, NationalityLabel) == en
  {
    FirstTargetOthers(s5, s.edges, id, From, NationalityLabel);
    FirstTargetOthers(s5, ce, id, From, NationalityLabel);
    FirstTargetAppend(s5, s.edges, ce, id, From, NationalityLabel);
    FirstTargetAppend(s5, s.edges + ce, ne, id, From, NationalityLabel);
    if en.None? {
      FirstTargetOthers(s5, ne, id, From, NationalityLabel);
    }
  }

  /** A file as `readById` gives it back once stored under `uuid`: `getFile`
      of the path the upload returned. */
  function StoredAs(userData: string, kind: FileType, owner: string, f: File, uuid: string): File {
    GetFile(StoredPath(userData, kind, owner, f.name, uuid))
  }

  /** An optional file as read back. */
  function StoredSlot(userData: string, kind: FileType, owner: string, f: Option<File>, uuid: string): Option<File> {
    if f.Some? then Some(StoredAs(userData, kind, owner, f.value, uuid)) else None
  }

  /** A run of files as read back, the first stored under `gen(base)`, each
      next one two uuids on. */
  function StoredFiles(userData: string, kind: FileType, owner: string, files: seq<File>, gen: UuidSource, base: nat): (r: seq<File>)
    ensures |r| == |files|
  {
    MapRun((f: File, k: nat) => StoredAs(userData, kind, owner, f, gen(k)), files, base)
  }

  /** Where the uuids of each file of `create` start: the avatar at 2, and
      each file present before a slot moves it on by two. */
  function IdCardBase(p: Person): nat {
    2 + 2 * |Slot(Avatar, p.image)|
  }

  function PassportBase(p: Person): nat {
    IdCardBase(p) + 2 * |Slot(IdCard, p.idImage)|
  }

  function AttachmentBase(p: Person): nat {
    PassportBase(p) + 2 * |Slot(Passport, p.passportImage)|
  }

  /** The files of `p` as read back after a `create` whose uploads all
      succeeded; every other field as given. */
  function StoredPerson(userData: string, p: Person, gen: UuidSource): Person {
    p.(image := StoredSlot(userData, Avatar, p.id, p.image, gen(2)),
       idImage := StoredSlot(userData, IdCard, p.id, p.idImage, gen(IdCardBase(p))),
       passportImage := StoredSlot(userData, Passport, p.id, p.passportImage, gen(PassportBase(p))),
       attachments := StoredFiles(userData, Attachment, p.id, p.attachments, gen, AttachmentBase(p)))
  }

  /** Hydrating from two runs of media is hydrating from one, then the other. */
  lemma {:induction false} HydrateAppend(q: Person, a: seq<Media>, b: seq<Media>)
    ensures Hydrate(q, a + b) == Hydrate(Hydrate(q, a), b)
    decreases |a|
  {
    if |a| == 0 {
      AppendEmptyLeft(b);
    } else {
      AppendHeadTail(a, b);
      HydrateAppend(Absorb(q, a[0]), a[1..], b);
    }
  }

  /** Hydrating from the media of one avatar, id or passport slot fills that
      slot, or leaves the person alone when the slot was empty. */
  lemma HydrateSlot(q: Person, userData: string, owner: string, kind: FileType, f: Option<File>, gen: UuidSource, base: nat)
    ensures Hydrate(q, ExpectedMedia(userData, owner, Slot(kind, f), gen, base)) ==
      if f.Some? then Absorb(q, ExpectedAt(userData, owner, PendingUpload(kind, f.value), gen, base)) else q
  {
    if f.Some? {
      var ups := Slot(kind, f);
      assert ups[1..] == [];
      var m := ExpectedAt(userData, owner, ups[0], gen, base);
      assert ExpectedMedia(userData, owner, ups, gen, base) == [m] + [];
      assert ([m] + [])[1..] == [];
    }
  }

  /** A person with the file of slot `kind` (the avatar, the id card or the
      passport) set to `f`. */
  function WithSlot(q: Person, kind: FileType, f: Option<File>): Person {
    match kind
    case Avatar => q.(image := f)
    case IdCard => q.(idImage := f)
    case Passport => q.(passportImage := f)
    case _ => q
  }

  /** Hydrating a person whose slot `kind` is still empty from the media of
      that slot's upload fills the slot with the file as read back. */
  lemma HydrateSlotStored(q: Person, userData: string, owner: string, kind: FileType, f: Option<File>, gen: UuidSource, base: nat)
    requires kind == Avatar || kind == IdCard || kind == Passport
    requires kind == Avatar ==> q.image.None?
    requires kind == IdCard ==> q.idImage.None?
    requires kind == Passport ==> q.passportImage.None?
    ensures Hydrate(q, ExpectedMedia(userData, owner, Slot(kind, f), gen, base)) ==
      WithSlot(q, kind, StoredSlot(userData, kind, owner, f, gen(base)))
  {
    HydrateSlot(q, userData, owner, kind, f, gen, base);
  }

  /** Hydrating from the media of a run of attachments appends each stored
      file, in order. */
  lemma {:induction false} HydrateAttachments(q: Person, userData: string, owner: string, files: seq<File>, gen: UuidSource, base: nat)
    ensures Hydrate(q, ExpectedMedia(userData, owner, AsUploads(Attachment, files), gen, base)) ==
      q.(attachments := q.attachments + StoredFiles(userData, Attachment, owner, files, gen, base))
    decreases |files|
  {
    var ups := AsUploads(Attachment, files);
    if |files| == 0 {
      AppendEmpty(q.attachments);
    } else {
      var next := base + 2;
      assert ups[1..] == AsUploads(Attachment, files[1..]);
      var m := ExpectedAt(userData, owner, ups[0], gen, base);
      var rest := ExpectedMedia(userData, owner, ups[1..], gen, next);
      assert ExpectedMedia(userData, owner, ups, gen, base) == [m] + rest;
      HydrateAppend(q, [m], rest);
      assert [m][1..] == [];
      var x := StoredAs(userData, Attachment, owner, files[0], gen(base));
      var q1 := Absorb(q, m);
      assert q1 == q.(attachments := q.attachments + [x]);
      HydrateAttachments(q1, userData, owner, files[1..], gen, next);
      AppendAssoc(q.attachments, [x], StoredFiles(userData, Attachment, owner, files[1..], gen, next));
    }
  }

  /** Hydrating a blank person with the media of `create`'s uploads gives
      every file of `p` as read back. */
  lemma HydrateUploads(p: Person, userData: string, gen: UuidSource)
    ensures Hydrate(NewPerson(p.id).(fields := p.fields), ExpectedMedia(userData, p.id, PersonUploads(p), gen, 2)) ==
      StoredPerson(userData, p, gen).(category := Ref("", ""), nationality := Ref("", ""))
  {
    var q0 := NewPerson(p.id).(fields := p.fields);
    HydrateUploadsSplit(q0, p, userData, gen);
    HydrateInTurn(q0, p, userData, gen);
  }

  /** Hydrating a person with no files from the avatar's, the id card's, the
      passport's and the attachments' media in turn stores each of them. */
  lemma HydrateInTurn(q0: Person, p: Person, userData: string, gen: UuidSource)
    requires q0.image.None? && q0.idImage.None? && q0.passportImage.None? && q0.attachments == []
    ensures Hydrate(Hydrate(Hydrate(Hydrate(q0,
        ExpectedMedia(userData, p.id, Slot(Avatar, p.image), gen, 2)),
        ExpectedMedia(userData, p.id, Slot(IdCard, p.idImage), gen, IdCardBase(p))),
        ExpectedMedia(userData, p.id, Slot(Passport, p.passportImage), gen, PassportBase(p))),
        ExpectedMedia(userData, p.id, AsUploads(Attachment, p.attachments), gen, AttachmentBase(p))) ==
      q0.(image := StoredSlot(userData, Avatar, p.id, p.image, gen(2)),
          idImage := StoredSlot(userData, IdCard, p.id, p.idImage, gen(IdCardBase(p))),
          passportImage := StoredSlot(userData, Passport, p.id, p.passportImage, gen(PassportBase(p))),
          attachments := StoredFiles(userData, Attachment, p.id, p.attachments, gen, AttachmentBase(p)))
  {
    var q1 := Hydrate(q0, ExpectedMedia(userData, p.id, Slot(Avatar, p.image), gen, 2));
    HydrateSlotStored(q0, userData, p.id, Avatar, p.image, gen, 2);
    var q2 := Hydrate(q1, ExpectedMedia(userData, p.id, Slot(IdCard, p.idImage), gen, IdCardBase(p)));
    HydrateSlotStored(q1, userData, p.id, IdCard, p.idImage, gen, IdCardBase(p));
    var q3 := Hydrate(q2, ExpectedMedia(userData, p.id, Slot(Passport, p.passportImage), gen, PassportBase(p)));
    HydrateSlotStored(q2, userData, p.id, Passport, p.passportImage, gen, PassportBase(p));
    HydrateAttachments(q3, userData, p.id, p.attachments, gen, AttachmentBase(p));
    AppendEmptyLeft(StoredFiles(userData, Attachment, p.id, p.attachments, gen, AttachmentBase(p)));
  }

  /** Hydrating from the media of all of a person's uploads is hydrating
      from the avatar's, the id card's, the passport's and then the
      attachments' media in turn. */
  lemma HydrateUploadsSplit(q0: Person, p: Person, userData: string, gen: UuidSource)
    ensures Hydrate(q0, ExpectedMedia(userData, p.id, PersonUploads(p), gen, 2)) ==
      Hydrate(Hydrate(Hydrate(Hydrate(q0,
        ExpectedMedia(userData, p.id, Slot(Avatar, p.image), gen, 2)),
        ExpectedMedia(userData, p.id, Slot(IdCard, p.idImage), gen, IdCardBase(p))),
        ExpectedMedia(userData, p.id, Slot(Passport, p.passportImage), gen, PassportBase(p))),
        ExpectedMedia(userData, p.id, AsUploads(Attachment, p.attachments), gen, AttachmentBase(p)))
  {
    var a := Slot(Avatar, p.image);
    var i := Slot(IdCard, p.idImage);
    var ps := Slot(Passport, p.passportImage);
    var t := AsUploads(Attachment, p.attachments);
    var ea := ExpectedMedia(userData, p.id, a, gen, 2);
    var ei := ExpectedMedia(userData, p.id, i, gen, IdCardBase(p));
    var ep := ExpectedMedia(userData, p.id, ps, gen, PassportBase(p));
    var et := ExpectedMedia(userData, p.id, t, gen, AttachmentBase(p));
    ExpectedMediaAppend(userData, p.id, a, i, gen, 2, IdCardBase(p));
    ExpectedMediaAppend(userData, p.id, a + i, ps, gen, 2, PassportBase(p));
    ExpectedMediaAppend(userData, p.id, a + i + ps, t, gen, 2, AttachmentBase(p));
    assert ExpectedMedia(userData, p.id, PersonUploads(p), gen, 2) == ea + ei + ep + et;
    HydrateAppend(q0, ea + ei + ep, et);
    HydrateAppend(q0, ea + ei, ep);
    HydrateAppend(q0, ea, ei);
  }

  /** `HAS` relationships added after the others leave a category or
      nationality lookup where it was. */
  lemma LinkedAfterUploads(s: Store, t: Store, id: string, h: seq<Edge>, rel: Rel, l: NodeLabel)
    requires Valid(s)
    requires forall k :: k in s.nodes ==> k in t.nodes && t.nodes[k] == s.nodes[k]
    requires t.edges == s.edges + h
    requires forall i :: 0 <= i < |h| ==> h[i].rel == Has
    requires rel != Has
    ensures LinkedRef(t, id, rel, l) == LinkedRef(s, id, rel, l)
  {
    FirstTargetAppend(t, s.edges, h, id, rel, l);
    FirstTargetOthers(t, h, id, rel, l);
    FirstTargetStable(s, t, s.edges, id, rel, l);
  }

  /** A `create` on new ids whose uploads all succeed reads back as the
      person given: same id and fields, every file as stored under its uuid,
      and the category and nationality the UUID rule links to (an empty
      reference when a UUIDv4 names no such node). */
  lemma CreateThenRead(w: World, p: Person, gen: UuidSource)
    requires Valid(w.db)
    requires p.id !in w.db.nodes && gen(0) !in w.db.nodes && gen(1) !in w.db.nodes
    requires p.id != gen(0) && p.id != gen(1) && gen(0) != gen(1)
    requires FreshMediaIds(w.db, gen, 2, |PersonUploads(p)|)
    requires p.id !in MediaIds(gen, 2, |PersonUploads(p)|)
    requires gen(0) !in MediaIds(gen, 2, |PersonUploads(p)|) && gen(1) !in MediaIds(gen, 2, |PersonUploads(p)|)
    requires Create(w, p, gen).Done?
    ensures Valid(Create(w, p, gen).w.db)
    ensures ReadById(Create(w, p, gen).w.db, p.id) == Success(StoredPerson(w.fs.userData, p, gen).(
      category := ExpectedLink(w.db, p.category, gen(0), CategoryLabel).GetOr(Ref("", "")),
      nationality := ExpectedLink(w.db, p.nationality, gen(1), NationalityLabel).GetOr(Ref("", ""))))
  {
    var ups := PersonUploads(p);
    var w1 := World(CreateRecord(w.db, p, gen), w.fs);
    CreateRecordShape(w.db, p, gen);
    CreateRecordLinks(w.db, p, gen);
    CreateRecordReady(w, p, gen);
    RunThenRead(w1, p, gen,
      ExpectedLink(w.db, p.category, gen(0), CategoryLabel), ExpectedLink(w.db, p.nationality, gen(1), NationalityLabel));
  }

  /** The uploads of `create` are ready to run on the new record. */
  lemma CreateRecordReady(w: World, p: Person, gen: UuidSource)
    requires Valid(w.db)
    requires p.id !in w.db.nodes && gen(0) !in w.db.nodes && gen(1) !in w.db.nodes
    requires p.id != gen(0) && p.id != gen(1) && gen(0) != gen(1)
    requires FreshMediaIds(w.db, gen, 2, |PersonUploads(p)|)
    requires p.id !in MediaIds(gen, 2, |PersonUploads(p)|)
    requires gen(0) !in MediaIds(gen, 2, |PersonUploads(p)|) && gen(1) !in MediaIds(gen, 2, |PersonUploads(p)|)
    requires Create(w, p, gen).Done?
    ensures RunReady(World(CreateRecord(w.db, p, gen), w.fs), p.id, PersonLabel, PersonUploads(p), gen, 2)
  {
    CreateRecordShape(w.db, p, gen);
    FreshMediaIdsGrow(w.db, CreateRecord(w.db, p, gen), gen, 2, |PersonUploads(p)|, p.id, gen(0), gen(1));
  }

  /** A completed run of a person's uploads on a new record `w1` (its own
      links, no `HAS` relationship) reads back as the person with every file
      as stored. */
  lemma RunThenRead(w1: World, p: Person, gen: UuidSource, ec: Option<Ref>, en: Option<Ref>)
    requires RunReady(w1, p.id, PersonLabel, PersonUploads(p), gen, 2)
    requires w1.db.nodes[p.id] == PersonNode(p.fields)
    requires forall i :: 0 <= i < |w1.db.edges| && w1.db.edges[i].src == p.id ==> w1.db.edges[i].rel != Has
    requires LinkedRef(w1.db, p.id, CategorizedAs, CategoryLabel) == ec
    requires LinkedRef(w1.db, p.id, From, NationalityLabel) == en
    ensures var f := AttachAll(w1, p.id, PersonLabel, PersonUploads(p), gen, 2).w.db;
      && Valid(f)
      && ReadById(f, p.id) == Success(StoredPerson(w1.fs.userData, p, gen).(
           category := ec.GetOr(Ref("", "")), nationality := en.GetOr(Ref("", ""))))
  {
    var ups := PersonUploads(p);
    AttachAllShape(w1, p.id, PersonLabel, ups, gen, 2);
    AttachAllEdges(w1, p.id, PersonLabel, ups, gen, 2);
    AttachAllMedia(w1, p.id, PersonLabel, ups, gen, 2);
    ReadAfterUploads(w1.db, AttachAll(w1, p.id, PersonLabel, ups, gen, 2).w.db, p, w1.fs.userData, gen, ec, en);
  }

  /** A new person record `s1` with its own links and no `HAS` relationship,
      followed by the relationships and media of its uploads, reads back as
      the person with every file as stored and those links. */
  lemma ReadAfterUploads(s1: Store, f: Store, p: Person, userData: string, gen: UuidSource, ec: Option<Ref>, en: Option<Ref>)
    requires Valid(s1) && HasLabel(s1, p.id, PersonLabel) && s1.nodes[p.id] == PersonNode(p.fields)
    requires forall i :: 0 <= i < |s1.edges| && s1.edges[i].src == p.id ==> s1.edges[i].rel != Has
    requires LinkedRef(s1, p.id, CategorizedAs, CategoryLabel) == ec
    requires LinkedRef(s1, p.id, From, NationalityLabel) == en
    requires Grows(s1, f)
    requires f.edges == s1.edges + HasEdgesTo(p.id, gen, 2, |PersonUploads(p)|)
    requires HasMedia(f, f.edges, p.id) == HasMedia(s1, s1.edges, p.id) + ExpectedMedia(userData, p.id, PersonUploads(p), gen, 2)
    ensures ReadById(f, p.id) == Success(StoredPerson(userData, p, gen).(
      category := ec.GetOr(Ref("", "")), nationality := en.GetOr(Ref("", ""))))
  {
    var h := HasEdgesTo(p.id, gen, 2, |PersonUploads(p)|);
    LinkedAfterUploads(s1, f, p.id, h, CategorizedAs, CategoryLabel);
    LinkedAfterUploads(s1, f, p.id, h, From, NationalityLabel);
    HasMediaOthers(s1, s1.edges, p.id);
    var e := ExpectedMedia(userData, p.id, PersonUploads(p), gen, 2);
    AppendEmptyLeft(e);
    assert HasMedia(f, f.edges, p.id) == e;
    HydrateUploads(p, userData, gen);
  }

  /** The uuid the file at position `i` of a run takes. */
  function FileUuidAt(gen: UuidSource, base: nat, i: nat): string {
    gen(base + 2 * i)
  }

  /** A file stored under a UUIDv4 reads back named by its stored name, as
      long as its own name holds no '/'. */
  lemma StoredAsName(userData: string, kind: FileType, owner: string, f: File, uuid: string)
    requires NoSlash(f.name) && Uuid.IsUUIDv4(uuid)
    ensures StoredAs(userData, kind, owner, f, uuid) == File(StoredPath(userData, kind, owner, f.name, uuid), StoredName(f.name, uuid))
  {
    UUIDv4NoSlash(uuid);
    StoredFileRead(userData, kind, owner, f.name, uuid);
  }

  /** A UUIDv4 is a single path component. */
  lemma UUIDv4NoSlash(u: string)
    requires Uuid.IsUUIDv4(u)
    ensures NoSlash(u)
  {
    Uuid.UUIDv4Chars(u);
  }

  /** The file at position `i` of a run is read back from the stored path
      its position's uuid gives it. */
  lemma StoredFilesAt(userData: string, kind: FileType, owner: string, files: seq<File>, gen: UuidSource, base: nat, i: nat)
    requires i < |files|
    ensures StoredFiles(userData, kind, owner, files, gen, base)[i] == StoredAs(userData, kind, owner, files[i], FileUuidAt(gen, base, i))
  {
    MapRunAt((f: File, k: nat) => StoredAs(userData, kind, owner, f, gen(k)), files, base, i);
  }

  /** Each file of a run reads back named by the stored name its position's
      uuid gives it, when names and uuids are single path components (every
      UUIDv4 is, by `UUIDv4NoSlash`). */
  lemma StoredFilesNames(userData: string, kind: FileType, owner: string, files: seq<File>, gen: UuidSource, base: nat)
    requires forall i :: 0 <= i < |files| ==> NoSlash(files[i].name)
    requires forall i: nat :: i < |files| ==> NoSlash(FileUuidAt(gen, base, i))
    ensures forall i :: 0 <= i < |files| ==>
      StoredFiles(userData, kind, owner, files, gen, base)[i].name == StoredName(files[i].name, FileUuidAt(gen, base, i))
  {
    forall i | 0 <= i < |files|
      ensures StoredFiles(userData, kind, owner, files, gen, base)[i].name == StoredName(files[i].name, FileUuidAt(gen, base, i))
    {
      StoredFilesAt(userData, kind, owner, files, gen, base, i);
      StoredFileRead(userData, kind, owner, files[i].name, FileUuidAt(gen, base, i));
    }
  }

  /** With UUIDv4 uuids and slash-free file names, every file of a created
      person reads back under the uuid-suffixed name `upload` stored it as. */
  lemma StoredPersonNames(userData: string, p: Person, gen: UuidSource)
    requires forall k: nat :: Uuid.IsUUIDv4(gen(k))
    requires p.image.Some? ==> NoSlash(p.image.value.name)
    requires p.idImage.Some? ==> NoSlash(p.idImage.value.name)
    requires p.passportImage.Some? ==> NoSlash(p.passportImage.value.name)
    requires forall i :: 0 <= i < |p.attachments| ==> NoSlash(p.attachments[i].name)
    ensures var q := StoredPerson(userData, p, gen);
      && (p.image.Some? ==> q.image.value.name == StoredName(p.image.value.name, gen(2)))
      && (p.idImage.Some? ==> q.idImage.value.name == StoredName(p.idImage.value.name, gen(IdCardBase(p))))
      && (p.passportImage.Some? ==> q.passportImage.value.name == StoredName(p.passportImage.value.name, gen(PassportBase(p))))
      && (forall i :: 0 <= i < |p.attachments| ==>
            q.attachments[i].name == StoredName(p.attachments[i].name, FileUuidAt(gen, AttachmentBase(p), i)))
  {
    if p.image.Some? {
      StoredAsName(userData, Avatar, p.id, p.image.value, gen(2));
    }
    if p.idImage.Some? {
      StoredAsName(userData, IdCard, p.id, p.idImage.value, gen(IdCardBase(p)));
    }
    if p.passportImage.Some? {
      StoredAsName(userData, Passport, p.id, p.passportImage.value, gen(PassportBase(p)));
    }
    forall i: nat | i < |p.attachments|
      ensures NoSlash(FileUuidAt(gen, AttachmentBase(p), i))
    {
      UUIDv4NoSlash(FileUuidAt(gen, AttachmentBase(p), i));
    }
    StoredFilesNames(userData, Attachment, p.id, p.attachments, gen, AttachmentBase(p));
  }

  // ------------------------------------------------------------- delete

  /** Removing one optional slot file: like `RemoveStoredEffect`, and
      nothing happens for an empty slot. */
  lemma RemoveSlotEffect(w: World, owner: string, kind: FileType, f: Option<File>)
    requires Valid(w.db)
    requires RemoveSlot(w, owner, kind, f).Done?
    ensures var w' := RemoveSlot(w, owner, kind, f).w;
      && Valid(w'.db)
      && (forall k :: k in w'.db.nodes ==> k in w.db.nodes && w'.db.nodes[k] == w.db.nodes[k])
      && (forall k :: k in w.db.nodes && !w.db.nodes[k].MediaNode? ==> k in w'.db.nodes)
      && w'.fs.userData == w.fs.userData
      && (f.Some? ==> Lookup(w'.fs, kind, owner, f.value.name).None?)
      && (forall t', n', name' :: t' != kind || n' != owner ==> Lookup(w'.fs, t', n', name') == Lookup(w.fs, t', n', name'))
  {
    if f.Some? {
      RemoveStoredEffect(w, owner, kind, f.value.name);
    }
  }

  /** A completed `delete` of a stored person: the person no longer reads
      back; the nodes its non-`CATEGORIZED_AS` relationships reached (its
      media and its nationality) are gone; a node it reaches only by
      `CATEGORIZED_AS` (its category) stays, as does every other node that is
      not a Media node; every file read back before is deleted from the
      person's folders; no other owner's file changes. */
  lemma DeleteEffect(w: World, id: string, k: string)
    requires Valid(w.db)
    requires HasLabel(w.db, id, PersonLabel)
    requires Delete(w, id).Done?
    ensures var w' := Delete(w, id).w;
      var prev := ReadById(w.db, id).value;
      && ReadById(w'.db, id) == Failure("No such a person")
      && Valid(w'.db)
      && (forall j :: j in w'.db.nodes ==> j in w.db.nodes && w'.db.nodes[j] == w.db.nodes[j])
      && ((exists i :: 0 <= i < |w.db.edges| && w.db.edges[i].src == id && w.db.edges[i].rel != CategorizedAs && w.db.edges[i].dst == k) ==>
            k !in w'.db.nodes)
      && (k in w.db.nodes && k != id && !w.db.nodes[k].MediaNode? &&
          (forall i :: 0 <= i < |w.db.edges| && w.db.edges[i].src == id && w.db.edges[i].dst == k ==> w.db.edges[i].rel == CategorizedAs) ==>
            k in w'.db.nodes)
      && w'.fs.userData == w.fs.userData
      && (forall i :: 0 <= i < |prev.attachments| ==> Lookup(w'.fs, Attachment, id, prev.attachments[i].name).None?)
      && (prev.image.Some? ==> Lookup(w'.fs, Avatar, id, prev.image.value.name).None?)
      && (prev.idImage.Some? ==> Lookup(w'.fs, IdCard, id, prev.idImage.value.name).None?)
      && (prev.passportImage.Some? ==> Lookup(w'.fs, Passport, id, prev.passportImage.value.name).None?)
      && (forall t', n', name' :: n' != id ==> Lookup(w'.fs, t', n', name') == Lookup(w.fs, t', n', name'))
  {
    var prev := ReadById(w.db, id).value;
    var w0 := World(DeletePerson(w.db, id), w.fs);
    DeletePersonEffect(w.db, id, k);
    RemoveFilesEffect(w0, prev);
  }

  /** What the media part of `delete` does to a valid store: it stays valid,
      only media nodes go, the files read back are gone, and the folders of
      every other owner are untouched. */
  lemma RemoveFilesEffect(w: World, prev: Person)
    requires Valid(w.db)
    requires RemoveFiles(w, prev).Done?
    ensures var w' := RemoveFiles(w, prev).w;
      && Valid(w'.db)
      && (forall k :: k in w'.db.nodes ==> k in w.db.nodes && w'.db.nodes[k] == w.db.nodes[k])
      && (forall k :: k in w.db.nodes && !w.db.nodes[k].MediaNode? ==> k in w'.db.nodes)
      && w'.fs.userData == w.fs.userData
      && (forall i :: 0 <= i < |prev.attachments| ==> Lookup(w'.fs, Attachment, prev.id, prev.attachments[i].name).None?)
      && (prev.image.Some? ==> Lookup(w'.fs, Avatar, prev.id, prev.image.value.name).None?)
      && (prev.idImage.Some? ==> Lookup(w'.fs, IdCard, prev.id, prev.idImage.value.name).None?)
      && (prev.passportImage.Some? ==> Lookup(w'.fs, Passport, prev.id, prev.passportImage.value.name).None?)
      && (forall t', n', name' :: n' != prev.id ==> Lookup(w'.fs, t', n', name') == Lookup(w.fs, t', n', name'))
  {
    RemoveFilesStore(w, prev);
    RemoveFilesDisk(w, prev);
  }

  /** The store half of `RemoveFilesEffect`. */
  lemma RemoveFilesStore(w: World, prev: Person)
    requires Valid(w.db)
    requires RemoveFiles(w, prev).Done?
    ensures var w' := RemoveFiles(w, prev).w;
      && Valid(w'.db)
      && (forall k :: k in w'.db.nodes ==> k in w.db.nodes && w'.db.nodes[k] == w.db.nodes[k])
      && (forall k :: k in w.db.nodes && !w.db.nodes[k].MediaNode? ==> k in w'.db.nodes)
  {
    var w1 := RemoveAll(w, prev.id, Attachment, prev.attachments).w;
    RemoveAllEffect(w, prev.id, Attachment, prev.attachments);
    RemoveSlotsStore(w1, prev);
  }

  /** The file half of `RemoveFilesEffect`. */
  lemma RemoveFilesDisk(w: World, prev: Person)
    requires Valid(w.db)
    requires RemoveFiles(w, prev).Done?
    ensures var w' := RemoveFiles(w, prev).w;
      && w'.fs.userData == w.fs.userData
      && (forall i :: 0 <= i < |prev.attachments| ==> Lookup(w'.fs, Attachment, prev.id, prev.attachments[i].name).None?)
      && (prev.image.Some? ==> Lookup(w'.fs, Avatar, prev.id, prev.image.value.name).None?)
      && (prev.idImage.Some? ==> Lookup(w'.fs, IdCard, prev.id, prev.idImage.value.name).None?)
      && (prev.passportImage.Some? ==> Lookup(w'.fs, Passport, prev.id, prev.passportImage.value.name).None?)
      && (forall t', n', name' :: n' != prev.id ==> Lookup(w'.fs, t', n', name') == Lookup(w.fs, t', n', name'))
  {
    var w1 := RemoveAll(w, prev.id, Attachment, prev.attachments).w;
    RemoveAllEffect(w, prev.id, Attachment, prev.attachments);
    RemoveSlotsDisk(w1, prev);
  }

  /** The store half of `RemoveSlots`. */
  lemma RemoveSlotsStore(w: World, prev: Person)
    requires Valid(w.db)
    requires RemoveSlots(w, prev).Done?
    ensures var w' := RemoveSlots(w, prev).w;
      && Valid(w'.db)
      && (forall k :: k in w'.db.nodes ==> k in w.db.nodes && w'.db.nodes[k] == w.db.nodes[k])
      && (forall k :: k in w.db.nodes && !w.db.nodes[k].MediaNode? ==> k in w'.db.nodes)
  {
    var id := prev.id;
    var w2 := RemoveSlot(w, id, Avatar, prev.image).w;
    RemoveSlotEffect(w, id, Avatar, prev.image);
    var w3 := RemoveSlot(w2, id, IdCard, prev.idImage).w;
    RemoveSlotEffect(w2, id, IdCard, prev.idImage);
    RemoveSlotEffect(w3, id, Passport, prev.passportImage);
  }

  /** The file half of `RemoveSlots`: the three slot files are gone and every
      attachment and every other owner's file is as it was. */
  lemma RemoveSlotsDisk(w: World, prev: Person)
    requires Valid(w.db)
    requires RemoveSlots(w, prev).Done?
    ensures var w' := RemoveSlots(w, prev).w;
      && w'.fs.userData == w.fs.userData
      && (prev.image.Some? ==> Lookup(w'.fs, Avatar, prev.id, prev.image.value.name).None?)
      && (prev.idImage.Some? ==> Lookup(w'.fs, IdCard, prev.id, prev.idImage.value.name).None?)
      && (prev.passportImage.Some? ==> Lookup(w'.fs, Passport, prev.id, prev.passportImage.value.name).None?)
      && (forall t', n', name' :: n' != prev.id || t' == Attachment ==> Lookup(w'.fs, t', n', name') == Lookup(w.fs, t', n', name'))
  {
    var id := prev.id;
    var w2 := RemoveSlot(w, id, Avatar, prev.image).w;
    RemoveSlotEffect(w, id, Avatar, prev.image);
    var w3 := RemoveSlot(w2, id, IdCard, prev.idImage).w;
    RemoveSlotEffect(w2, id, IdCard, prev.idImage);
    RemoveSlotEffect(w3, id, Passport, prev.passportImage);
  }

  // ------------------------------------------------------------- update

  /** Resolving a reference: the relationships stay, at most the fresh node
      is added, and the id used is the one `ExpectedLink` predicts, or an id
      that names no node of that label. */
  lemma ResolveEffect(s: Store, r: Ref, freshId: string, l: NodeLabel)
    requires l == CategoryLabel || l == NationalityLabel
    requires Valid(s)
    requires freshId !in s.nodes
    ensures var c := Resolve(s, r, freshId, l);
      var e := ExpectedLink(s, r, freshId, l);
      && c.0.edges == s.edges
      && Valid(c.0)
      && (forall k :: k in s.nodes ==> k in c.0.nodes && c.0.nodes[k] == s.nodes[k])
      && c.0.nodes.Keys <= s.nodes.Keys + {freshId}
      && (freshId in c.0.nodes ==> LabelOf(c.0.nodes[freshId]) == l)
      && (e.Some? ==> c.1 == e.value.id && HasLabel(c.0, c.1, l) && NameOf(c.0.nodes[c.1]) == e.value.text)
      && (e.None? ==> !HasLabel(c.0, c.1, l))
  {
  }

  /** One relink step: the store stays valid and keeps its nodes; the number
      of `rel` relationships and of any other type `rel2` stays, the other
      type's lookup is undisturbed, and when the person had a `rel`
      relationship and the reference resolves, that is what reads back. */
  lemma RelinkStepEffect(t: Store, id: string, rel: Rel, r: Ref, freshId: string, l: NodeLabel, rel2: Rel, l2: NodeLabel)
    requires l == CategoryLabel || l == NationalityLabel
    requires Valid(t)
    requires HasLabel(t, id, PersonLabel)
    requires freshId !in t.nodes
    requires rel2 != rel
    ensures var t' := RelinkStep(t, id, rel, r, freshId, l);
      var e := ExpectedLink(t, r, freshId, l);
      && Valid(t')
      && (forall k :: k in t.nodes ==> k in t'.nodes && t'.nodes[k] == t.nodes[k])
      && t'.nodes.Keys <= t.nodes.Keys + {freshId}
      && (freshId in t'.nodes ==> LabelOf(t'.nodes[freshId]) == l)
      && OutCount(t', id, rel) == OutCount(t, id, rel)
      && OutCount(t', id, rel2) == OutCount(t, id, rel2)
      && FirstTarget(t', t'.edges, id, rel2, l2) == FirstTarget(t', t.edges, id, rel2, l2)
      && (e.Some? && OutCount(t, id, rel) > 0 ==> LinkedRef(t', id, rel, l) == e)
  {
    var c := Resolve(t, r, freshId, l);
    ResolveEffect(t, r, freshId, l);
    var t' := Relink(c.0, id, rel, c.1, l);
    RelinkEffect(c.0, id, rel, c.1, l);
    RelinkOthers(c.0, id, rel, c.1, l, rel2, t', l2);
    if ExpectedLink(t, r, freshId, l).Some? && OutCount(t, id, rel) > 0 {
      RelinkStepReads(t, id, rel, r, freshId, l);
    }
  }

  /** A relink step whose reference resolves, for a person that had a `rel`
      relationship, reads back as the resolved reference. */
  lemma RelinkStepReads(t: Store, id: string, rel: Rel, r: Ref, freshId: string, l: NodeLabel)
    requires l == CategoryLabel || l == NationalityLabel
    requires Valid(t)
    requires HasLabel(t, id, PersonLabel)
    requires freshId !in t.nodes
    requires ExpectedLink(t, r, freshId, l).Some? && OutCount(t, id, rel) > 0
    ensures LinkedRef(RelinkStep(t, id, rel, r, freshId, l), id, rel, l) == ExpectedLink(t, r, freshId, l)
  {
    var c := Resolve(t, r, freshId, l);
    ResolveEffect(t, r, freshId, l);
    var t' := Relink(c.0, id, rel, c.1, l);
    RelinkEffect(c.0, id, rel, c.1, l);
    assert OutCount(c.0, id, rel) == OutCount(t, id, rel);
    RelinkReaches(c.0, id, rel, c.1, l);
    FirstTargetAllTo(t', t'.edges, id, rel, l, c.1);
  }

  /** Two stores that agree on their nodes of label `l` expect the same link. */
  lemma ExpectedLinkSame(s: Store, t: Store, r: Ref, freshId: string, l: NodeLabel)
    requires forall k :: k in s.nodes && LabelOf(s.nodes[k]) == l ==> k in t.nodes && t.nodes[k] == s.nodes[k]
    requires forall k :: k in t.nodes && LabelOf(t.nodes[k]) == l ==> k in s.nodes && s.nodes[k] == t.nodes[k]
    ensures ExpectedLink(t, r, freshId, l) == ExpectedLink(s, r, freshId, l)
  {
  }

  /** The record part of `update` for a stored person: the node holds the new
      fields; a category or nationality reference that resolves replaces the
      one read back, provided the person already had such a relationship;
      and the number of each kind of relationship never changes, so a person
      stored without a category or nationality link does not gain one. */
  lemma UpdateRecordLinks(s: Store, p: Person, gen: UuidSource)
    requires Valid(s)
    requires HasLabel(s, p.id, PersonLabel)
    requires gen(0) !in s.nodes && gen(1) !in s.nodes && gen(0) != gen(1)
    ensures var s' := UpdateRecord(s, p.id, p, gen);
      var ec := ExpectedLink(s, p.category, gen(0), CategoryLabel);
      var en := ExpectedLink(s, p.nationality, gen(1), NationalityLabel);
      && Valid(s')
      && HasLabel(s', p.id, PersonLabel) && s'.nodes[p.id] == PersonNode(p.fields)
      && OutCount(s', p.id, CategorizedAs) == OutCount(s, p.id, CategorizedAs)
      && OutCount(s', p.id, From) == OutCount(s, p.id, From)
      && (ec.Some? && OutCount(s, p.id, CategorizedAs) > 0 ==> LinkedRef(s', p.id, CategorizedAs, CategoryLabel) == ec)
      && (en.Some? && OutCount(s, p.id, From) > 0 ==> LinkedRef(s', p.id, From, NationalityLabel) == en)
  {
    UpdateRecordKeeps(s, p, gen);
    UpdateRecordRelinks(s, p, gen);
  }

  /** The node and count half of `UpdateRecordLinks`. */
  lemma UpdateRecordKeeps(s: Store, p: Person, gen: UuidSource)
    requires Valid(s)
    requires HasLabel(s, p.id, PersonLabel)
    requires gen(0) !in s.nodes && gen(1) !in s.nodes && gen(0) != gen(1)
    ensures var s' := UpdateRecord(s, p.id, p, gen);
      && Valid(s')
      && HasLabel(s', p.id, PersonLabel) && s'.nodes[p.id] == PersonNode(p.fields)
      && OutCount(s', p.id, CategorizedAs) == OutCount(s, p.id, CategorizedAs)
      && OutCount(s', p.id, From) == OutCount(s, p.id, From)
  {
    UpdateCategoryStage(s, p, gen);
    var s3 := RelinkStep(SetPerson(s, p.id, p.fields), p.id, CategorizedAs, p.category, gen(0), CategoryLabel);
    RelinkStepEffect(s3, p.id, From, p.nationality, gen(1), NationalityLabel, CategorizedAs, CategoryLabel);
  }

  /** The relinking half of `UpdateRecordLinks`. */
  lemma UpdateRecordRelinks(s: Store, p: Person, gen: UuidSource)
    requires Valid(s)
    requires HasLabel(s, p.id, PersonLabel)
    requires gen(0) !in s.nodes && gen(1) !in s.nodes && gen(0) != gen(1)
    ensures var s' := UpdateRecord(s, p.id, p, gen);
      var ec := ExpectedLink(s, p.category, gen(0), CategoryLabel);
      var en := ExpectedLink(s, p.nationality, gen(1), NationalityLabel);
      && (ec.Some? && OutCount(s, p.id, CategorizedAs) > 0 ==> LinkedRef(s', p.id, CategorizedAs, CategoryLabel) == ec)
      && (en.Some? && OutCount(s, p.id, From) > 0 ==> LinkedRef(s', p.id, From, NationalityLabel) == en)
  {
    UpdateCategoryStage(s, p, gen);
    var s3 := RelinkStep(SetPerson(s, p.id, p.fields), p.id, CategorizedAs, p.category, gen(0), CategoryLabel);
    var s5 := RelinkStep(s3, p.id, From, p.nationality, gen(1), NationalityLabel);
    RelinkStepEffect(s3, p.id, From, p.nationality, gen(1), NationalityLabel, CategorizedAs, CategoryLabel);
    LinkedRefStable(s3, s5, p.id, CategorizedAs, CategoryLabel);
  }

  /** The store between the two relink steps of `update`: what the second
      step needs, and what the first one already achieved. */
  lemma UpdateCategoryStage(s: Store, p: Person, gen: UuidSource)
    requires Valid(s)
    requires HasLabel(s, p.id, PersonLabel)
    requires gen(0) !in s.nodes && gen(1) !in s.nodes && gen(0) != gen(1)
    ensures var s3 := RelinkStep(SetPerson(s, p.id, p.fields), p.id, CategorizedAs, p.category, gen(0), CategoryLabel);
      var ec := ExpectedLink(s, p.category, gen(0), CategoryLabel);
      && Valid(s3)
      && HasLabel(s3, p.id, PersonLabel) && s3.nodes[p.id] == PersonNode(p.fields)
      && gen(1) !in s3.nodes
      && OutCount(s3, p.id, CategorizedAs) == OutCount(s, p.id, CategorizedAs)
      && OutCount(s3, p.id, From) == OutCount(s, p.id, From)
      && ExpectedLink(s3, p.nationality, gen(1), NationalityLabel) == ExpectedLink(s, p.nationality, gen(1), NationalityLabel)
      && (ec.Some? && OutCount(s, p.id, CategorizedAs) > 0 ==> LinkedRef(s3, p.id, CategorizedAs, CategoryLabel) == ec)
  {
    var s1 := SetPerson(s, p.id, p.fields);
    SetPersonExpected(s, p.id, p.fields, p.category, gen(0), CategoryLabel);
    RelinkStepEffect(s1, p.id, CategorizedAs, p.category, gen(0), CategoryLabel, From, NationalityLabel);
    var s3 := RelinkStep(s1, p.id, CategorizedAs, p.category, gen(0), CategoryLabel);
    assert forall k :: k in s.nodes && k != p.id ==> k in s3.nodes && s3.nodes[k] == s.nodes[k];
    OtherLabelsAgree(s, s3, p.id, gen(0), CategoryLabel, p.nationality, gen(1), NationalityLabel);
  }

  /** A step that rewrites only the person's node and may add one node of
      another label changes no lookup by the label `l`. */
  lemma OtherLabelsAgree(s: Store, t: Store, id: string, added: string, l0: NodeLabel, r: Ref, freshId: string, l: NodeLabel)
    requires HasLabel(s, id, PersonLabel) && HasLabel(t, id, PersonLabel)
    requires l != PersonLabel && l != l0
    requires t.nodes.Keys <= s.nodes.Keys + {added}
    requires added in t.nodes ==> LabelOf(t.nodes[added]) == l0
    requires forall k :: k in s.nodes && k != id ==> k in t.nodes && t.nodes[k] == s.nodes[k]
    ensures ExpectedLink(t, r, freshId, l) == ExpectedLink(s, r, freshId, l)
  {
    ExpectedLinkSame(s, t, r, freshId, l);
  }

  /** Rewriting the person's own node changes no category or nationality lookup. */
  lemma SetPersonExpected(s: Store, id: string, f: PersonFields, r: Ref, freshId: string, l: NodeLabel)
    requires HasLabel(s, id, PersonLabel) && l != PersonLabel
    ensures ExpectedLink(SetPerson(s, id, f), r, freshId, l) == ExpectedLink(s, r, freshId, l)
  {
    ExpectedLinkSame(s, SetPerson(s, id, f), r, freshId, l);
  }

  /** A later step that keeps every node and whose new relationships do not
      change the first `rel` target leaves the linked reference alone. */
  lemma LinkedRefStable(s: Store, t: Store, id: string, rel: Rel, l: NodeLabel)
    requires Valid(s)
    requires forall k :: k in s.nodes ==> k in t.nodes && t.nodes[k] == s.nodes[k]
    requires FirstTarget(t, t.edges, id, rel, l) == FirstTarget(t, s.edges, id, rel, l)
    ensures LinkedRef(t, id, rel, l) == LinkedRef(s, id, rel, l)
  {
    FirstTargetStable(s, t, s.edges, id, rel, l);
  }
}

=== FILE: schemas.dfy ===
/** The yup schemas of src/models and the HTML `pattern` attributes of the
    person form. A schema `matches(re)` test is unanchored (the pattern may
    occur anywhere in the value) while a form `pattern` must match the whole
    value; both forms of the GPS and national-number patterns are defined here
    and related. */
module Schemas {
  import opened Wrappers
  import opened Seqs
  import opened Models
  import Uuid

  // ------------------------------------------------------ character classes

  /** `\d` and `[0-9]`: ASCII digits only. */
  predicate IsDigit(c: char) {
    '0' <= c <= '9'
  }

  /** `\s`: the ECMAScript white-space and line-terminator characters. */
  predicate IsSpace(c: char) {
    var n := c as int;
    || n == 0x09 || n == 0x0A || n == 0x0B || n == 0x0C || n == 0x0D || n == 0x20
    || n == 0xA0 || n == 0x1680 || (0x2000 <= n <= 0x200A) || n == 0x2028 || n == 0x2029
    || n == 0x202F || n == 0x205F || n == 0x3000 || n == 0xFEFF
  }

  /** `\d+` matches all of `s`. */
  predicate Digits1(s: string) {
    |s| > 0 && forall i :: 0 <= i < |s| ==> IsDigit(s[i])
  }

  /** `\s?` matches all of `s`. */
  predicate OptSpace(s: string) {
    |s| == 0 || (|s| == 1 && IsSpace(s[0]))
  }

  // ------------------------------------------------------------ GPS pattern

  /** The value built from the five parts of `\d+\.\d+,\s?\d+\.\d+`. */
  function GpsJoin(a: string, b: string, sp: string, c: string, d: string): string {
    a + "." + b + "," + sp + c + "." + d
  }

  /** Reference reading of `\d+\.\d+,\s?\d+\.\d+` as a whole-value match. */
  ghost predicate GpsShape(s: string) {
    exists a, b, sp, c, d :: Digits1(a) && Digits1(b) && OptSpace(sp) && Digits1(c) && Digits1(d) && s == GpsJoin(a, b, sp, c, d)
  }

  /** The states of a deterministic automaton for the GPS pattern:
      0 start, 1 first integer part, 2 after the first '.', 3 first fraction,
      4 after ',', 5 after the optional space, 6 second integer part,
      7 after the second '.', 8 second fraction (accepting), 9 dead. */
  type GpsState = q: nat | q <= 9

  function GpsStep(q: GpsState, ch: char): GpsState {
    if q == 0 then (if IsDigit(ch) then 1 else 9)
    else if q == 1 then (if IsDigit(ch) then 1 else if ch == '.' then 2 else 9)
    else if q == 2 then (if IsDigit(ch) then 3 else 9)
    else if q == 3 then (if IsDigit(ch) then 3 else if ch == ',' then 4 else 9)
    else if q == 4 then (if IsDigit(ch) then 6 else if IsSpace(ch) then 5 else 9)
    else if q == 5 then (if IsDigit(ch) then 6 else 9)
    else if q == 6 then (if IsDigit(ch) then 6 else if ch == '.' then 7 else 9)
    else if q == 7 then (if IsDigit(ch) then 8 else 9)
    else if q == 8 then (if IsDigit(ch) then 8 else 9)
    else 9
  }

  function GpsRun(q: GpsState, s: string): GpsState
    decreases |s|
  {
    if |s| == 0 then q else GpsRun(GpsStep(q, s[0]), s[1..])
  }

  /** The form's `pattern`: `\d+\.\d+,\s?\d+\.\d+` matching the whole value. */
  predicate GpsWhole(s: string) {
    GpsRun(0, s) == 8
  }

  lemma {:induction false} GpsRunAppend(q: GpsState, a: string, b: string)
    ensures GpsRun(q, a + b) == GpsRun(GpsRun(q, a), b)
    decreases |a|
  {
    if |a| > 0 {
      assert (a + b)[0] == a[0];
      assert (a + b)[1..] == a[1..] + b;
      GpsRunAppend(GpsStep(q, a[0]), a[1..], b);
    } else {
      assert a + b == b;
    }
  }

  /** The states with a digit self-loop stay put over a run of digits. */
  lemma {:induction false} GpsRunDigits(q: GpsState, s: string)
    requires q == 1 || q == 3 || q == 6 || q == 8
    requires forall i :: 0 <= i < |s| ==> IsDigit(s[i])
    ensures GpsRun(q, s) == q
    decreases |s|
  {
    if |s| > 0 {
      GpsRunDigits(q, s[1..]);
    }
  }

  /** The dead state is never left. */
  lemma {:induction false} GpsRunDead(s: string)
    ensures GpsRun(9, s) == 9
    decreases |s|
  {
    if |s| > 0 {
      GpsRunDead(s[1..]);
    }
  }

  /** Entering a self-looping state with a digit and reading more digits ends there. */
  lemma GpsRunDigits1(q: GpsState, q': GpsState, s: string)
    requires Digits1(s)
    requires q' == 1 || q' == 3 || q' == 6 || q' == 8
    requires GpsStep(q, s[0]) == q'
    ensures GpsRun(q, s) == q'
  {
    GpsRunDigits(q', s[1..]);
  }

  /** The automaton accepts every value of the documented shape. */
  lemma GpsShapeAccepted(a: string, b: string, sp: string, c: string, d: string)
    requires Digits1(a) && Digits1(b) && OptSpace(sp) && Digits1(c) && Digits1(d)
    ensures GpsWhole(GpsJoin(a, b, sp, c, d))
  {
    var rest := "." + (b + ("," + (sp + (c + ("." + d)))));
    assert GpsJoin(a, b, sp, c, d) == a + rest;
    GpsRunAppend(0, a, rest);
    GpsRunDigits1(0, 1, a);
    GpsRunCons(1, '.', b + ("," + (sp + (c + ("." + d)))));
    GpsFromFirstFraction(b, sp, c, d);
  }

  /** Reading one character and then the rest. */
  lemma GpsRunCons(q: GpsState, ch: char, s: string)
    ensures GpsRun(q, [ch] + s) == GpsRun(GpsStep(q, ch), s)
  {
    assert ([ch] + s)[0] == ch && ([ch] + s)[1..] == s;
  }

  /** From just after the first '.', the rest of the shape is accepted. */
  lemma GpsFromFirstFraction(b: string, sp: string, c: string, d: string)
    requires Digits1(b) && OptSpace(sp) && Digits1(c) && Digits1(d)
    ensures GpsRun(2, b + ("," + (sp + (c + ("." + d))))) == 8
  {
    GpsRunAppend(2, b, "," + (sp + (c + ("." + d))));
    GpsRunDigits1(2, 3, b);
    GpsRunCons(3, ',', sp + (c + ("." + d)));
    GpsRunAppend(4, sp, c + ("." + d));
    var q := GpsRun(4, sp);
    assert q == 4 || q == 5;
    GpsFromSecondInteger(q, c, d);
  }

  /** From just after the ',' or the optional space, the second number is accepted. */
  lemma GpsFromSecondInteger(q: GpsState, c: string, d: string)
    requires q == 4 || q == 5
    requires Digits1(c) && Digits1(d)
    ensures GpsRun(q, c + ("." + d)) == 8
  {
    GpsRunAppend(q, c, "." + d);
    GpsRunDigits1(q, 6, c);
    GpsRunCons(6, '.', d);
    GpsRunDigits1(7, 8, d);
  }

  /** The length of the longest all-digit prefix. */
  function DigitPrefix(s: string): (p: nat)
    ensures p <= |s|
    ensures forall i :: 0 <= i < p ==> IsDigit(s[i])
    ensures p < |s| ==> !IsDigit(s[p])
    decreases |s|
  {
    if |s| > 0 && IsDigit(s[0]) then 1 + DigitPrefix(s[1..]) else 0
  }

  /** From a self-looping state the automaton skips the longest digit prefix. */
  lemma GpsRunSkipDigits(q: GpsState, s: string)
    requires q == 1 || q == 3 || q == 6 || q == 8
    ensures GpsRun(q, s) == GpsRun(q, s[DigitPrefix(s)..])
  {
    var p := DigitPrefix(s);
    assert s == s[..p] + s[p..];
    GpsRunAppend(q, s[..p], s[p..]);
    GpsRunDigits(q, s[..p]);
  }

  /** From a self-looping state `q` whose only non-digit way on is `exit`
      into `next`: unless the run ends in `q` or dies, the longest digit
      prefix is followed by `exit` and the rest is read from `next`. */
  lemma GpsLoopThen(q: GpsState, exit: char, next: GpsState, s: string) returns (p: nat)
    requires q == 1 || q == 3 || q == 6
    requires !IsDigit(exit)
    requires forall ch :: !IsDigit(ch) ==> GpsStep(q, ch) == (if ch == exit then next else 9)
    requires next != 9 && GpsRun(q, s) == 8
    ensures p < |s| && s[p] == exit
    ensures forall i :: 0 <= i < p ==> IsDigit(s[i])
    ensures GpsRun(q, s) == GpsRun(next, s[p + 1..])
  {
    p := DigitPrefix(s);
    GpsRunSkipDigits(q, s);
    var rest := s[p..];
    if |rest| == 0 {
      assert false;
    }
    assert GpsRun(q, rest) == GpsRun(GpsStep(q, rest[0]), rest[1..]);
    if rest[0] != exit {
      GpsRunDead(rest[1..]);
      assert false;
    }
    assert rest[1..] == s[p + 1..];
  }

  /** Entering the self-looping state `q'` from `q` by a digit, then leaving
      it through `exit`: the digits before `exit` form a non-empty run. */
  lemma GpsDigitRunThen(q: GpsState, q': GpsState, exit: char, next: GpsState, s: string) returns (run: string, rest: string)
    requires q' == 1 || q' == 3 || q' == 6
    requires forall ch :: GpsStep(q, ch) == (if IsDigit(ch) then q' else 9)
    requires !IsDigit(exit)
    requires forall ch :: !IsDigit(ch) ==> GpsStep(q', ch) == (if ch == exit then next else 9)
    requires q != 8 && next != 9 && GpsRun(q, s) == 8
    ensures Digits1(run) && s == run + [exit] + rest
    ensures GpsRun(q, s) == GpsRun(next, rest)
  {
    if |s| == 0 {
      assert false;
    }
    assert GpsRun(q, s) == GpsRun(GpsStep(q, s[0]), s[1..]);
    if !IsDigit(s[0]) {
      GpsRunDead(s[1..]);
      assert false;
    }
    var p := GpsLoopThen(q', exit, next, s[1..]);
    run, rest := s[..p + 1], s[p + 2..];
    assert s == run + [exit] + rest;
  }

  /** Once in the second fraction, only digits may follow. */
  lemma {:induction false} GpsFinal(d: string)
    requires GpsRun(8, d) == 8
    ensures forall i :: 0 <= i < |d| ==> IsDigit(d[i])
    decreases |d|
  {
    if |d| > 0 {
      if !IsDigit(d[0]) {
        GpsRunDead(d[1..]);
        assert false;
      }
      GpsFinal(d[1..]);
    }
  }

  /** The transitions out of the states the run extraction passes through. */
  lemma GpsStepFacts()
    ensures forall ch :: GpsStep(0, ch) == (if IsDigit(ch) then 1 else 9)
    ensures forall ch :: GpsStep(2, ch) == (if IsDigit(ch) then 3 else 9)
    ensures forall ch :: GpsStep(5, ch) == (if IsDigit(ch) then 6 else 9)
    ensures forall ch :: !IsDigit(ch) ==> GpsStep(1, ch) == (if ch == '.' then 2 else 9)
    ensures forall ch :: !IsDigit(ch) ==> GpsStep(3, ch) == (if ch == ',' then 4 else 9)
    ensures forall ch :: !IsDigit(ch) ==> GpsStep(6, ch) == (if ch == '.' then 7 else 9)
  {
  }

  /** What follows the ',' in an accepted value. */
  lemma GpsAfterComma(s: string) returns (sp: string, c: string, d: string)
    requires GpsRun(4, s) == 8
    ensures OptSpace(sp) && Digits1(c) && Digits1(d)
    ensures s == sp + c + "." + d
  {
    if |s| == 0 {
      assert false;
    }
    assert GpsRun(4, s) == GpsRun(GpsStep(4, s[0]), s[1..]);
    var tail: string;
    if IsDigit(s[0]) {
      sp := "";
      c, tail := GpsDigitFirst(s);
    } else if IsSpace(s[0]) {
      sp := s[..1];
      c, tail := GpsSpaceFirst(s[1..]);
      assert s == sp + (c + "." + tail);
    } else {
      GpsRunDead(s[1..]);
      assert false;
    }
    GpsLastFraction(tail);
    d := tail;
  }

  /** The second number when no space follows the ','. */
  lemma GpsDigitFirst(s: string) returns (c: string, tail: string)
    requires |s| > 0 && IsDigit(s[0]) && GpsRun(6, s[1..]) == 8
    ensures Digits1(c) && s == c + "." + tail
    ensures GpsRun(7, tail) == 8
  {
    GpsStepFacts();
    var p := GpsLoopThen(6, '.', 7, s[1..]);
    c, tail := s[..p + 1], s[p + 2..];
    assert s[1..][p] == '.';
    assert s == c + "." + tail;
  }

  /** The second number after the optional space. */
  lemma GpsSpaceFirst(s: string) returns (c: string, tail: string)
    requires GpsRun(5, s) == 8
    ensures Digits1(c) && s == c + "." + tail
    ensures GpsRun(7, tail) == 8
  {
    GpsStepFacts();
    c, tail := GpsDigitRunThen(5, 6, '.', 7, s);
  }

  /** The second fraction: a non-empty run of digits ending the value. */
  lemma GpsLastFraction(d: string)
    requires GpsRun(7, d) == 8
    ensures Digits1(d)
  {
    if |d| == 0 {
      assert false;
    }
    assert GpsRun(7, d) == GpsRun(GpsStep(7, d[0]), d[1..]);
    if !IsDigit(d[0]) {
      GpsRunDead(d[1..]);
      assert false;
    }
    GpsFinal(d[1..]);
  }

  /** Every value the automaton accepts has the documented shape. */
  lemma GpsAcceptedShape(s: string)
    requires GpsWhole(s)
    ensures GpsShape(s)
  {
    GpsStepFacts();
    var a, s1 := GpsDigitRunThen(0, 1, '.', 2, s);
    var b, s2 := GpsDigitRunThen(2, 3, ',', 4, s1);
    var sp, c, d := GpsAfterComma(s2);
    GpsJoinParts(a, s1, b, s2, sp, c, d);
    GpsShapeIntro(a, b, sp, c, d);
  }

  lemma GpsJoinParts(a: string, s1: string, b: string, s2: string, sp: string, c: string, d: string)
    requires s1 == b + [','] + s2 && s2 == sp + c + "." + d
    ensures a + ['.'] + s1 == GpsJoin(a, b, sp, c, d)
  {
  }

  lemma GpsShapeIntro(a: string, b: string, sp: string, c: string, d: string)
    requires Digits1(a) && Digits1(b) && OptSpace(sp) && Digits1(c) && Digits1(d)
    ensures GpsShape(GpsJoin(a, b, sp, c, d))
  {
  }

  /** The automaton decides exactly the documented shape. */
  lemma GpsWholeIff(s: string)
    ensures GpsWhole(s) <==> GpsShape(s)
  {
    if GpsWhole(s) {
      GpsAcceptedShape(s);
    }
    if GpsShape(s) {
      var a, b, sp, c, d :| Digits1(a) && Digits1(b) && OptSpace(sp) && Digits1(c) && Digits1(d) && s == GpsJoin(a, b, sp, c, d);
      GpsShapeAccepted(a, b, sp, c, d);
    }
  }

  /** The schema's `matches(/\d+\.\d+,\s?\d+\.\d+/)`: the pattern occurs somewhere. */
  predicate GpsSomewhere(s: string) {
    exists i, j :: 0 <= i <= j <= |s| && GpsWhole(s[i..j])
  }

  /** `gpsLocation` in `PersonSchema`: null, empty, or containing the pattern. */
  predicate GpsLocationValid(v: Option<string>) {
    v.None? || v.value == "" || GpsSomewhere(v.value)
  }

  /** A value the form accepts also passes the schema. */
  lemma GpsFormImpliesSchema(s: string)
    requires GpsWhole(s)
    ensures GpsLocationValid(Some(s))
  {
    assert s[0..|s|] == s;
  }

  /** The converse fails: the schema lets a value with a leading letter through. */
  lemma GpsSchemaLooser()
    ensures GpsLocationValid(Some("x1.2,3.4")) && !GpsWhole("x1.2,3.4")
  {
    var s := "x1.2,3.4";
    assert s[1..8] == "1.2,3.4";
    GpsShapeAccepted("1", "2", "", "3", "4");
    assert GpsJoin("1", "2", "", "3", "4") == "1.2,3.4";
    GpsRunDead(s[1..]);
  }

  // --------------------------------------------------- national number

  /** `[12](19|20)[0-9]{9}` as a whole-value match: twelve characters. */
  predicate NationalNumberWhole(s: string) {
    && |s| == 12
    && (s[0] == '1' || s[0] == '2')
    && ((s[1] == '1' && s[2] == '9') || (s[1] == '2' && s[2] == '0'))
    && forall i :: 3 <= i < 12 ==> IsDigit(s[i])
  }

  /** The form's `pattern` `[12](19|20)[0-9]{2}\d{7}`, anchored. */
  predicate NationalNumberForm(s: string) {
    && |s| == 12
    && (s[0] == '1' || s[0] == '2')
    && ((s[1] == '1' && s[2] == '9') || (s[1] == '2' && s[2] == '0'))
    && (forall i :: 3 <= i < 5 ==> '0' <= s[i] <= '9')
    && (forall i :: 5 <= i < 12 ==> IsDigit(s[i]))
  }

  /** The twelve-character pattern occurs in `s` at position `i`. */
  predicate NationalNumberAt(s: string, i: int) {
    0 <= i <= |s| - 12 && NationalNumberWhole(s[i..i + 12])
  }

  /** `nationalNumber` in `PersonSchema`: null, empty, or containing the
      twelve-character pattern at some position. */
  predicate NationalNumberValid(v: Option<string>) {
    v.None? || v.value == "" || exists i :: 0 <= i <= |v.value| - 12 && NationalNumberAt(v.value, i)
  }

  /** The form pattern and the schema pattern describe the same twelve
      characters; a value the form accepts passes the schema. */
  lemma NationalNumberFormImpliesSchema(s: string)
    ensures NationalNumberForm(s) <==> NationalNumberWhole(s)
    ensures NationalNumberForm(s) ==> NationalNumberValid(Some(s))
  {
    if NationalNumberForm(s) {
      assert s[0..12] == s;
      assert NationalNumberAt(s, 0);
    }
  }

  /** The converse fails: a thirteen-digit value passes the schema only. */
  lemma NationalNumberSchemaLooser()
    ensures NationalNumberValid(Some("1190000000000")) && !NationalNumberForm("1190000000000")
  {
    var s := "1190000000000";
    assert NationalNumberAt(s, 0);
  }

  // ------------------------------------------------------ category schema

  /** The messages yup reports, in the order the rules were declared. */
  function CategoryErrors(id: Option<string>, name: Option<string>, uuidOk: string -> bool): (errs: seq<string>)
    ensures |errs| == 0 <==> id.Some? && id.value != "" && uuidOk(id.value) && name.Some? && name.value != ""
    ensures id.Some? && !uuidOk(id.value) ==> |errs| > 0 && errs[0] == "id must be a valid UUID"
  {
    (if id.Some? && !uuidOk(id.value) then ["id must be a valid UUID"] else [])
    + (if id.None? || id.value == "" then ["id is a required field"] else [])
    + (if name.None? || name.value == "" then ["name is a required field"] else [])
  }

  /** `CategorySchema.isValid`. */
  predicate CategoryValid(id: Option<string>, name: Option<string>, uuidOk: string -> bool) {
    |CategoryErrors(id, name, uuidOk)| == 0
  }

  /** The three cases of the category model's tests, given that yup's uuid
      check accepts every version-4 uuid and rejects the empty string. */
  lemma CategorySchemaCases(v4: string, uuidOk: string -> bool)
    requires Uuid.IsUUIDv4(v4)
    requires forall s :: Uuid.IsUUIDv4(s) ==> uuidOk(s)
    requires !uuidOk("")
    ensures CategoryValid(Some(v4), Some("test"), uuidOk)
    ensures !CategoryValid(Some(v4), Some(""), uuidOk)
    ensures CategoryErrors(Some(""), Some("test"), uuidOk)[0] == "id must be a valid UUID"
  {
    Uuid.UUIDv4Characterization(v4);
  }

  /** Both fields are required: a missing or empty one is always reported. */
  lemma CategoryRequired(id: Option<string>, name: Option<string>, uuidOk: string -> bool)
    ensures id.None? || id == Some("") ==> !CategoryValid(id, name, uuidOk)
    ensures name.None? || name == Some("") ==> !CategoryValid(id, name, uuidOk)
  {
  }

  // --------------------------------------------------------- media schema

  /** The plain object `MediaSchema` validates; `type` is any string. */
  datatype MediaInput = MediaInput(id: Option<string>, name: Option<string>, path: Option<string>, kind: Option<string>)

  /** `MediaSchema.isValid`: id, name and path present and non-empty, and
      the type one of the six file type names. */
  predicate MediaValid(m: MediaInput) {
    && m.id.Some? && m.id.value != ""
    && m.name.Some? && m.name.value != ""
    && m.path.Some? && m.path.value != ""
    && m.kind.Some? && ParseFileType(m.kind.value).Some?
  }

  /** The type rule accepts exactly the six names. */
  lemma MediaTypeEnumeration(m: MediaInput)
    requires m.id.Some? && m.id.value != "" && m.name.Some? && m.name.value != "" && m.path.Some? && m.path.value != ""
    ensures MediaValid(m) <==> (m.kind.Some? &&
      m.kind.value in {"image", "video", "id", "avatar", "passport", "attachment"})
  {
  }

  /** Every `Media` record whose strings are filled in passes the schema:
      its type is always one of the six. */
  lemma MediaRecordValid(m: Media)
    requires m.id != "" && m.name != "" && m.path != ""
    ensures MediaValid(MediaInput(Some(m.id), Some(m.name), Some(m.path), Some(FileTypeName(m.kind))))
  {
    FileTypeRoundTrip(m.kind, m.kind);
  }

  // -------------------------------------------------------- person schema

  /** The fields of the plain object `PersonSchema` validates that have a
      rule beyond "any string or null"; every other field is a nullable
      string, which any string passes. */
  datatype PersonInput = PersonInput(
    id: Option<string>,
    arabicName: Option<string>,
    englishName: Option<string>,
    motherName: Option<string>,
    birthDate: Option<string>,
    nationality: Option<string>,
    email: Option<string>,
    gpsLocation: Option<string>,
    passportIssueDate: Option<string>,
    nationalNumber: Option<string>,
    restrictions: Option<seq<string>>,
    extra: Option<seq<string>>)

  /** A required string: present and non-empty. */
  predicate Required(v: Option<string>) {
    v.Some? && v.value != ""
  }

  /** `array().of(string().min(1)).nullable()`. */
  predicate EntriesNonEmpty(v: Option<seq<string>>) {
    v.None? || forall i :: 0 <= i < |v.value| ==> |v.value[i]| >= 1
  }

  /** `date().nullable()`: null, or a value yup casts to a valid date. */
  predicate DateValid(v: Option<string>, dateOk: string -> bool) {
    v.None? || dateOk(v.value)
  }

  /** `PersonSchema.isValid`, with yup's uuid, email and date checks as
      parameters. */
  predicate PersonValid(p: PersonInput, uuidOk: string -> bool, emailOk: string -> bool, dateOk: string -> bool) {
    && Required(p.id) && uuidOk(p.id.value)
    && Required(p.arabicName) && Required(p.englishName) && Required(p.motherName)
    && DateValid(p.birthDate, dateOk)
    && Required(p.nationality)
    && (p.email.None? || p.email.value == "" || emailOk(p.email.value))
    && GpsLocationValid(p.gpsLocation)
    && DateValid(p.passportIssueDate, dateOk)
    && NationalNumberValid(p.nationalNumber)
    && EntriesNonEmpty(p.restrictions) && EntriesNonEmpty(p.extra)
  }

  /** Clearing any of the five required fields makes a person invalid, a
      birth or passport issue date that is not a date does too, and a valid
      person whose optional patterned fields or dates are cleared stays
      valid. */
  lemma PersonRequiredFields(p: PersonInput, uuidOk: string -> bool, emailOk: string -> bool, dateOk: string -> bool, d: string)
    ensures !PersonValid(p.(id := None), uuidOk, emailOk, dateOk)
    ensures !PersonValid(p.(arabicName := Some("")), uuidOk, emailOk, dateOk)
    ensures !PersonValid(p.(englishName := Some("")), uuidOk, emailOk, dateOk)
    ensures !PersonValid(p.(motherName := Some("")), uuidOk, emailOk, dateOk)
    ensures !PersonValid(p.(nationality := None), uuidOk, emailOk, dateOk)
    ensures !dateOk(d) ==> !PersonValid(p.(birthDate := Some(d)), uuidOk, emailOk, dateOk)
    ensures !dateOk(d) ==> !PersonValid(p.(passportIssueDate := Some(d)), uuidOk, emailOk, dateOk)
    ensures PersonValid(p, uuidOk, emailOk, dateOk) ==>
      PersonValid(p.(gpsLocation := None, nationalNumber := Some(""), restrictions := None, extra := Some([]),
        birthDate := None, passportIssueDate := None), uuidOk, emailOk, dateOk)
  {
  }

  /** Values the form's patterns accept never make the schema fail. */
  lemma PersonFormPatternsPass(p: PersonInput, uuidOk: string -> bool, emailOk: string -> bool, dateOk: string -> bool, gps: string, nn: string)
    requires PersonValid(p, uuidOk, emailOk, dateOk)
    requires GpsWhole(gps) && NationalNumberForm(nn)
    ensures PersonValid(p.(gpsLocation := Some(gps), nationalNumber := Some(nn)), uuidOk, emailOk, dateOk)
  {
    GpsFormImpliesSchema(gps);
    NationalNumberFormImpliesSchema(nn);
  }
}

=== FILE: seqs.dfy ===
/** The list and string primitives the source borrows from JavaScript and
    lodash: `filter`, `_.uniq`, index-based `map`/`filter`, `includes`,
    `endsWith` and `toLowerCase`. */
module Seqs {

  /** `xs` occurs in `ys` as an order-preserving sub-list. */
  predicate IsSubseq<T(==)>(xs: seq<T>, ys: seq<T>)
    decreases |ys|
  {
    || |xs| == 0
    || (&& |ys| > 0
        && ((xs[0] == ys[0] && IsSubseq(xs[1..], ys[1..])) || IsSubseq(xs, ys[1..])))
  }

  /** No element occurs twice. */
  predicate NoDups<T(==)>(s: seq<T>) {
    forall i, j :: 0 <= i < j < |s| ==> s[i] != s[j]
  }

  /** Every list is a sub-list of itself. */
  lemma {:induction false} SubseqRefl<T>(s: seq<T>)
    ensures IsSubseq(s, s)
    decreases |s|
  {
    if |s| > 0 {
      SubseqRefl(s[1..]);
    }
  }

  /** `Array.prototype.filter` with an element predicate. */
  function Filter<T(==)>(s: seq<T>, keep: T -> bool): (r: seq<T>)
    ensures |r| <= |s|
    ensures forall i :: 0 <= i < |r| ==> r[i] in s && keep(r[i])
    ensures forall i :: 0 <= i < |s| && keep(s[i]) ==> s[i] in r
    ensures IsSubseq(r, s)
    decreases |s|
  {
    if |s| == 0 then []
    else
      var rest := Filter(s[1..], keep);
      if keep(s[0]) then [s[0]] + rest else rest
  }

  /** Filtering with a predicate that holds of every element changes nothing. */
  lemma {:induction false} FilterAll<T>(s: seq<T>, keep: T -> bool)
    requires forall i :: 0 <= i < |s| ==> keep(s[i])
    ensures Filter(s, keep) == s
    decreases |s|
  {
    if |s| > 0 {
      FilterAll(s[1..], keep);
    }
  }

  /** Filter distributes over concatenation. */
  lemma {:induction false} FilterAppend<T>(a: seq<T>, b: seq<T>, keep: T -> bool)
    ensures Filter(a + b, keep) == Filter(a, keep) + Filter(b, keep)
    decreases |a|
  {
    if |a| > 0 {
      assert (a + b)[1..] == a[1..] + b;
      FilterAppend(a[1..], b, keep);
    } else {
      assert a + b == b;
    }
  }

  /** Number of elements satisfying `p`. */
  function Count<T>(s: seq<T>, p: T -> bool): (n: nat)
    ensures n <= |s|
    ensures n == 0 <==> forall i :: 0 <= i < |s| ==> !p(s[i])
    decreases |s|
  {
    if |s| == 0 then 0
    else (if p(s[0]) then 1 else 0) + Count(s[1..], p)
  }

  /** Counting distributes over concatenation. */
  lemma {:induction false} CountAppend<T>(a: seq<T>, b: seq<T>, p: T -> bool)
    ensures Count(a + b, p) == Count(a, p) + Count(b, p)
    decreases |a|
  {
    if |a| > 0 {
      assert (a + b)[1..] == a[1..] + b;
      CountAppend(a[1..], b, p);
    } else {
      assert a + b == b;
    }
  }

  /** `k` copies of `x`. */
  function Repeat<T>(x: T, k: nat): (r: seq<T>)
    ensures |r| == k
    ensures forall i :: 0 <= i < k ==> r[i] == x
  {
    if k == 0 then [] else [x] + Repeat(x, k - 1)
  }

  /** lodash `_.uniq` run with a set of already-seen values: keeps the first
      occurrence of each value not in `seen`, in order. */
  function UniqFrom<T(==)>(s: seq<T>, seen: set<T>): (r: seq<T>)
    ensures forall i :: 0 <= i < |r| ==> r[i] in s && r[i] !in seen
    ensures forall i :: 0 <= i < |s| && s[i] !in seen ==> s[i] in r
    ensures NoDups(r)
    ensures IsSubseq(r, s)
    decreases |s|
  {
    if |s| == 0 then []
    else if s[0] in seen then UniqFrom(s[1..], seen)
    else [s[0]] + UniqFrom(s[1..], seen + {s[0]})
  }

  /** lodash `_.uniq`: a duplicate-free sub-list with the same elements. */
  function Uniq<T(==)>(s: seq<T>): (r: seq<T>)
    ensures forall i :: 0 <= i < |r| ==> r[i] in s
    ensures forall i :: 0 <= i < |s| ==> s[i] in r
    ensures NoDups(r)
    ensures IsSubseq(r, s)
  {
    UniqFrom(s, {})
  }

  /** The set of values occurring in `s`. */
  function Elems<T>(s: seq<T>): (r: set<T>)
    ensures forall i :: 0 <= i < |s| ==> s[i] in r
    ensures forall x :: x in r ==> x in s
    decreases |s|
  {
    if |s| == 0 then {} else {s[0]} + Elems(s[1..])
  }

  /** Uniq over a concatenation: the second part only contributes values the
      first part (and `seen`) did not already have. */
  lemma {:induction false} UniqFromAppend<T>(a: seq<T>, b: seq<T>, seen: set<T>)
    ensures UniqFrom(a + b, seen) == UniqFrom(a, seen) + UniqFrom(b, seen + Elems(a))
    decreases |a|
  {
    if |a| == 0 {
      assert a + b == b;
      assert Elems(a) == {};
      assert seen + Elems(a) == seen;
    } else {
      assert (a + b)[0] == a[0];
      assert (a + b)[1..] == a[1..] + b;
      if a[0] in seen {
        UniqFromAppend(a[1..], b, seen);
        assert seen + Elems(a) == seen + Elems(a[1..]);
      } else {
        UniqFromAppend(a[1..], b, seen + {a[0]});
        assert seen + Elems(a) == seen + {a[0]} + Elems(a[1..]);
      }
    }
  }

  /** The reference definition of `_.uniq` built from the right: appending
      `x` adds it exactly when it is new. */
  lemma UniqSnoc<T>(s: seq<T>, x: T)
    ensures Uniq(s + [x]) == if x in s then Uniq(s) else Uniq(s) + [x]
  {
    UniqFromAppend(s, [x], {});
    assert x in Elems(s) <==> x in s;
  }

  /** `_.uniq` of a list without duplicates (none of which was seen) is the list. */
  lemma {:induction false} UniqFromNoDups<T>(s: seq<T>, seen: set<T>)
    requires NoDups(s)
    requires forall i :: 0 <= i < |s| ==> s[i] !in seen
    ensures UniqFrom(s, seen) == s
    decreases |s|
  {
    if |s| > 0 {
      assert forall i :: 1 <= i < |s| ==> s[i] != s[0];
      UniqFromNoDups(s[1..], seen + {s[0]});
    }
  }

  /** `_.uniq` is the identity on duplicate-free lists. */
  lemma UniqOfNoDups<T>(s: seq<T>)
    requires NoDups(s)
    ensures Uniq(s) == s
  {
    UniqFromNoDups(s, {});
  }

  /** `s.filter((_, i) => i !== idx)`: drop the element at `idx`, if any. */
  function DropIndex<T>(s: seq<T>, idx: int): (r: seq<T>)
    ensures 0 <= idx < |s| ==> r == s[..idx] + s[idx + 1..]
    ensures !(0 <= idx < |s|) ==> r == s
    decreases |s|
  {
    if |s| == 0 then []
    else
      var rest := DropIndex(s[1..], idx - 1);
      assert 0 < idx < |s| ==> rest == s[1..][..idx - 1] + s[1..][idx..];
      assert 0 < idx < |s| ==> [s[0]] + s[1..][..idx - 1] == s[..idx];
      if idx == 0 then rest else [s[0]] + rest
  }

  /** `s.map((x, i) => i === idx ? v : x)`: replace the element at `idx`, if any. */
  function ReplaceAt<T>(s: seq<T>, idx: int, v: T): (r: seq<T>)
    ensures |r| == |s|
    ensures forall i :: 0 <= i < |s| && i != idx ==> r[i] == s[i]
    ensures 0 <= idx < |s| ==> r[idx] == v
    decreases |s|
  {
    if |s| == 0 then []
    else [if idx == 0 then v else s[0]] + ReplaceAt(s[1..], idx - 1, v)
  }

  /** `ReplaceAt` is sequence update for an index in range and the identity otherwise. */
  lemma ReplaceAtIsUpdate<T>(s: seq<T>, idx: int, v: T)
    ensures 0 <= idx < |s| ==> ReplaceAt(s, idx, v) == s[idx := v]
    ensures !(0 <= idx < |s|) ==> ReplaceAt(s, idx, v) == s
  {
  }

  /** `s.startsWith(p)`. */
  predicate IsPrefix<T(==)>(p: seq<T>, s: seq<T>) {
    |p| <= |s| && s[..|p|] == p
  }

  /** `s.endsWith(p)`, Cypher's `ENDS WITH`. */
  predicate EndsWith<T(==)>(s: seq<T>, p: seq<T>) {
    |p| <= |s| && s[|s| - |p|..] == p
  }

  /** `s.includes(t)`, searched left to right. */
  predicate Includes<T(==)>(s: seq<T>, t: seq<T>)
    decreases |s|
  {
    IsPrefix(t, s) || (|s| > 0 && Includes(s[1..], t))
  }

  /** `t` occurs in `s` at position `i`. */
  predicate OccursAt<T(==)>(s: seq<T>, t: seq<T>, i: int) {
    0 <= i && i + |t| <= |s| && s[i..i + |t|] == t
  }

  /** The left-to-right search finds `t` exactly when it occurs somewhere. */
  lemma {:induction false} IncludesIff<T>(s: seq<T>, t: seq<T>)
    ensures Includes(s, t) <==> exists i :: OccursAt(s, t, i)
    decreases |s|
  {
    if IsPrefix(t, s) {
      assert s[0..|t|] == s[..|t|];
      assert OccursAt(s, t, 0);
    } else if |s| > 0 {
      IncludesIff(s[1..], t);
      forall i | OccursAt(s[1..], t, i)
        ensures OccursAt(s, t, i + 1)
      {
        assert s[i + 1..i + 1 + |t|] == s[1..][i..i + |t|];
      }
      forall i | OccursAt(s, t, i) && i > 0
        ensures OccursAt(s[1..], t, i - 1)
      {
        assert s[1..][i - 1..i - 1 + |t|] == s[i..i + |t|];
      }
      if |t| <= |s| {
        assert s[0..|t|] == s[..|t|];
      }
      assert !OccursAt(s, t, 0);
    }
  }

  /** The empty string is included in every string. */
  lemma IncludesEmpty<T>(s: seq<T>)
    ensures Includes(s, [])
  {
    assert IsPrefix([], s);
  }

  /** ASCII `toLowerCase` of one character. */
  function LowerChar(c: char): char {
    if 'A' <= c <= 'Z' then (c as int + 32) as char else c
  }

  /** ASCII `toLowerCase`: folds A-Z and leaves every other character alone. */
  function Lower(s: string): (r: string)
    ensures |r| == |s|
    ensures forall i :: 0 <= i < |s| ==> r[i] == LowerChar(s[i])
    ensures forall i :: 0 <= i < |s| ==> !('A' <= r[i] <= 'Z')
    decreases |s|
  {
    if |s| == 0 then "" else [LowerChar(s[0])] + Lower(s[1..])
  }

  /** ASCII `toUpperCase` of one character. */
  function UpperChar(c: char): char {
    if 'a' <= c <= 'z' then (c as int - 32) as char else c
  }

  /** ASCII `toUpperCase`: folds a-z and leaves every other character alone. */
  function Upper(s: string): (r: string)
    ensures |r| == |s|
    ensures forall i :: 0 <= i < |s| ==> r[i] == UpperChar(s[i])
    decreases |s|
  {
    if |s| == 0 then "" else [UpperChar(s[0])] + Upper(s[1..])
  }

  /** Lower-casing is idempotent. */
  lemma LowerIdempotent(s: string)
    ensures Lower(Lower(s)) == Lower(s)
  {
  }

  /** Appending nothing leaves a sequence unchanged (stated apart so that
      callers with large contexts need not rediscover it). */
  lemma AppendEmpty<T>(a: seq<T>)
    ensures a + [] == a
  {
  }

  lemma AppendEmptyLeft<T>(a: seq<T>)
    ensures [] + a == a
  {
  }

  /** One element appended, then a tail appended, is the element-and-tail appended. */
  lemma AppendStep<T>(h0: seq<T>, h1: seq<T>, h2: seq<T>, x: T, rest: seq<T>)
    requires h1 == h0 + [x]
    requires h2 == h1 + rest
    ensures h2 == h0 + ([x] + rest)
  {
  }

  /** The head and tail of a concatenation whose left part is not empty. */
  lemma AppendHeadTail<T>(a: seq<T>, b: seq<T>)
    requires |a| > 0
    ensures (a + b)[0] == a[0]
    ensures (a + b)[1..] == a[1..] + b
  {
  }

  /** Concatenation after a leading element re-associates. */
  lemma ConsAssoc<T>(x: T, a: seq<T>, b: seq<T>)
    ensures ([x] + a) + b == [x] + (a + b)
  {
  }

  /** A list that is `x` followed by `rest + b`, where `x` followed by
      `rest` is `a`, is `a + b`. */
  lemma ConsSplit<T>(whole: seq<T>, x: T, mid: seq<T>, a: seq<T>, rest: seq<T>, b: seq<T>)
    requires whole == [x] + mid
    requires mid == rest + b
    requires a == [x] + rest
    ensures whole == a + b
  {
  }

  /** Concatenation re-associates. */
  lemma AppendAssoc<T>(a: seq<T>, b: seq<T>, c: seq<T>)
    ensures (a + b) + c == a + (b + c)
  {
  }

  /** `f` applied along `xs` with a counter that starts at `k` and moves on
      by two per element. */
  function MapRun<A, B>(f: (A, nat) -> B, xs: seq<A>, k: nat): (r: seq<B>)
    ensures |r| == |xs|
    decreases |xs|
  {
    if |xs| == 0 then [] else [f(xs[0], k)] + MapRun(f, xs[1..], k + 2)
  }

  /** The element at position `i` of a run got the counter `k + 2 i`. */
  lemma {:induction false} MapRunAt<A, B>(f: (A, nat) -> B, xs: seq<A>, k: nat, i: nat)
    requires i < |xs|
    ensures MapRun(f, xs, k)[i] == f(xs[i], k + 2 * i)
    decreases i
  {
    if i > 0 {
      MapRunAt(f, xs[1..], k + 2, i - 1);
    }
  }
}

=== FILE: transcript_repository.dfy ===
/** src/repositories/transcript.repository.ts: Transcript nodes and the
    attachments stored for them. */
module TranscriptRepository {
  import opened Wrappers
  import opened Seqs
  import opened Models
  import opened GraphStore
  import opened MediaUpload

  /** The node `CREATE (r:Transcript { id, title, text, date })` writes; the
      record's content goes into the `text` property. */
  function NodeOf(t: Transcript): Node {
    TranscriptNode(t.title, t.content, t.date)
  }

  /** The transcript a stored node reads back as: title, content and date
      are set, attachments are not read. */
  function ToTranscript(id: string, n: Node): Transcript
    requires n.TranscriptNode?
  {
    Transcript(id, n.title, n.text, n.date, [])
  }

  /** `create`: the node first, then one upload per attachment, started
      inside a `forEach` callback that nobody awaits, so an upload that throws
      is lost and `create` itself never reports it. The i-th attachment takes
      its file uuid from `gen(2 i)` and its media id from `gen(2 i + 1)`. */
  function Create(w: World, t: Transcript, gen: UuidSource): World {
    var w0 := World(GraphStore.Create(w.db, t.id, NodeOf(t)), w.fs);
    AttachEach(w0, t.id, TranscriptLabel, Uploads(t), gen, 0)
  }

  /** `read`: one transcript per Transcript node, without attachments. */
  function Read(s: Store): (r: set<Transcript>)
    ensures forall t :: t in r <==> t.id in s.nodes && s.nodes[t.id] == NodeOf(t) && t.attachments == []
  {
    set id | id in s.nodes && s.nodes[id].TranscriptNode? :: ToTranscript(id, s.nodes[id])
  }

  /** `readById`: fails with 'No such transcript' when no Transcript node has the id. */
  function ReadById(s: Store, id: string): (r: Result<Transcript>)
    ensures r.Failure? <==> !HasLabel(s, id, TranscriptLabel)
    ensures r.Failure? ==> r.error == "No such transcript"
    ensures r.Success? ==> r.value.id == id && s.nodes[id] == NodeOf(r.value) && r.value.attachments == []
  {
    if HasLabel(s, id, TranscriptLabel) then Success(ToTranscript(id, s.nodes[id]))
    else Failure("No such transcript")
  }

  /** `update`: overwrites title, text and date of the node with that id and
      returns its argument; attachments are not touched. */
  function Update(s: Store, id: string, t: Transcript): (r: (Store, Transcript))
    ensures r.1 == t
  {
    (SetTranscript(s, id, t.title, t.content, t.date), t)
  }

  /** Whether some relationship starts or ends at `id`. */
  predicate Touched(s: Store, id: string) {
    exists i :: 0 <= i < |s.edges| && (s.edges[i].src == id || s.edges[i].dst == id)
  }

  /** The database running `MATCH (r:Transcript) WHERE r.id = $id <clause> r`:
      the store after the statement and the error it throws, if any.
      `DETACH DELETE` removes the node with its relationships; `DELETE` removes
      it only when no relationship touches it; any other clause is a syntax
      error, reported before anything is matched. */
  function RunDelete(s: Store, id: string, clause: string): (Store, Option<string>) {
    if clause == "DETACH DELETE" then (DeleteNode(s, id, TranscriptLabel), None)
    else if clause == "DELETE" then
      if HasLabel(s, id, TranscriptLabel) && Touched(s, id) then (s, Some("Cannot delete node, because it still has relationships"))
      else (DeleteNode(s, id, TranscriptLabel), None)
    else (s, Some("Invalid input '" + clause + "'"))
  }

  /** `delete` as written: the statement's clause reads `DETATCH DELETE`. */
  function DeleteAsWritten(s: Store, id: string): (Store, Option<string>) {
    RunDelete(s, id, "DETATCH DELETE")
  }

  /** `delete` as intended, with `DETACH DELETE`. */
  function Delete(s: Store, id: string): Store {
    RunDelete(s, id, "DETACH DELETE").0
  }

  /** The run of uploads `create` starts. */
  function Uploads(t: Transcript): seq<PendingUpload> {
    AsUploads(Attachment, t.attachments)
  }

  /** A new transcript whose media ids are fresh reads back with its title,
      content and date, whatever happens to its uploads; and when none of
      them throws, its `HAS` relationships reach exactly one Media node per
      attachment, in order, named after the attachment and stored under its
      uuid-suffixed name. */
  lemma CreateThenRead(w: World, t: Transcript, gen: UuidSource)
    requires Valid(w.db)
    requires t.id !in w.db.nodes
    requires FreshMediaIds(w.db, gen, 0, |t.attachments|)
    requires t.id !in MediaIds(gen, 0, |t.attachments|)
    ensures ReadById(Create(w, t, gen).db, t.id) == Success(t.(attachments := []))
    ensures Valid(Create(w, t, gen).db)
    ensures var w0 := World(GraphStore.Create(w.db, t.id, NodeOf(t)), w.fs);
      AttachAll(w0, t.id, TranscriptLabel, Uploads(t), gen, 0).Done? ==>
        HasMedia(Create(w, t, gen).db, Create(w, t, gen).db.edges, t.id) == ExpectedMedia(w.fs.userData, t.id, Uploads(t), gen, 0)
  {
    var n := |t.attachments|;
    var w0 := World(GraphStore.Create(w.db, t.id, NodeOf(t)), w.fs);
    CreateValid(w.db, t.id, NodeOf(t));
    forall i: nat | i < n
      ensures MediaIdAt(gen, 0, i) !in w0.db.nodes
    {
      MediaIdsHas(gen, 0, n, i);
    }
    assert FreshMediaIds(w0.db, gen, 0, n);
    AttachEachGrows(w0, t.id, TranscriptLabel, Uploads(t), gen, 0);
    if AttachAll(w0, t.id, TranscriptLabel, Uploads(t), gen, 0).Done? {
      AttachEachAgrees(w0, t.id, TranscriptLabel, Uploads(t), gen, 0);
      AttachAllMedia(w0, t.id, TranscriptLabel, Uploads(t), gen, 0);
      HasMediaOthers(w0.db, w0.db.edges, t.id);
      AppendEmptyLeft(ExpectedMedia(w.fs.userData, t.id, Uploads(t), gen, 0));
    }
  }

  /** An unknown id fails to read back. */
  lemma ReadByIdUnknown(s: Store, id: string)
    requires id !in s.nodes
    ensures ReadById(s, id) == Failure("No such transcript")
  {
  }

  /** An update returns the transcript it was given, overwrites exactly the
      three properties of the matching transcript, keeps its id and every
      relationship, and changes nothing for an unknown id. */
  lemma UpdateEffect(s: Store, id: string, t: Transcript, k: string)
    ensures Update(s, id, t).1 == t
    ensures var s' := Update(s, id, t).0;
      && s'.edges == s.edges
      && (HasLabel(s, id, TranscriptLabel) ==> ReadById(s', id) == Success(t.(id := id, attachments := [])))
      && (!HasLabel(s, id, TranscriptLabel) ==> s' == s)
      && (k != id && k in s.nodes ==> k in s'.nodes && s'.nodes[k] == s.nodes[k])
  {
  }

  /** The delete as written always throws and leaves the store as it was,
      so whatever `readById` gave before it gives after: a stored transcript
      still reads back. */
  lemma DeleteAsWrittenKeeps(s: Store, id: string)
    ensures DeleteAsWritten(s, id).1.Some?
    ensures DeleteAsWritten(s, id).0 == s
    ensures ReadById(DeleteAsWritten(s, id).0, id) == ReadById(s, id)
    ensures HasLabel(s, id, TranscriptLabel) ==> ReadById(DeleteAsWritten(s, id).0, id).Success?
  {
  }

  /** A concrete transcript that survives the delete as written. */
  lemma DeleteAsWrittenExample()
    ensures var s := Store(map["t1" := TranscriptNode("title", "text", None)], []);
      var after := DeleteAsWritten(s, "t1");
      after.1.Some? && ReadById(after.0, "t1") == Success(Transcript("t1", "title", "text", None, []))
  {
  }

  /** The corrected delete never throws, removes the transcript with its
      relationships, and keeps every other node and the store's validity. */
  lemma DeleteEffect(s: Store, id: string)
    requires Valid(s)
    ensures RunDelete(s, id, "DETACH DELETE").1.None?
    ensures ReadById(Delete(s, id), id).Failure?
    ensures Valid(Delete(s, id))
    ensures forall k :: k != id && k in s.nodes ==> k in Delete(s, id).nodes && Delete(s, id).nodes[k] == s.nodes[k]
    ensures ReadById(s, id).Success? ==>
      forall i :: 0 <= i < |Delete(s, id).edges| ==> Delete(s, id).edges[i].src != id && Delete(s, id).edges[i].dst != id
  {
    DeleteNodeEffect(s, id, TranscriptLabel);
  }
}

=== FILE: uuid.dfy ===
/** The `UUIDv4RegexExp` test the person repository uses to decide whether a
    category or nationality reference is an existing node id or a free-typed
    name: the string form of section 3 of RFC 4122 with the version nibble of
    section 4.1.3 fixed to 4 and the variant bits of section 4.1.1 set to 10,
    matched case-insensitively and anchored at both ends. */
module Uuid {
  import opened Seqs

  /** One position of a fixed-width pattern. */
  datatype CharClass =
    | Hex          // `[0-9A-F]` under the `i` flag
    | Lit(c: char) // a literal character
    | Variant      // `[89AB]` under the `i` flag

  predicate IsHexDigit(c: char) {
    '0' <= c <= '9' || 'a' <= c <= 'f' || 'A' <= c <= 'F'
  }

  predicate IsVariantDigit(c: char) {
    c == '8' || c == '9' || c == 'a' || c == 'b' || c == 'A' || c == 'B'
  }

  predicate Accepts(k: CharClass, c: char) {
    match k
    case Hex => IsHexDigit(c)
    case Lit(d) => c == d
    case Variant => IsVariantDigit(c)
  }

  /** `[0-9A-F]{8}-[0-9A-F]{4}-4[0-9A-F]{3}-[89AB][0-9A-F]{3}-[0-9A-F]{12}`
      with every `{n}` written out. */
  function V4Pattern(): seq<CharClass> {
    Repeat(Hex, 8) + [Lit('-')] + Repeat(Hex, 4) + [Lit('-'), Lit('4')] + Repeat(Hex, 3)
    + [Lit('-'), Variant] + Repeat(Hex, 3) + [Lit('-')] + Repeat(Hex, 12)
  }

  /** Anchored match (`^...$`) of a fixed-width pattern, one class per character. */
  predicate MatchesAll(p: seq<CharClass>, s: string)
    decreases |p|
  {
    if |p| == 0 then |s| == 0
    else |s| > 0 && Accepts(p[0], s[0]) && MatchesAll(p[1..], s[1..])
  }

  /** The class the pattern puts at position `i`: dashes at 8, 13, 18 and
      23, the version '4' at 14, the variant at 19, a hex digit elsewhere. */
  function ClassAt(i: int): CharClass {
    if i == 8 || i == 13 || i == 18 || i == 23 then Lit('-')
    else if i == 14 then Lit('4')
    else if i == 19 then Variant
    else Hex
  }

  /** Positions `i` to 35 of a 36-character string match the pattern. */
  predicate MatchesFrom(s: string, i: nat)
    requires |s| == 36 && i <= 36
    decreases 36 - i
  {
    i == 36 || (Accepts(ClassAt(i), s[i]) && MatchesFrom(s, i + 1))
  }

  /** `s.match(UUIDv4RegexExp)` succeeds: 36 characters, each in the class
      the pattern puts at its position. */
  predicate IsUUIDv4(s: string) {
    |s| == 36 && MatchesFrom(s, 0)
  }

  /** The position walk checks every remaining position. */
  lemma {:induction false} MatchesFromIff(s: string, i: nat)
    requires |s| == 36 && i <= 36
    ensures MatchesFrom(s, i) <==> forall j :: i <= j < 36 ==> Accepts(ClassAt(j), s[j])
    decreases 36 - i
  {
    if i < 36 {
      MatchesFromIff(s, i + 1);
    }
  }

  /** An anchored fixed-width match is a position-by-position match. */
  lemma {:induction false} MatchesAllIff(p: seq<CharClass>, s: string)
    ensures MatchesAll(p, s) <==> |p| == |s| && forall i :: 0 <= i < |s| ==> Accepts(p[i], s[i])
    decreases |p|
  {
    if |p| > 0 && |s| > 0 {
      MatchesAllIff(p[1..], s[1..]);
      assert forall i :: 1 <= i < |s| ==> s[1..][i - 1] == s[i];
    }
  }

  /** The positions 8, 13, 18 and 23 hold the dashes; 14 the version; 19 the variant. */
  predicate IsFixedPosition(i: int) {
    i == 8 || i == 13 || i == 14 || i == 18 || i == 19 || i == 23
  }

  /** The character class the pattern puts at each position. */
  lemma V4PatternAt(i: int)
    requires 0 <= i < 36
    ensures |V4Pattern()| == 36
    ensures (i == 8 || i == 13 || i == 18 || i == 23) ==> V4Pattern()[i] == Lit('-')
    ensures i == 14 ==> V4Pattern()[i] == Lit('4')
    ensures i == 19 ==> V4Pattern()[i] == Variant
    ensures !IsFixedPosition(i) ==> V4Pattern()[i] == Hex
  {
    var a := Repeat(Hex, 8) + [Lit('-')];
    var b := a + Repeat(Hex, 4) + [Lit('-'), Lit('4')];
    var c := b + Repeat(Hex, 3) + [Lit('-'), Variant];
    var d := c + Repeat(Hex, 3) + [Lit('-')];
    assert V4Pattern() == d + Repeat(Hex, 12);
    assert |a| == 9 && |b| == 15 && |c| == 20 && |d| == 24;
    if i < 9 {
      assert V4Pattern()[i] == a[i];
    } else if i < 15 {
      assert V4Pattern()[i] == b[i];
    } else if i < 20 {
      assert V4Pattern()[i] == c[i];
    } else if i < 24 {
      assert V4Pattern()[i] == d[i];
    }
  }

  /** The position classes are the classes of the written-out pattern, so
      the UUIDv4 test is the anchored match of that pattern. */
  lemma UUIDv4IsPatternMatch(s: string)
    ensures IsUUIDv4(s) <==> MatchesAll(V4Pattern(), s)
  {
    MatchesAllIff(V4Pattern(), s);
    V4PatternAt(0);
    forall i | 0 <= i < 36
      ensures V4Pattern()[i] == ClassAt(i)
    {
      V4PatternAt(i);
    }
    if |s| == 36 {
      MatchesFromIff(s, 0);
    }
  }

  /** The UUIDv4 test, position by position: 36 characters, dashes at 8, 13,
      18 and 23, '4' at 14, one of 8, 9, a, b (either case) at 19, and a hex
      digit of either case everywhere else. */
  lemma UUIDv4Characterization(s: string)
    ensures IsUUIDv4(s) <==>
      && |s| == 36
      && s[8] == '-' && s[13] == '-' && s[18] == '-' && s[23] == '-'
      && s[14] == '4'
      && IsVariantDigit(s[19])
      && forall i :: 0 <= i < 36 && !IsFixedPosition(i) ==> IsHexDigit(s[i])
  {
    if |s| == 36 {
      MatchesFromIff(s, 0);
      assert Accepts(ClassAt(8), s[8]) <==> s[8] == '-';
      assert Accepts(ClassAt(13), s[13]) <==> s[13] == '-';
      assert Accepts(ClassAt(18), s[18]) <==> s[18] == '-';
      assert Accepts(ClassAt(23), s[23]) <==> s[23] == '-';
      assert Accepts(ClassAt(14), s[14]) <==> s[14] == '4';
      assert Accepts(ClassAt(19), s[19]) <==> IsVariantDigit(s[19]);
    }
  }

  /** The empty string and any string containing no dash are never UUIDv4
      strings, so a free-typed name without '-' always creates a new node. */
  lemma NoDashNotUUIDv4(s: string)
    requires forall i :: 0 <= i < |s| ==> s[i] != '-'
    ensures !IsUUIDv4(s)
  {
    UUIDv4Characterization(s);
  }

  /** A UUIDv4 string holds only hex digits and dashes, so in particular no
      '/' and no '.': it can be put into a file name without adding a path
      separator or an extension. */
  lemma UUIDv4Chars(s: string)
    requires IsUUIDv4(s)
    ensures forall i :: 0 <= i < |s| ==> s[i] == '-' || IsHexDigit(s[i])
  {
    UUIDv4Characterization(s);
  }
}

=== FILE: visual_graph.dfy ===
/** src/neo4j-sigma-graph.ts: keeping the on-screen graph in step with the
    nodes and paths read from the database. The on-screen graph holds at most
    one node per id and at most one edge per ordered pair of node ids; nodes
    and edges are only ever added, never replaced. */
module VisualGraph {
  import opened Wrappers
  import opened Seqs

  /** An attribute value; a property the database node lacks reads as `undefined`. */
  datatype Value = Str(s: string) | Undefined

  type Attrs = map<string, Value>

  /** A node as the driver returns it: internal identity, labels, properties. */
  datatype DbNode = DbNode(identity: int, labels: seq<string>, props: map<string, string>)

  /** A relationship: its type and the identities of its stored start and end nodes. */
  datatype DbRel = DbRel(relType: string, start: int, end: int)

  /** One step of a path, `start` and `end` in the order the path walks them. */
  datatype Segment = Segment(rel: DbRel, start: DbNode, end: DbNode)

  /** The on-screen graph: node attributes by node key, edge attributes by
      ordered pair of node keys. */
  datatype Graph = Graph(nodes: map<string, Attrs>, edges: map<(string, string), Attrs>)

  /** `attributes[k]`, `undefined` when the key is missing. */
  function Get(a: Attrs, k: string): Value {
    if k in a then a[k] else Undefined
  }

  /** `node.properties[k]`. */
  function Prop(n: DbNode, k: string): Value {
    if k in n.props then Str(n.props[k]) else Undefined
  }

  /** A value inside a template literal. */
  function Show(v: Value): string {
    match v
    case Str(x) => x
    case Undefined => "undefined"
  }

  /** The key a node is stored under: its `id` property as a string. */
  function NodeKey(n: DbNode): string {
    Show(Prop(n, "id"))
  }

  /** `node.labels[0].toUpperCase()`. */
  function NodeType(n: DbNode): string
    requires |n.labels| > 0
  {
    Upper(n.labels[0])
  }

  /** The attributes `addNodeToGraph` gives a node: its type, the fixed
      `type: 'image'` and its id, plus the label and wifi properties when the
      type is PERSON. */
  function NodeAttrs(n: DbNode): (r: Attrs)
    requires |n.labels| > 0
  {
    var base := map["node_type" := Str(NodeType(n)), "type" := Str("image"), "id" := Prop(n, "id")];
    if NodeType(n) == "PERSON" then
      base["label" := Str(Show(Prop(n, "essid")) + " - " + Show(Prop(n, "bssid")))]
          ["essid" := Prop(n, "essid")]["bssid" := Prop(n, "bssid")]["password" := Prop(n, "password")]
          ["pin" := Prop(n, "pin")]["handshakes" := Prop(n, "handshakes")]
    else base
  }

  /** `addNodeToGraph`: adds the node unless one with its key is already there. */
  function AddNode(g: Graph, n: DbNode): Graph
    requires |n.labels| > 0
  {
    if NodeKey(n) in g.nodes then g else g.(nodes := g.nodes[NodeKey(n) := NodeAttrs(n)])
  }

  /** The `low` half of the driver's 64-bit `Integer`: two identities have
      the same `low` exactly when they agree modulo 2^32. */
  function Low(identity: int): int {
    identity % 0x1_0000_0000
  }

  /** The key of the node the relationship really starts at: the segment's
      start when its identity's `low` is the relationship's start's `low`,
      else its end. Only the low 32 bits are compared. */
  function ActualStart(s: Segment): string {
    if Low(s.start.identity) == Low(s.rel.start) then NodeKey(s.start) else NodeKey(s.end)
  }

  /** The key of the node the relationship really ends at, compared the same way. */
  function ActualEnd(s: Segment): string {
    if Low(s.start.identity) == Low(s.rel.end) then NodeKey(s.start) else NodeKey(s.end)
  }

  /** The ordered pair an edge for the segment connects. */
  function PairOf(s: Segment): (string, string) {
    (ActualStart(s), ActualEnd(s))
  }

  /** `{ label: relationshipType, ...data }`: the keys of `data` win. */
  function EdgeAttrs(relType: string, data: Attrs): Attrs {
    map["label" := Str(relType)] + data
  }

  /** Both ends of every segment carry a label. */
  predicate Labelled(segs: seq<Segment>) {
    forall i :: 0 <= i < |segs| ==> |segs[i].start.labels| > 0 && |segs[i].end.labels| > 0
  }

  /** One segment of `addRelationPathToGraph`: both nodes, then the edge
      unless one joins the same ordered pair already. */
  function AddSegment(g: Graph, s: Segment, data: Attrs): Graph
    requires |s.start.labels| > 0 && |s.end.labels| > 0
  {
    var g2 := AddNode(AddNode(g, s.start), s.end);
    if PairOf(s) in g2.edges then g2
    else g2.(edges := g2.edges[PairOf(s) := EdgeAttrs(s.rel.relType, data)])
  }

  /** `addRelationPathToGraph`: the segments in order. */
  function AddPath(g: Graph, segs: seq<Segment>, data: Attrs): Graph
    requires Labelled(segs)
    decreases |segs|
  {
    if |segs| == 0 then g else AddPath(AddSegment(g, segs[0], data), segs[1..], data)
  }

  /** Every on-screen node carries an `id` attribute that shows as the key
      it is stored under. */
  predicate KeyedById(g: Graph) {
    forall k :: k in g.nodes ==> Show(Get(g.nodes[k], "id")) == k
  }

  /** The node keys a run of segments mentions. */
  function EndpointsOf(segs: seq<Segment>): set<string> {
    (set i | 0 <= i < |segs| :: NodeKey(segs[i].start)) + (set i | 0 <= i < |segs| :: NodeKey(segs[i].end))
  }

  /** The ordered pairs a run of segments joins. */
  function PairsOf(segs: seq<Segment>): set<(string, string)> {
    set i | 0 <= i < |segs| :: PairOf(segs[i])
  }

  // ------------------------------------------------------------ lemmas

  /** The attributes of an added node: its type is the upper-cased first
      label, its `type` is 'image' and its `id` is the node's id property. */
  lemma NodeAttrsBasics(n: DbNode)
    requires |n.labels| > 0
    ensures var a := NodeAttrs(n);
      && "node_type" in a && a["node_type"] == Str(Upper(n.labels[0]))
      && "type" in a && a["type"] == Str("image")
      && "id" in a && a["id"] == Prop(n, "id")
      && ("label" in a <==> Upper(n.labels[0]) == "PERSON")
  {
  }

  /** Adding a node twice is adding it once. */
  lemma AddNodeIdempotent(g: Graph, n: DbNode)
    requires |n.labels| > 0
    ensures AddNode(AddNode(g, n), n) == AddNode(g, n)
  {
  }

  /** A second node with a key already present changes nothing: the first
      attributes stay. */
  lemma AddNodeKeepsFirst(g: Graph, n1: DbNode, n2: DbNode)
    requires |n1.labels| > 0 && |n2.labels| > 0
    requires NodeKey(n1) == NodeKey(n2)
    ensures AddNode(AddNode(g, n1), n2) == AddNode(g, n1)
    ensures AddNode(AddNode(g, n1), n2).nodes[NodeKey(n2)] ==
      if NodeKey(n1) in g.nodes then g.nodes[NodeKey(n1)] else NodeAttrs(n1)
  {
  }

  /** What adding one node does: its key is present afterwards, nothing
      already there changes, and no edge is touched. */
  lemma AddNodeEffect(g: Graph, n: DbNode)
    requires |n.labels| > 0
    ensures var r := AddNode(g, n);
      && r.nodes.Keys == g.nodes.Keys + {NodeKey(n)}
      && (forall k :: k in g.nodes ==> r.nodes[k] == g.nodes[k])
      && r.edges == g.edges
  {
  }

  /** When the two ends' identities differ in their low 32 bits, an edge
      follows the stored relationship, whichever way the path walked it: from
      the node whose identity is the relationship's start to the one whose
      identity is its end. When they agree in their low 32 bits, both tests
      succeed and the pair joins the segment's start to itself. */
  lemma SegmentOrientation(s: Segment)
    requires || (s.rel.start == s.start.identity && s.rel.end == s.end.identity)
             || (s.rel.start == s.end.identity && s.rel.end == s.start.identity)
    ensures Low(s.start.identity) != Low(s.end.identity) ==>
      PairOf(s) == if s.rel.start == s.start.identity then (NodeKey(s.start), NodeKey(s.end)) else (NodeKey(s.end), NodeKey(s.start))
    ensures Low(s.start.identity) == Low(s.end.identity) ==> PairOf(s) == (NodeKey(s.start), NodeKey(s.start))
  {
  }

  /** Two nodes whose identities are 5 and 5 + 2^32, walked against their
      relationship: the edge drawn is a loop on the walk's start, not the
      stored end-to-start edge. */
  lemma LowCollisionSelfLoop()
    ensures var a := DbNode(5, ["Person"], map["id" := "a"]);
      var b := DbNode(5 + 0x1_0000_0000, ["Person"], map["id" := "b"]);
      var s := Segment(DbRel("HAS", 5 + 0x1_0000_0000, 5), a, b);
      && PairOf(s) == ("a", "a")
      && PairOf(s) != ("b", "a")
  {
    var a := DbNode(5, ["Person"], map["id" := "a"]);
    var b := DbNode(5 + 0x1_0000_0000, ["Person"], map["id" := "b"]);
    SegmentOrientation(Segment(DbRel("HAS", 5 + 0x1_0000_0000, 5), a, b));
  }

  /** What one segment adds: exactly its two node keys and at most its own
      ordered pair, and nothing already there changes. A new edge is labelled
      by `data`'s `label` if it has one, else by the relationship type, and
      carries the rest of `data`. */
  lemma AddSegmentEffect(g: Graph, s: Segment, data: Attrs)
    requires |s.start.labels| > 0 && |s.end.labels| > 0
    ensures var r := AddSegment(g, s, data);
      && r.nodes.Keys == g.nodes.Keys + {NodeKey(s.start), NodeKey(s.end)}
      && (forall k :: k in g.nodes ==> r.nodes[k] == g.nodes[k])
      && r.edges.Keys == g.edges.Keys + {PairOf(s)}
      && (forall p :: p in g.edges ==> r.edges[p] == g.edges[p])
      && (PairOf(s) !in g.edges ==>
            && r.edges[PairOf(s)]["label"] == (if "label" in data then data["label"] else Str(s.rel.relType))
            && (forall k :: k in data ==> k in r.edges[PairOf(s)] && r.edges[PairOf(s)][k] == data[k]))
  {
    AddSegmentNodes(g, s, data);
    AddSegmentEdges(g, s, data);
    if PairOf(s) !in g.edges {
      AddSegmentLabel(g, s, data);
    }
  }

  /** The nodes half of `AddSegmentEffect`. */
  lemma AddSegmentNodes(g: Graph, s: Segment, data: Attrs)
    requires |s.start.labels| > 0 && |s.end.labels| > 0
    ensures AddSegment(g, s, data).nodes.Keys == g.nodes.Keys + {NodeKey(s.start), NodeKey(s.end)}
    ensures forall k :: k in g.nodes ==> AddSegment(g, s, data).nodes[k] == g.nodes[k]
  {
    AddNodeEffect(g, s.start);
    AddNodeEffect(AddNode(g, s.start), s.end);
  }

  /** The edges half of `AddSegmentEffect`. */
  lemma AddSegmentEdges(g: Graph, s: Segment, data: Attrs)
    requires |s.start.labels| > 0 && |s.end.labels| > 0
    ensures AddSegment(g, s, data).edges.Keys == g.edges.Keys + {PairOf(s)}
    ensures forall p :: p in g.edges ==> AddSegment(g, s, data).edges[p] == g.edges[p]
  {
    AddNodeEffect(g, s.start);
    AddNodeEffect(AddNode(g, s.start), s.end);
  }

  /** The attributes of a new edge: the label and the rest of `data`. */
  lemma AddSegmentLabel(g: Graph, s: Segment, data: Attrs)
    requires |s.start.labels| > 0 && |s.end.labels| > 0
    requires PairOf(s) !in g.edges
    ensures PairOf(s) in AddSegment(g, s, data).edges
    ensures var e := AddSegment(g, s, data).edges[PairOf(s)];
      && e["label"] == (if "label" in data then data["label"] else Str(s.rel.relType))
      && (forall k :: k in data ==> k in e && e[k] == data[k])
  {
    AddNodeEffect(g, s.start);
    AddNodeEffect(AddNode(g, s.start), s.end);
    assert AddSegment(g, s, data).edges[PairOf(s)] == EdgeAttrs(s.rel.relType, data);
  }

  /** What a path adds: exactly the node keys its segments mention and
      exactly the ordered pairs they join, so both ends of every segment are
      nodes and every segment has its edge; nothing already there changes. */
  lemma AddPathEffect(g: Graph, segs: seq<Segment>, data: Attrs)
    requires Labelled(segs)
    ensures AddPath(g, segs, data).nodes.Keys == g.nodes.Keys + EndpointsOf(segs)
    ensures forall k :: k in g.nodes ==> AddPath(g, segs, data).nodes[k] == g.nodes[k]
    ensures AddPath(g, segs, data).edges.Keys == g.edges.Keys + PairsOf(segs)
    ensures forall p :: p in g.edges ==> AddPath(g, segs, data).edges[p] == g.edges[p]
  {
    AddPathNodes(g, segs, data);
    AddPathEdges(g, segs, data);
  }

  /** The rest of a labelled run is labelled. */
  lemma LabelledRest(segs: seq<Segment>)
    requires Labelled(segs) && |segs| > 0
    ensures Labelled(segs[1..])
    ensures |segs[0].start.labels| > 0 && |segs[0].end.labels| > 0
  {
    forall i | 0 <= i < |segs| - 1
      ensures |segs[1..][i].start.labels| > 0 && |segs[1..][i].end.labels| > 0
    {
      assert segs[1..][i] == segs[i + 1];
    }
  }

  /** The nodes half of `AddPathEffect`. */
  lemma {:induction false} AddPathNodes(g: Graph, segs: seq<Segment>, data: Attrs)
    requires Labelled(segs)
    ensures AddPath(g, segs, data).nodes.Keys == g.nodes.Keys + EndpointsOf(segs)
    ensures forall k :: k in g.nodes ==> AddPath(g, segs, data).nodes[k] == g.nodes[k]
    decreases |segs|
  {
    if |segs| > 0 {
      LabelledRest(segs);
      var g1 := AddSegment(g, segs[0], data);
      assert AddPath(g, segs, data) == AddPath(g1, segs[1..], data);
      AddSegmentNodes(g, segs[0], data);
      AddPathNodes(g1, segs[1..], data);
      EndpointsStep(segs);
    }
  }

  /** The edges half of `AddPathEffect`. */
  lemma {:induction false} AddPathEdges(g: Graph, segs: seq<Segment>, data: Attrs)
    requires Labelled(segs)
    ensures AddPath(g, segs, data).edges.Keys == g.edges.Keys + PairsOf(segs)
    ensures forall p :: p in g.edges ==> AddPath(g, segs, data).edges[p] == g.edges[p]
    decreases |segs|
  {
    if |segs| > 0 {
      LabelledRest(segs);
      var g1 := AddSegment(g, segs[0], data);
      assert AddPath(g, segs, data) == AddPath(g1, segs[1..], data);
      AddSegmentEdges(g, segs[0], data);
      AddPathEdges(g1, segs[1..], data);
      PairsStep(segs);
    }
  }

  /** The node keys of a run: the first segment's, then the rest's. */
  lemma EndpointsStep(segs: seq<Segment>)
    requires |segs| > 0
    ensures EndpointsOf(segs) == {NodeKey(segs[0].start), NodeKey(segs[0].end)} + EndpointsOf(segs[1..])
  {
    forall k | k in EndpointsOf(segs)
      ensures k in {NodeKey(segs[0].start), NodeKey(segs[0].end)} + EndpointsOf(segs[1..])
    {
      var i :| 0 <= i < |segs| && (k == NodeKey(segs[i].start) || k == NodeKey(segs[i].end));
      if i > 0 {
        assert segs[1..][i - 1] == segs[i];
      }
    }
    forall k | k in EndpointsOf(segs[1..])
      ensures k in EndpointsOf(segs)
    {
      var i :| 0 <= i < |segs[1..]| && (k == NodeKey(segs[1..][i].start) || k == NodeKey(segs[1..][i].end));
      assert segs[1..][i] == segs[i + 1];
    }
  }

  /** The pairs of a run: the first segment's, then the rest's. */
  lemma PairsStep(segs: seq<Segment>)
    requires |segs| > 0
    ensures PairsOf(segs) == {PairOf(segs[0])} + PairsOf(segs[1..])
  {
    forall p | p in PairsOf(segs)
      ensures p in {PairOf(segs[0])} + PairsOf(segs[1..])
    {
      var i :| 0 <= i < |segs| && p == PairOf(segs[i]);
      if i > 0 {
        assert segs[1..][i - 1] == segs[i];
      }
    }
    forall p | p in PairsOf(segs[1..])
      ensures p in PairsOf(segs)
    {
      var i :| 0 <= i < |segs[1..]| && p == PairOf(segs[1..][i]);
      assert segs[1..][i] == segs[i + 1];
    }
  }

  /** Adding a path twice is adding it once. */
  /** `addNodeToGraph` stores a node under its `id` property and copies that
      property into its attributes, so the key shows in the attributes. */
  lemma AddNodeKeyedById(g: Graph, n: DbNode)
    requires |n.labels| > 0
    requires KeyedById(g)
    ensures KeyedById(AddNode(g, n))
  {
    NodeAttrsBasics(n);
  }

  /** Adding paths keeps every on-screen node keyed by its `id` attribute. */
  lemma {:induction false} AddPathKeyedById(g: Graph, segs: seq<Segment>, data: Attrs)
    requires Labelled(segs)
    requires KeyedById(g)
    ensures KeyedById(AddPath(g, segs, data))
    decreases |segs|
  {
    if |segs| > 0 {
      var s := segs[0];
      AddNodeKeyedById(g, s.start);
      AddNodeKeyedById(AddNode(g, s.start), s.end);
      assert KeyedById(AddSegment(g, s, data));
      AddPathKeyedById(AddSegment(g, s, data), segs[1..], data);
    }
  }

  lemma AddPathIdempotent(g: Graph, segs: seq<Segment>, data: Attrs)
    requires Labelled(segs)
    ensures AddPath(AddPath(g, segs, data), segs, data) == AddPath(g, segs, data)
  {
    var r := AddPath(g, segs, data);
    var r2 := AddPath(r, segs, data);
    AddPathEffect(g, segs, data);
    AddPathEffect(r, segs, data);
    MapsAgree(r.nodes, r2.nodes);
    MapsAgree(r.edges, r2.edges);
  }

  /** Two maps with the same keys and the same value at every key are equal. */
  lemma MapsAgree<K, V>(a: map<K, V>, b: map<K, V>)
    requires a.Keys == b.Keys
    requires forall k :: k in a ==> b[k] == a[k]
    ensures b == a
  {
  }

  // ------------------------------------------------------------ queries

  /** lodash `capitalize`: the first character upper-cased, the rest lower-cased. */
  function Capitalize(x: string): string {
    if |x| == 0 then "" else [UpperChar(x[0])] + Lower(x[1..])
  }

  /** The label `getNodesByLabel(t)` matches on: `capitalize(t.toLowerCase())`. */
  function QueriedLabel(t: string): string {
    Capitalize(Lower(t))
  }

  /** `getNodesByLabel`: with no session (no driver) nothing; otherwise the
      nodes carrying the queried label, in the order the database returns them. */
  function NodesByLabel(connected: bool, db: seq<DbNode>, t: string): (r: seq<DbNode>)
    ensures !connected ==> r == []
    ensures IsSubseq(r, db)
    ensures forall i :: 0 <= i < |r| ==> QueriedLabel(t) in r[i].labels
    ensures connected ==> forall i :: 0 <= i < |db| && QueriedLabel(t) in db[i].labels ==> db[i] in r
  {
    if connected then Filter(db, (n: DbNode) => QueriedLabel(t) in n.labels) else []
  }

  /** `MATCH (n { id: $nodeId })` matches a node exactly when it has an `id`
      property equal to the key; a node without one never matches. */
  predicate HasId(n: DbNode, key: string) {
    Prop(n, "id") == Str(key)
  }

  /** `getNodeById`: the first node whose `id` property is the key, or
      nothing when there is none or no session. */
  function NodeById(connected: bool, db: seq<DbNode>, key: string): (r: Option<DbNode>)
    ensures r.None? <==> !connected || forall i :: 0 <= i < |db| ==> !HasId(db[i], key)
    ensures r.Some? ==> r.value in db && "id" in r.value.props && r.value.props["id"] == key && NodeKey(r.value) == key
  {
    if !connected then None else FirstWithKey(db, key)
  }

  function FirstWithKey(db: seq<DbNode>, key: string): (r: Option<DbNode>)
    ensures r.None? <==> forall i :: 0 <= i < |db| ==> !HasId(db[i], key)
    ensures r.Some? ==> r.value in db && HasId(r.value, key)
    decreases |db|
  {
    if |db| == 0 then None
    else if HasId(db[0], key) then Some(db[0])
    else FirstWithKey(db[1..], key)
  }

  /** No lower-case ASCII letter: the spelling of every `NodeType`. */
  predicate UpperName(t: string) {
    forall i :: 0 <= i < |t| ==> !('a' <= t[i] <= 'z')
  }

  /** For a name with no lower-case ASCII letter, upper-casing the queried
      label gives the name back, so a node found by `getNodesByLabel(t)`
      whose first label is the queried one gets `node_type` t on screen. */
  lemma QueriedLabelRoundTrip(t: string)
    requires UpperName(t)
    ensures Upper(QueriedLabel(t)) == t
  {
    var l := Lower(t);
    var q := QueriedLabel(t);
    if |t| > 0 {
      assert q == [UpperChar(l[0])] + Lower(l[1..]);
      var u := Upper(q);
      assert |u| == |t|;
      forall i | 0 <= i < |t|
        ensures u[i] == t[i]
      {
        FoldBack(t[i]);
        if i > 0 {
          assert q[i] == Lower(l[1..])[i - 1] == LowerChar(l[i]);
        }
      }
    }
  }

  /** A character that is not a lower-case letter survives folding down
      and back up, however often it is folded down. */
  lemma FoldBack(c: char)
    requires !('a' <= c <= 'z')
    ensures UpperChar(LowerChar(c)) == c
    ensures UpperChar(UpperChar(LowerChar(c))) == c
    ensures UpperChar(LowerChar(LowerChar(c))) == c
  {
  }

  /** A node found by `getNodesByLabel(t)` whose first label is the queried
      one shows with `node_type` t. */
  lemma FoundNodeType(connected: bool, db: seq<DbNode>, t: string, i: nat)
    requires UpperName(t)
    requires i < |NodesByLabel(connected, db, t)|
    requires NodesByLabel(connected, db, t)[i].labels[0] == QueriedLabel(t)
    ensures NodeType(NodesByLabel(connected, db, t)[i]) == t
  {
    QueriedLabelRoundTrip(t);
  }
}

=== FILE: wrappers.dfy ===
/** Failure-compatible wrappers shared by every module of the model. */
module Wrappers {

  /** A value that may be absent: JavaScript's `null`/`undefined`. */
  datatype Option<+T> = None | Some(value: T) {

    function GetOr(default: T): T {
      match this
      case Some(v) => v
      case None => default
    }
  }

  /** The outcome of an operation that can throw; the error carries the
      message the source puts in its `Error`. */
  datatype Result<+T> = Success(value: T) | Failure(error: string) {

    predicate IsFailure() {
      Failure?
    }

    function PropagateFailure<U>(): Result<U>
      requires Failure?
    {
      Failure(error)
    }

    function Extract(): T
      requires Success?
    {
      value
    }
  }
}
